=== FILE: README.md ===
# A Dafny model of the ANOMI matching engine and settlement programs

This project models the on-chain core of the ANOMI prototype, a peer-to-peer
fiat-to-crypto exchange on Solana.

**The market program's order book**
- Price levels are kept in two crit-bit trees, one for bids and one for asks.
  Each tree lives in a pre-allocated arena of 50 nodes with a bump allocator.
- Each level points at a FIFO queue of orders in a shared slab of 50 queues.
- The book caches its best bid and best ask.
- `match_order` fills an incoming order from the opposite side:
  - best price first, oldest order first within a price;
  - only within the taker's limit price;
  - stopping at the first resting order owned by the taker.

**The three settlement state machines**
- The zk2p ANOMI program: a trade goes from `AwaitingPayment` to `Completed`.
  Both steps are guarded by stub string proofs.
- The order-processor program: a pending matched order is settled after a
  structural Groth16 proof check.
- The order-store program: status setters with no guard.

Modules follow the source files:

| module | file | contents |
|---|---|---|
| `Base` | all | integer widths, `Pubkey`, `Option`, `Result`, the market error codes |
| `Bits` | critbit.rs | `get_bit`, `find_critical_bit`, `leading_zeros` on 64-bit keys |
| `CritBitArena` | critbit.rs | nodes, the arena, its well-formedness `Valid` and abstract `Contents`, and the graft and prune lemmas behind insert and remove |
| `CritBit` | critbit.rs | `new`, `alloc_node`, `insert`, `remove`, `find`, `min`, `max` |
| `Orders` | order.rs | `Side`, `Order`, `fill`, `fill_percentage`, `generate_order_id` |
| `OrderQueues` | order.rs | `OrderQueue` and its operations |
| `OrderBooks` | order_book.rs | the book, its invariant `Inv`, and every operation except `match_order` |
| `Matching` | order_book.rs | `match_order`, and the reference `Matched` it is proved to follow |
| `AnomiTrade` | zk2p/anomi/programs/anomi/src/lib.rs | `accept_ask`, `finalize_trade` |
| `OrderStore` | order-store/src/lib.rs | `create_matched_order`, `confirm_order`, `settle_order` |
| `OrderProcessor` | order-processor/src/lib.rs | `finalize_trade`, `validate_groth16_proof` |

## How the model works

**The arena**
- A crit-bit tree is modelled as the source stores it: a `seq<Node>` indexed by
  `u32`, plus `root`, `leafCount` and the bump pointer `freeList`.
- Its meaning is given by a ghost binary tree `Shape` that the arena must
  realize. Under that shape:
  - every reachable index is below `freeList`;
  - parent and child pointers agree;
  - no index occurs twice, so there are no cycles and no sharing;
  - `leafCount` counts the leaves;
  - every inner node routes its keys: the left subtree holds exactly the keys
    whose bit `prefix_len` is clear, the right subtree those whose bit is set.
- `Contents(t)` is the map from key (price) to order index (queue slot) held
  in the leaves.
- Every tree operation is stated against `Contents`.

The routing condition does not order the keys, which is why `min` and `max`
visit every leaf. The source's `insert` puts the new inner node directly
above the leaf the search reached, not at the critical-bit position. The model
proves that the routing condition, and so lookup, survives this anyway.

**The book**
- `Levels(b, side)` maps each price to the orders queued there, oldest first.
  This is the abstract view of one side of the book.
- `Inv(b)` says:
  - both trees are valid 50-node arenas;
  - each level names its own queue slot below `next_queue_index`, and no slot
    serves two levels (on either side);
  - each level's queue is non-empty and holds orders of that price and side;
  - every queue's running total is at least the quantity queued;
  - the slots from `next_queue_index` on are untouched;
  - `total_orders` counts every queued order;
  - the cached prices are the highest bid (0 if there is none) and the lowest
    ask (`u64::MAX` if there is none).

**Matching**
- `Matching.Matched` is a reference definition over `Levels` alone.
- `MatchOrder` runs on the trees and the slab, and is proved to produce exactly
  the fills and resting levels that `Matched` describes.
- The properties of matching are proved once, about `Matched`:
  - quantity is conserved;
  - every fill is within the limit;
  - fills come in price order;
  - matching stops only for the stated reasons;
  - a self-trade blocks matching.

**Integers and errors**
- Integers are Rust's widths, written as subset types of `int`.
- Rust arithmetic that can overflow is modelled as checked: an overflow aborts
  the transaction and appears as the error `Overflow`. This is the behaviour of
  Anchor programs built with `overflow-checks = true`. The build profile is not
  part of this model.
- Any error means the transaction is reverted. The state from before the call
  stands, so failing operations return only the error.

## Model

| member | source | states |
|---|---|---|
| Bits.GetBit | anomi-zk-prototype/programs/market/src/critbit.rs:110-116 | a bit position of 64 or more reads as false |
| Bits.LeadingZeros | anomi-zk-prototype/programs/market/src/critbit.rs:107 | `leading_zeros` is 64 exactly for zero; otherwise bit 63-n is the highest set bit |
| Bits.FindCriticalBit | anomi-zk-prototype/programs/market/src/critbit.rs:101-108 | the result is 64 iff the keys are equal; otherwise the keys differ in that bit and agree in every higher one |
| CritBitArena.NewLeaf | anomi-zk-prototype/programs/market/src/critbit.rs:39-49 | a leaf with the key and order index and all pointers null |
| CritBitArena.NewInner | anomi-zk-prototype/programs/market/src/critbit.rs:51-61 | an inner node testing the given bit, with all pointers null |
| CritBitArena.LeafCountIsSize | anomi-zk-prototype/programs/market/src/critbit.rs:69-70 | the leaves of a well-formed tree have distinct keys: the number of keys equals the number of leaves |
| CritBit.New | anomi-zk-prototype/programs/market/src/critbit.rs:78-99 | a valid empty tree with `capacity` free slots and the bump pointer at 0 |
| CritBit.AllocNode | anomi-zk-prototype/programs/market/src/critbit.rs:118-127 | hands out the slot at the bump pointer and advances it; `OrderBookFull` exactly when the pointer has reached the arena length (as u32) |
| CritBit.LeafCountMatches | anomi-zk-prototype/programs/market/src/critbit.rs:69-70 | in a valid tree `leaf_count` equals the number of keys |
| CritBit.Insert | anomi-zk-prototype/programs/market/src/critbit.rs:129-204 | the tree stays valid and maps the key to the index, every other key unchanged. It fails with `OrderBookFull` iff the key is new and the 1 slot (empty tree) or 2 slots needed are not free. It uses 0, 1 or 2 slots and adds a leaf only for a new key. An existing key changes no root, count or node other than order indices |
| CritBit.InsertFirst | anomi-zk-prototype/programs/market/src/critbit.rs:131-137 | the empty-tree case: the slot at the bump pointer becomes the root leaf, `leaf_count` becomes 1, and the contents are the one key |
| CritBit.Overwrite | anomi-zk-prototype/programs/market/src/critbit.rs:145-150 | the existing-key case: only order indices change, the tree stays valid and the key now maps to the new index |
| CritBit.Descend | anomi-zk-prototype/programs/market/src/critbit.rs:141-202 | the descent following the key's bits ends at an allocated leaf, which holds the key exactly when the tree does, with its index |
| CritBit.SplitLeaf | anomi-zk-prototype/programs/market/src/critbit.rs:153-194 | the new-key case: fails iff two slots are not free; otherwise the tree is valid with the key added, two slots used and one more leaf |
| CritBit.Link | anomi-zk-prototype/programs/market/src/critbit.rs:156-191 | the node writes splice a fresh inner node holding the old and the new leaf into the old leaf's place |
| CritBit.Remove | anomi-zk-prototype/programs/market/src/critbit.rs:206-266 | succeeds iff the key is present, returning its index; the tree stays valid without the key, `leaf_count` drops by one and the bump pointer stays. Otherwise `OrderNotFound` |
| CritBit.UnlinkLeaf | anomi-zk-prototype/programs/market/src/critbit.rs:231-256 | removing a leaf that has a parent: its sibling takes the parent's place and the tree stays valid without the key |
| CritBit.Unlink | anomi-zk-prototype/programs/market/src/critbit.rs:240-253 | the node writes redirect the grandparent (or the root) to the sibling and re-parent the sibling |
| CritBit.Find | anomi-zk-prototype/programs/market/src/critbit.rs:268-291 | the index stored for the key, `None` iff the key is absent |
| CritBit.FindMinLeaf | anomi-zk-prototype/programs/market/src/critbit.rs:303-331 | over all leaves of the subtree, the least key with its index |
| CritBit.FindMaxLeaf | anomi-zk-prototype/programs/market/src/critbit.rs:343-371 | over all leaves of the subtree, the greatest key with its index |
| CritBit.Min | anomi-zk-prototype/programs/market/src/critbit.rs:293-301 | the least key of the tree with its index; `None` iff the tree is empty |
| CritBit.Max | anomi-zk-prototype/programs/market/src/critbit.rs:333-341 | the greatest key of the tree with its index; `None` iff the tree is empty |
| Orders.Side.Opposite | anomi-zk-prototype/programs/market/src/order.rs:27-34 | the opposite side differs from the side |
| Orders.NewOrder | anomi-zk-prototype/programs/market/src/order.rs:99-131 | remaining equals original quantity; status `Pending`; both payment timestamps 0; the payment method is the first min(len, 32) bytes, zero-padded; every other field as given |
| Orders.Fill | anomi-zk-prototype/programs/market/src/order.rs:146-149 | only the quantity changes and never grows. The order is filled iff the fill covers the quantity, otherwise it drops by exactly the fill. `quantity <= original_quantity` is preserved |
| Orders.FillPercentageAsWritten | anomi-zk-prototype/programs/market/src/order.rs:138-144 | the source's computation aborts exactly when more remains than was placed, or when the filled amount times 100 leaves 64 bits; otherwise the result is at most 100 |
| Orders.FillPercentageOverflows | anomi-zk-prototype/programs/market/src/order.rs:143 | a fully filled order of 2^63 aborts as written, while its intended percentage is 100 |
| Orders.FillPercentage | anomi-zk-prototype/programs/market/src/order.rs:138-144 | the filled share in whole percent, rounded down: 0 to 100, 0 for a zero original quantity, 100 once filled, 0 before any fill |
| Orders.FillPercentageAgrees | anomi-zk-prototype/programs/market/src/order.rs:138-144 | wherever the source's computation does not abort, it equals the intended percentage |
| Orders.I64AsU64 | anomi-zk-prototype/programs/market/src/order.rs:163 | `timestamp as u64` is the two's-complement bit pattern |
| Orders.GenerateOrderId | anomi-zk-prototype/programs/market/src/order.rs:152-179 | bits 96-127 hold the timestamp's low 32 bits, bits 64-95 the sequence's low 32 bits, and bits 0-63 the first 8 owner bytes read little-endian; each can be extracted back |
| Orders.LittleEndianInjective | anomi-zk-prototype/programs/market/src/order.rs:166-176 | `from_le_bytes` maps different byte strings of one length to different numbers |
| Orders.OrderIdsDiffer | anomi-zk-prototype/programs/market/src/order.rs:157-179 | ids differ when the sequences differ in their low 32 bits or the owners in their first 8 bytes |
| OrderQueues.EmptyQueue | anomi-zk-prototype/programs/market/src/order.rs:192-197 | an empty queue with total 0 |
| OrderQueues.Push | anomi-zk-prototype/programs/market/src/order.rs:199-203 | appends at the tail, keeping the earlier orders, and adds the order's quantity to the total; aborts iff the total would leave 64 bits |
| OrderQueues.PushPeek | anomi-zk-prototype/programs/market/src/order.rs:199-219 | first in, first out: after a push, `peek` sees the pushed order only if the queue was empty, and the old head otherwise |
| OrderQueues.Position | anomi-zk-prototype/programs/market/src/order.rs:207 | the position of the first order with the id, `None` iff there is none |
| OrderQueues.Remove | anomi-zk-prototype/programs/market/src/order.rs:205-214 | deletes the first order with the id, keeping the others in order, and subtracts its quantity from the total; aborts iff the total is smaller; an absent id changes nothing |
| OrderQueues.RemoveCovered | anomi-zk-prototype/programs/market/src/order.rs:205-214 | on a queue whose total covers its orders, `remove` never aborts and the total still covers them |
| OrderQueues.Peek | anomi-zk-prototype/programs/market/src/order.rs:216-219 | the oldest order; `None` iff the queue is empty |
| OrderQueues.PopIfFilled | anomi-zk-prototype/programs/market/src/order.rs:226-236 | removes the head, and only the head, iff it is filled; otherwise the queue is unchanged and the result is `None`. The total's excess over the queued quantity is unchanged |
| OrderQueues.UpdateQuantity | anomi-zk-prototype/programs/market/src/order.rs:243-250 | adds the delta to the total, stopping at 0 for a negative one; aborts iff the sum leaves 64 bits or the delta is `i64::MIN`; orders unchanged |
| OrderQueues.UpdateQuantityUndo | anomi-zk-prototype/programs/market/src/order.rs:243-250 | an update that neither stops at 0 nor aborts is undone by the opposite one |
| OrderBooks.New | anomi-zk-prototype/programs/market/src/order_book.rs:43-62 | a book that satisfies the invariant: no levels, no orders, `next_queue_index` 0, both trees' `free_list` 0, every queue empty, best bid 0, best ask `u64::MAX`, header as given |
| OrderBooks.UpdateBestPrices | anomi-zk-prototype/programs/market/src/order_book.rs:161-166 | only the cached prices change; they become the highest bid key (0 if none) and the lowest ask key (`u64::MAX` if none) |
| OrderBooks.BestPriceIsBestLevel | anomi-zk-prototype/programs/market/src/order_book.rs:31-34 | under the invariant each cached price is the best price level of its side, or the side's sentinel when it has none |
| OrderBooks.InsertOrder | anomi-zk-prototype/programs/market/src/order_book.rs:64-99 | appends the order at its price level, opening the level if needed; the other side is unchanged, `total_orders` rises by 1 and the invariant holds. An existing level takes no queue slot and its tree is untouched. A new level takes slot `next_queue_index`, which rises by 1, and one arena node (the side's first key) or two. Only that slot changes: it gains the order at its tail and `quantity` in its running total, starting from an empty queue for a new level. The side's price-to-slot map gains the price at that slot and the opposite tree is untouched. Fails with `OrderBookFull` iff a new level finds no free slot or tree room; otherwise fails with `Overflow` iff the queue total or the order count would leave 64 bits |
| OrderBooks.Enqueue | anomi-zk-prototype/programs/market/src/order_book.rs:66-90 | the queue-and-tree part of the insert, with the same level effect, slot and node use, running-total change and error conditions |
| OrderBooks.OpenLevel | anomi-zk-prototype/programs/market/src/order_book.rs:75-90 | a new price takes slot `next_queue_index` (shared by both sides), which rises by 1, and a tree leaf mapping the price to that slot, using one or two arena nodes; that slot becomes a one-order queue whose total is the order's quantity, no other slot changes and the opposite tree is untouched; `OrderBookFull` iff all 50 slots or the tree arena are used |
| OrderBooks.InsertScenario | anomi-zk-prototype/programs/market/src/order_book.rs:64-99 | on a new book, asks of 5 at 100, 3 at 100 and 3 at 101 all rest: slot 0 holds price 100 with total 8 and slot 1 holds price 101 with total 3 |
| OrderBooks.PushLevel | anomi-zk-prototype/programs/market/src/order_book.rs:72-74 | a price already in the tree: only its slot changes, gaining the order at its tail and `quantity` in its total; neither tree moves, and the side's levels gain the order at that price; `Overflow` iff the queue total would leave 64 bits |
| OrderBooks.PushExisting | anomi-zk-prototype/programs/market/src/order_book.rs:72-74 | pushing onto an existing level keeps the level structure, adds the order at that level's tail and counts one more queued order |
| OrderBooks.PushNew | anomi-zk-prototype/programs/market/src/order_book.rs:82-89 | filling the next slot and adding the price to the tree keeps the level structure and adds a one-order level |
| OrderBooks.RemoveOrder | anomi-zk-prototype/programs/market/src/order_book.rs:101-129 | succeeds iff the level exists and holds the id, returning that order. The level loses it and leaves the tree if it becomes empty; the other side is unchanged; `total_orders` drops by 1; the invariant holds. Only that level's slot changes: the order leaves it and its quantity leaves the running total. The opposite tree is untouched, the side's tree too while the level keeps orders. `next_queue_index` and both trees' `free_list` are unchanged, so no slot or node is given back. Otherwise `OrderNotFound` |
| OrderBooks.Dequeue | anomi-zk-prototype/programs/market/src/order_book.rs:103-120 | the queue-and-tree part of the remove: a missing level or id is `OrderNotFound`; only the level's slot changes, losing the order and its quantity from the running total; both trees' `free_list` are unchanged |
| OrderBooks.TakeOut | anomi-zk-prototype/programs/market/src/order_book.rs:112-120 | taking the order out of a known level's queue, and its quantity out of the running total, dropping the level when its queue empties; no other slot changes and no arena pointer moves |
| OrderBooks.DropLevel | anomi-zk-prototype/programs/market/src/order_book.rs:117-120 | the emptied level's price leaves its tree; the other tree is unchanged and neither tree's `free_list` moves; the side's price-to-slot map loses exactly that price |
| OrderBooks.BestLevel | anomi-zk-prototype/programs/market/src/order_book.rs:138-141 | `max` of the bid tree or `min` of the ask tree: the side's best price level with its slot; `None` iff the side is empty |
| OrderBooks.GetBestOrder | anomi-zk-prototype/programs/market/src/order_book.rs:131-144 | the oldest order at the side's best price; `None` iff the side is empty |
| OrderBooks.GetDepth | anomi-zk-prototype/programs/market/src/order_book.rs:168-187 | at most one entry: the best price with its queue's running total, which bounds the queued quantity from above; the level count is ignored |
| OrderBooks.GetSpread | anomi-zk-prototype/programs/market/src/order_book.rs:189-195 | `None` iff a cached price is its sentinel; otherwise the ask minus the bid, saturating at 0 |
| OrderBooks.SpreadOfBook | anomi-zk-prototype/programs/market/src/order_book.rs:189-195 | read off the trees: `None` when a side is empty, otherwise the saturated difference of the best levels (or `None` when they equal the sentinels) |
| OrderBooks.GetMidPriceAsWritten | anomi-zk-prototype/programs/market/src/order_book.rs:197-203 | the source's computation aborts exactly when both prices are set and their sum leaves 64 bits |
| OrderBooks.GetMidPrice | anomi-zk-prototype/programs/market/src/order_book.rs:197-203 | `None` iff a cached price is its sentinel; otherwise the floor of the average of the two prices, between them when the book is not crossed |
| OrderBooks.MidPriceOverflows | anomi-zk-prototype/programs/market/src/order_book.rs:202 | a bid of 2^63 and an ask of 2^63+2 abort as written, while their midpoint 2^63+1 exists |
| OrderBooks.MidPriceAgrees | anomi-zk-prototype/programs/market/src/order_book.rs:197-203 | wherever the source's sum does not abort, it gives the intended midpoint |
| OrderBooks.WouldSelfTrade | anomi-zk-prototype/programs/market/src/order_book.rs:289-295 | true iff the oldest order at the best opposite price belongs to the owner |
| Matching.TakeHead | anomi-zk-prototype/programs/market/src/order_book.rs:257-273 | taking from a level's oldest order keeps every level non-empty and removes no price it did not have |
| Matching.TakeHeadShrinks | anomi-zk-prototype/programs/market/src/order_book.rs:252-264 | a round that fills nothing pops an order, so the loop terminates |
| Matching.Next | anomi-zk-prototype/programs/market/src/order_book.rs:218-260 | a round stops iff nothing is wanted, the side is empty, the best price is beyond the limit, or its oldest order is the taker's. Otherwise it fills at the best price within the limit, and the fill plus what remains is what was wanted |
| Matching.MatchedConserves | anomi-zk-prototype/programs/market/src/order_book.rs:252-259 | the fills plus the unmatched quantity equal the incoming quantity |
| Matching.MatchedWithinLimit | anomi-zk-prototype/programs/market/src/order_book.rs:231-239 | every fill is at a resting price the limit accepts, and no level is created |
| Matching.MatchedInPriceOrder | anomi-zk-prototype/programs/market/src/order_book.rs:219-229 | each fill is at a price at least as good for the taker as every later fill |
| Matching.MatchedStops | anomi-zk-prototype/programs/market/src/order_book.rs:218-250 | with quantity left and levels left, matching stopped only because the best price is beyond the limit or its oldest order is the taker's |
| Matching.SelfTradeBlocks | anomi-zk-prototype/programs/market/src/order_book.rs:245-250 | when the oldest order at the best price is the taker's, nothing matches, even if other orders rest behind it |
| Matching.MatchStep | anomi-zk-prototype/programs/market/src/order_book.rs:219-276 | one round on the book: it breaks iff the reference stops. Otherwise it fills `min(rem, quantity)` of the oldest order at the best price, which is within the limit and not the taker's, at the maker's price; the resting levels become those with that head taken. Neither tree's `free_list` moves, and the taker's side and tree are unchanged. No resting level opens, and only the queue of the level filled from is written |
| Matching.NextFills | anomi-zk-prototype/programs/market/src/order_book.rs:219-273 | a round that takes the head of the best acceptable level, not the taker's own, is exactly the reference's next step |
| Matching.TakeFill | anomi-zk-prototype/programs/market/src/order_book.rs:252-273 | the fill of the oldest order, its pop and the level's removal on the book equal the reference `TakeHead`. They leave every running total as it was and write no queue but that level's |
| Matching.FillInPlace | anomi-zk-prototype/programs/market/src/order_book.rs:257-259 | a partial fill rewrites the oldest order in place, leaving the queue's running total unchanged |
| Matching.PopHead | anomi-zk-prototype/programs/market/src/order_book.rs:261-264 | a filled oldest order leaves its queue; the level remains while it has orders |
| Matching.PopLast | anomi-zk-prototype/programs/market/src/order_book.rs:265-272 | a filled last order leaves, and its level leaves the resting side's tree only |
| Matching.CountOrders | anomi-zk-prototype/programs/market/src/order_book.rs:279-282 | the number of orders over all queues |
| Matching.MatchLoop | anomi-zk-prototype/programs/market/src/order_book.rs:214-277 | the rounds produce exactly the reference's fills and resting levels. The taker's side and tree, the header, both trees' `free_list` and every running total are unchanged, and so is every slot that no resting level names. No fills means no round, so the book is unchanged |
| Matching.Recount | anomi-zk-prototype/programs/market/src/order_book.rs:279-284 | `total_orders` is recounted from the queues and the cached prices refreshed; the invariant holds |
| Matching.MatchOrder | anomi-zk-prototype/programs/market/src/order_book.rs:205-287 | the fills and the resting side left are exactly those of the reference. The taker's side and tree are unchanged, neither tree's `free_list` moves, and every queue slot that no resting level names is unchanged. The fills total at most `max_quantity` and are all within the limit, and the invariant holds. `total_orders` never rises, and a match with no fills returns the book exactly as it was |
| Matching.MatchNothing | anomi-zk-prototype/programs/market/src/order_book.rs:214-287 | an incoming order for quantity 0 runs no round (the loop needs `remaining_quantity > 0`), and the recount and price refresh give back the same book, `total_orders` included |
| Matching.MatchScenario | anomi-zk-prototype/programs/market/src/order_book.rs:205-287 | on a new book, a bid of 5 up to 100 fills nothing and moves no arena pointer, after which an ask of 5 at 100 rests as the only ask level |
| AnomiTrade.AcceptAsk | zk2p/anomi/programs/anomi/src/lib.rs:72-120 | `InvalidSolvencyProof` iff the proof is not the expected string; otherwise a trade between buyer and seller for amount 100 at price 285, awaiting payment |
| AnomiTrade.FinalizeTrade | zk2p/anomi/programs/anomi/src/lib.rs:124-169 | `InvalidTradeState` unless awaiting payment (checked first), then `InvalidPaymentProof` unless the proof matches; on success exactly the trade's amount is released and only the status changes, to `Completed` |
| AnomiTrade.ReleasedAtMostOnce | zk2p/anomi/programs/anomi/src/lib.rs:132-165 | over any number of finalize calls, escrow releases at most the amount once, nothing for a completed trade, and no field but the status changes |
| AnomiTrade.AcceptThenFinalize | zk2p/anomi/programs/anomi/src/lib.rs:80-165 | an accepted trade completes with the right payment proof and releases 100; a second finalize fails with `InvalidTradeState` |
| OrderStore.CreateMatchedOrder | anomi-zk-prototype/programs/order-store/src/lib.rs:9-29 | every argument stored, status `Pending`, created and updated now |
| OrderStore.ConfirmOrder | anomi-zk-prototype/programs/order-store/src/lib.rs:31-36 | from any status: `Confirmed`, updated now, nothing else changed |
| OrderStore.SettleOrder | anomi-zk-prototype/programs/order-store/src/lib.rs:38-43 | from any status: `Settled`, updated now, nothing else changed |
| OrderStore.RunKeepsRecord | anomi-zk-prototype/programs/order-store/src/lib.rs:31-43 | after any sequence of setters only status and update time have moved; `Cancelled` is never produced; the status is that of the last call |
| OrderStore.SettledCanBeConfirmed | anomi-zk-prototype/programs/order-store/src/lib.rs:31-43 | no transition is guarded: a settled order can be confirmed again |
| OrderProcessor.ValidateGroth16Proof | anomi-zk-prototype/programs/order-processor/src/lib.rs:86-120 | `MalformedProof` iff a proof element is all zero (checked first), then `InvalidPublicSignals` iff fewer than 2 signals; otherwise true |
| OrderProcessor.FinalizeTrade | anomi-zk-prototype/programs/order-processor/src/lib.rs:10-56 | `OrderNotPending` unless pending (checked first), then the validator's errors; on success the status requested is `Settled` |
| OrderProcessor.InvalidZKProofUnreachable | anomi-zk-prototype/programs/order-processor/src/lib.rs:30-38 | `InvalidZKProof` is never raised |
| OrderProcessor.FinalizeOnce | anomi-zk-prototype/programs/order-processor/src/lib.rs:19-24 | once the requested status is applied, a second finalize fails with `OrderNotPending` |
| OrderProcessor.FreshOrderSettles | anomi-zk-prototype/programs/order-processor/src/lib.rs:100-119 | a pending order settles with any proof whose three elements each begin with a non-zero byte, given at least 2 public signals |

## Left out

- The market program's `lib.rs` is not part of this model. It is a cross-program call stub with no logic of its own, and it calls `create_matched_order` with 4 arguments where the order store declares 6.
- The zk2p `create_ask_order` is left out. It only transfers tokens into escrow and logs, and keeps no state of the program.
- Token transfers are foreign calls. They are not modelled. `AnomiTrade.FinalizeTrade` returns the amount released as an effect, and assumes the transfer itself succeeds.
- Cross-program calls are not modelled. `OrderProcessor.FinalizeTrade` returns the status it requests from the order store. The order processor calls `update_order_status` (anomi-zk-prototype/programs/order-processor/src/lib.rs:43-52), but the order store declares no such instruction and no `UpdateOrderStatus` accounts (anomi-zk-prototype/programs/order-store/src/lib.rs:5-44 has only `create_matched_order`, `confirm_order` and `settle_order`), so that call targets an instruction that does not exist. `OrderProcessor.FinalizeOnce` assumes the request is applied as `OrderStore.SettleOrder`, which sets the same status; this is an assumption of the model, not behaviour of the source.
- `load_verification_key` and the real Groth16 pairing check are left out. The key is a placeholder and the check is not implemented in the program.
- The clock is a parameter `now`. `create_matched_order` reads `Clock::get()` twice; the model takes one reading for both fields.
- The program account wrappers are framework concerns and are not modelled: account contexts, seeds and bumps (the trade's `bump` is an input), `declare_id!`, serialization and `LEN` constants. So are `msg!` logs and the commented-out OpenBook code.
- `Orders.NewOrder` takes the payment method as its bytes. The UTF-8 encoding of the Rust `String` is not modelled.
- Integer overflow is modelled as an abort. This assumes the programs are built with overflow checks on, which Anchor's workspace profile sets; a build without them would wrap instead.
- `CritBit.Insert`, `OrderBooks.InsertOrder` and `OrderBooks.RemoveOrder` give only the pre-state on an error. The source leaves partly written state behind (a bumped node or queue slot, a pushed order), but the runtime reverts it.
- `CritBit.FindMinLeaf` and `CritBit.FindMaxLeaf` leave out the `EMPTY` check and the `None` arms. Every inner node of a well-formed tree has two children, so these are unreachable. Ties cannot occur either, since leaf keys are distinct.
- `Matching.MatchStep` leaves out `match_order`'s `else { break; }` arm for a queue with no head order (anomi-zk-prototype/programs/market/src/order_book.rs:274-276). Its precondition includes that every level's queue is non-empty, which the book invariant guarantees, so the arm is unreachable.
- Descent is one method, `CritBit.Descend`, shared by `insert`, `remove` and `find`. In the source each function repeats the same loop.
- Tree nodes and queue slots are never reused. This is as in the source. A book admits at most 50 price levels over its lifetime. Each tree has 50 nodes and every level after a side's first costs 2, so a side that never empties gets at most 25 levels.
- `get_best_order_mut` is covered by `OrderBooks.GetBestOrder`. It performs the same lookup; the mutable reference is not modelled.
- `OrderQueues.UpdateQuantity` is modelled but nothing calls it. In particular `match_order` does not call it, so a partial fill leaves a queue's running total above its queued quantity. The model keeps this as in the source. Totals are only known to cover the queued quantity, and `OrderBooks.GetDepth` reports that bound.
- `OrderBooks.GetDepth` ignores its `levels` argument, as the source does.
- `OrderBooks.GetSpread` and `OrderBooks.GetMidPrice` read the cached prices. A real bid at price 0 or a real ask at `u64::MAX` is indistinguishable from an empty side; `OrderBooks.SpreadOfBook` states this.
- A crossed book, with the best bid above the best ask, is not ruled out by the invariant. The source never matches on insert.

## Findings

| source | as written | input that shows it | evidently intended | confidence | as-written member | corrected member |
|---|---|---|---|---|---|---|
| anomi-zk-prototype/programs/market/src/order.rs:143 | `(original_quantity - quantity) * 100` is computed in `u64` | an order of 2^63 that is fully filled: 2^63 * 100 leaves 64 bits and aborts | the percentage 100, computed in wider arithmetic | not executed | Orders.FillPercentageAsWritten, Orders.FillPercentageOverflows | Orders.FillPercentage |
| anomi-zk-prototype/programs/market/src/order_book.rs:202 | `(best_bid + best_ask) / 2` is computed in `u64` | best bid 2^63, best ask 2^63 + 2: the sum leaves 64 bits and aborts | the midpoint 2^63 + 1, computed without overflow | not executed | OrderBooks.GetMidPriceAsWritten, OrderBooks.MidPriceOverflows | OrderBooks.GetMidPrice |

=== FILE: anomi_trade.dfy ===
/** The private settlement of the zk2p ANOMI program (lib.rs): a buyer
    accepts a listed ask with a solvency proof, which opens a `Trade` awaiting
    the fiat payment; a payment proof then releases the escrowed tokens to
    the buyer and completes the trade.

    Both proofs are stubs in the program, checked by exact string equality.
    The token transfer out of escrow is recorded as an effect: the amount
    `finalize_trade` releases. */
module AnomiTrade {
  import opened Base

  datatype TradeStatus = AwaitingPayment | Completed

  datatype Trade = Trade(
    buyer: Pubkey,
    seller: Pubkey,
    amount: u64,
    price: u64,
    status: TradeStatus,
    orderId: u128,
    bump: u8)

  datatype AnomiError = InvalidSolvencyProof | InvalidPaymentProof | InvalidTradeState

  /** The only solvency proof `accept_ask` accepts. */
  const SOLVENCY_PROOF: string := "valid_solvency_proof_123"
  /** The only payment proof `finalize_trade` accepts. */
  const PAYMENT_PROOF: string := "valid_payment_proof_xyz"
  /** The fixed amount and price a trade is opened with. */
  const TRADE_AMOUNT: u64 := 100
  const TRADE_PRICE: u64 := 285

  /** `accept_ask`: opens the trade between the signing buyer and the
      seller, for the fixed amount and price, awaiting payment; a wrong
      solvency proof opens nothing. */
  function AcceptAsk(buyer: Pubkey, seller: Pubkey, orderId: u128, solvencyProof: string, bump: u8): (r: Result<Trade, AnomiError>)
    ensures r.Failure? <==> solvencyProof != SOLVENCY_PROOF
    ensures r.Failure? ==> r.error == InvalidSolvencyProof
    ensures r.Success? ==>
      && r.value.buyer == buyer && r.value.seller == seller && r.value.orderId == orderId
      && r.value.amount == 100 && r.value.price == 285
      && r.value.status == AwaitingPayment && r.value.bump == bump
  {
    if solvencyProof != SOLVENCY_PROOF then Failure(InvalidSolvencyProof)
    else Success(Trade(buyer, seller, TRADE_AMOUNT, TRADE_PRICE, AwaitingPayment, orderId, bump))
  }

  /** `finalize_trade`: the trade must await payment (checked first) and the
      payment proof must match; then the trade's amount leaves escrow for
      the buyer and the trade is completed. The result pairs the new trade
      with the amount released. */
  function FinalizeTrade(t: Trade, paymentProof: string): (r: Result<(Trade, u64), AnomiError>)
    ensures r.Failure? <==> t.status != AwaitingPayment || paymentProof != PAYMENT_PROOF
    ensures r.Failure? ==> r.error == if t.status != AwaitingPayment then InvalidTradeState else InvalidPaymentProof
    ensures r.Success? ==> r.value.1 == t.amount
    ensures r.Success? ==> r.value.0.status == Completed && r.value.0.(status := t.status) == t
  {
    if t.status != AwaitingPayment then Failure(InvalidTradeState)
    else if paymentProof != PAYMENT_PROOF then Failure(InvalidPaymentProof)
    else Success((t.(status := Completed), t.amount))
  }

  /** A sequence of `finalize_trade` calls on one trade: each failed call
      leaves the trade as it was; the result is the final trade and the
      total amount released. */
  function Attempts(t: Trade, proofs: seq<string>): (r: (Trade, nat))
    decreases |proofs|
  {
    if proofs == [] then (t, 0)
    else match FinalizeTrade(t, proofs[0])
      case Failure(_) => Attempts(t, proofs[1..])
      case Success((t1, paid)) =>
        var rest := Attempts(t1, proofs[1..]);
        (rest.0, paid + rest.1)
  }

  /** Escrow is released at most once: however many finalize calls follow,
      an awaiting trade releases at most its amount, a completed one
      nothing, and the trade ends completed exactly when something was
      released or it already was. */
  lemma {:induction false} ReleasedAtMostOnce(t: Trade, proofs: seq<string>)
    decreases |proofs|
    ensures Attempts(t, proofs).1 <= if t.status == AwaitingPayment then t.amount as int else 0
    ensures t.status == Completed ==> Attempts(t, proofs).0 == t
    ensures Attempts(t, proofs).0.(status := t.status) == t
  {
    if proofs != [] {
      match FinalizeTrade(t, proofs[0])
      case Failure(_) =>
        ReleasedAtMostOnce(t, proofs[1..]);
      case Success((t1, paid)) =>
        ReleasedAtMostOnce(t1, proofs[1..]);
    }
  }

  /** An accepted trade completes with the right payment proof, releasing
      the fixed amount, and a second finalize is rejected. */
  lemma AcceptThenFinalize(buyer: Pubkey, seller: Pubkey, orderId: u128, bump: u8, again: string)
    ensures AcceptAsk(buyer, seller, orderId, SOLVENCY_PROOF, bump).Success?
    ensures var t := AcceptAsk(buyer, seller, orderId, SOLVENCY_PROOF, bump).value;
      var r := FinalizeTrade(t, PAYMENT_PROOF);
      && r.Success? && r.value.1 == TRADE_AMOUNT && r.value.0.status == Completed
      && FinalizeTrade(r.value.0, again) == Failure(InvalidTradeState)
  {
  }
}

=== FILE: base.dfy ===
/** Fixed-width integer types, account keys and the failure-compatible result
    type shared by every program of the model.

    Rust's unsigned and signed integers are modelled as subset types of `int`.
    Arithmetic that could leave its type is written out explicitly wherever the
    programs perform it; an overflow or underflow aborts the transaction
    (checked arithmetic), which the models return as an error. */
module Base {

  const U8_LIMIT: int := 0x100
  const U32_LIMIT: int := 0x1_0000_0000
  const U64_LIMIT: int := 0x1_0000_0000_0000_0000
  const U128_LIMIT: int := 0x1_0000_0000_0000_0000_0000_0000_0000_0000
  const I64_MIN: int := -0x8000_0000_0000_0000
  const I64_MAX: int := 0x7FFF_FFFF_FFFF_FFFF

  /** `u32::MAX` and `u64::MAX` */
  const U32_MAX: int := U32_LIMIT - 1
  const U64_MAX: int := U64_LIMIT - 1

  type u8 = x: int | 0 <= x < U8_LIMIT
  type u32 = x: int | 0 <= x < U32_LIMIT
  type u64 = x: int | 0 <= x < U64_LIMIT
  type u128 = x: int | 0 <= x < U128_LIMIT
  type i64 = x: int | I64_MIN <= x <= I64_MAX

  /** A fixed-size byte array `[u8; n]`. */
  function Zeros(n: nat): (s: seq<u8>)
    ensures |s| == n && forall i :: 0 <= i < n ==> s[i] == 0
  {
    seq(n, i => 0)
  }

  /** A Solana account key: 32 opaque bytes, compared only for equality
      (the order-id generator also reads its first eight bytes). */
  type Pubkey = s: seq<u8> | |s| == 32 witness Zeros(32)

  datatype Option<+T> = None | Some(value: T)

  /** `Result<T>` of an instruction or helper. When an instruction returns
      `Failure`, the runtime reverts the transaction, so the account state from
      before the call stands. */
  datatype Result<+T, +E> = Success(value: T) | Failure(error: E) {
    predicate IsFailure() {
      Failure?
    }

    function PropagateFailure<U>(): Result<U, E>
      requires Failure?
    {
      Failure(error)
    }

    function Extract(): T
      requires Success?
    {
      value
    }
  }

  /** Error codes of the market program (`ErrorCode` of critbit.rs and
      error.rs), plus `Overflow` for an arithmetic overflow that aborts the
      transaction. */
  datatype MarketError = OrderBookFull | OrderNotFound | Overflow
}

=== FILE: bits.dfy ===
/** Bit-level helpers of the crit-bit tree: the bits of a 64-bit key, the
    exclusive or of two keys, `leading_zeros`, and the critical bit at which
    two keys first differ when read from the most significant end. */
module Bits {
  import opened Base

  /** Bit `i` (the bit of weight 2^i) of `x`. */
  function Bit(x: nat, i: nat): bool
  {
    if i == 0 then x % 2 == 1 else Bit(x / 2, i - 1)
  }

  function Pow2(n: nat): (p: nat)
    ensures p >= 1
  {
    if n == 0 then 1 else 2 * Pow2(n - 1)
  }

  lemma {:induction false} Pow2Add(a: nat, b: nat)
    ensures Pow2(a + b) == Pow2(a) * Pow2(b)
    decreases a
  {
    if a > 0 {
      Pow2Add(a - 1, b);
    }
  }

  lemma Pow2Of64()
    ensures Pow2(64) == U64_LIMIT
  {
    assert Pow2(2) == 4;
    Pow2Add(2, 2);
    assert Pow2(4) == 16;
    Pow2Add(4, 4);
    assert Pow2(8) == 256;
    Pow2Add(8, 8);
    assert Pow2(16) == 0x1_0000;
    Pow2Add(16, 16);
    assert Pow2(32) == 0x1_0000_0000;
    Pow2Add(32, 32);
  }

  /** Bitwise exclusive or of two naturals (`^` on `u64`). */
  function Xor(a: nat, b: nat): nat
    decreases a + b
  {
    if a == 0 && b == 0 then 0
    else (if a % 2 == b % 2 then 0 else 1) + 2 * Xor(a / 2, b / 2)
  }

  /** Number of significant bits of `x`: zero for zero, otherwise one more
      than the position of the highest set bit. */
  function BitLength(x: nat): nat
  {
    if x == 0 then 0 else 1 + BitLength(x / 2)
  }

  /** `u64::leading_zeros` */
  function LeadingZeros(x: u64): (n: nat)
    ensures n <= 64
    ensures n == 64 <==> x == 0
    ensures x != 0 ==> Bit(x, 63 - n) && forall j :: 63 - n < j ==> !Bit(x, j)
  {
    Pow2Of64();
    BitLengthBound(x, 64);
    if x == 0 then 64
    else
      HighestBit(x);
      64 - BitLength(x)
  }

  /** `get_bit`: the bit of `key` at `bitPos`; positions 64 and above read as
      zero. */
  function GetBit(key: u64, bitPos: u8): (b: bool)
    ensures b ==> bitPos < 64
  {
    if bitPos >= 64 then false else Bit(key, bitPos)
  }

  /** `find_critical_bit`: 64 for identical keys, otherwise the position of
      the highest bit in which the keys differ. */
  function FindCriticalBit(key1: u64, key2: u64): (c: u8)
    ensures c == 64 <==> key1 == key2
    ensures key1 != key2 ==> c < 64 && GetBit(key1, c) != GetBit(key2, c)
    ensures key1 != key2 ==> forall j: u8 :: c < j ==> GetBit(key1, j) == GetBit(key2, j)
  {
    Pow2Of64();
    XorBound(key1, key2, 64);
    XorZero(key1, key2);
    var x: u64 := Xor(key1, key2);
    if x == 0 then
      64
    else
      var c: u8 := 63 - LeadingZeros(x);
      XorBits(key1, key2, c);
      assert forall j: u8 :: c < j < 64 ==> GetBit(key1, j) == GetBit(key2, j) by {
        forall j: u8 | c < j < 64
          ensures GetBit(key1, j) == GetBit(key2, j)
        {
          XorBits(key1, key2, j);
        }
      }
      c
  }

  lemma {:induction false} XorZero(a: nat, b: nat)
    ensures Xor(a, b) == 0 <==> a == b
    decreases a + b
  {
    if a == 0 && b == 0 {
    } else {
      XorZero(a / 2, b / 2);
      if a == b {
        assert a % 2 == b % 2;
      } else if a % 2 == b % 2 {
        assert a / 2 != b / 2;
      }
    }
  }

  lemma {:induction false} XorBits(a: nat, b: nat, i: nat)
    ensures Bit(Xor(a, b), i) == (Bit(a, i) != Bit(b, i))
    decreases i
  {
    if a == 0 && b == 0 {
      ZeroBits(i);
    } else {
      var x, y := Xor(a, b), Xor(a / 2, b / 2);
      var lo := if a % 2 == b % 2 then 0 else 1;
      assert x == lo + 2 * y;
      HalfOfTwice(lo, y);
      if i == 0 {
        assert Bit(x, 0) == (lo == 1);
      } else {
        assert Bit(x, i) == Bit(y, i - 1);
        XorBits(a / 2, b / 2, i - 1);
      }
    }
  }

  /** Halving drops the low bit. */
  lemma HalfOfTwice(lo: nat, y: nat)
    requires lo < 2
    ensures (lo + 2 * y) / 2 == y && (lo + 2 * y) % 2 == lo
  {
  }

  lemma {:induction false} ZeroBits(i: nat)
    ensures !Bit(0, i)
  {
    if i > 0 {
      ZeroBits(i - 1);
    }
  }

  lemma {:induction false} XorBound(a: nat, b: nat, n: nat)
    requires a < Pow2(n) && b < Pow2(n)
    ensures Xor(a, b) < Pow2(n)
    decreases n
  {
    if a == 0 && b == 0 {
    } else if n == 0 {
    } else {
      XorBound(a / 2, b / 2, n - 1);
    }
  }

  lemma {:induction false} BitLengthBound(x: nat, n: nat)
    requires x < Pow2(n)
    ensures BitLength(x) <= n
    decreases n
  {
    if x != 0 {
      BitLengthBound(x / 2, n - 1);
    }
  }

  /** The highest set bit of a non-zero `x` is at `BitLength(x) - 1`. */
  lemma {:induction false} HighestBit(x: nat)
    requires x != 0
    ensures Bit(x, BitLength(x) - 1)
    ensures forall j :: BitLength(x) <= j ==> !Bit(x, j)
    decreases x
  {
    if x / 2 == 0 {
      assert x == 1;
      forall j | 1 <= j
        ensures !Bit(x, j)
      {
        ZeroBits(j - 1);
      }
    } else {
      HighestBit(x / 2);
      forall j | BitLength(x) <= j
        ensures !Bit(x, j)
      {
        assert !Bit(x / 2, j - 1);
      }
    }
  }
}

=== FILE: critbit.dfy ===
/** The operations of the crit-bit tree (critbit.rs): `new`, `alloc_node`,
    `insert`, `remove`, `find`, `min` and `max`, stated against the abstract
    contents of the tree, a finite map from key (price) to order index. */
module CritBit {
  import opened Base
  import opened Bits
  import opened CritBitArena

  /** The slot `new` fills the arena with: an inner-looking node with all
      pointers null. */
  function BlankNode(): Node
  {
    Node(0, 0, EMPTY, EMPTY, EMPTY, 0, false)
  }

  /** `CritBitTree::new` */
  function New(capacity: nat): (t: Tree)
    requires capacity <= EMPTY as int
    ensures Valid(t) && Contents(t) == map[]
    ensures |t.nodes| == capacity && t.freeList == 0 && t.leafCount == 0
  {
    Tree(EMPTY, 0, 0, seq(capacity, _ => BlankNode()))
  }

  /** `alloc_node`: hands out the slot at the bump pointer, failing with
      `OrderBookFull` once the pointer reaches the arena length (which the
      source truncates to 32 bits). */
  function AllocNode(t: Tree): (r: Result<(Tree, u32), MarketError>)
    ensures r.Failure? <==> t.freeList as int >= |t.nodes| % U32_LIMIT
    ensures r.Failure? ==> r.error == OrderBookFull
    ensures r.Success? ==>
      r.value.1 == t.freeList && r.value.0 == t.(freeList := t.freeList + 1)
  {
    if t.freeList as int < |t.nodes| % U32_LIMIT then
      Success((t.(freeList := t.freeList + 1), t.freeList))
    else
      Failure(OrderBookFull)
  }

  /** The leaf counter of a valid tree counts its keys. */
  lemma LeafCountMatches(t: Tree)
    requires Valid(t)
    ensures t.leafCount as int == |Contents(t)|
  {
    if t.root != EMPTY {
      var s :| Witness(t, s);
      WitnessContents(t, s);
      LeafCountIsSize(t.nodes, t.freeList as int, s, EMPTY as int);
    }
  }

  /** `insert`: adds the key, or overwrites the order index of an existing
      key. A new key costs two arena slots (one for the first key of an
      empty tree); when they are not available the insert fails. */
  method Insert(t: Tree, key: u64, orderIndex: u32) returns (r: Result<Tree, MarketError>)
    requires Valid(t)
    ensures r.Failure? <==>
      key !in Contents(t) && t.freeList as int + (if t.root == EMPTY then 1 else 2) > |t.nodes|
    ensures r.Failure? ==> r.error == OrderBookFull
    ensures r.Success? ==> Valid(r.value) && Contents(r.value) == Contents(t)[key := orderIndex]
    ensures r.Success? ==> |r.value.nodes| == |t.nodes|
    ensures r.Success? ==>
      r.value.freeList as int == t.freeList as int + (if key in Contents(t) then 0 else if t.root == EMPTY then 1 else 2)
    ensures r.Success? ==> r.value.leafCount as int == t.leafCount as int + (if key in Contents(t) then 0 else 1)
    ensures r.Success? && t.root == EMPTY ==>
      r.value.root == t.freeList && r.value.nodes[t.freeList] == NewLeaf(key, orderIndex)
    ensures r.Success? && key in Contents(t) ==>
      && r.value.root == t.root && r.value.leafCount == t.leafCount
      && forall i :: 0 <= i < |t.nodes| ==> r.value.nodes[i] == t.nodes[i].(orderIndex := r.value.nodes[i].orderIndex)
  {
    if t.root == EMPTY {
      r := InsertFirst(t, key, orderIndex);
      return;
    }
    ghost var s :| Witness(t, s);
    var current := Descend(t, s, key);
    if t.nodes[current].key == key {
      var t2 := Overwrite(t, s, current, key, orderIndex);
      return Success(t2);
    }
    r := SplitLeaf(t, s, current, key, orderIndex);
  }

  /** The empty-tree case of `insert`: one slot becomes the root leaf. */
  method InsertFirst(t: Tree, key: u64, orderIndex: u32) returns (r: Result<Tree, MarketError>)
    requires Valid(t) && t.root == EMPTY
    ensures r.Failure? <==> t.freeList as int + 1 > |t.nodes|
    ensures r.Failure? ==> r.error == OrderBookFull
    ensures r.Success? ==> Valid(r.value) && Contents(r.value) == map[key := orderIndex]
    ensures r.Success? ==> |r.value.nodes| == |t.nodes| && r.value.freeList as int == t.freeList as int + 1
    ensures r.Success? ==> r.value.leafCount == 1 && r.value.root == t.freeList
    ensures r.Success? ==> r.value.nodes[t.freeList] == NewLeaf(key, orderIndex)
  {
    var a :- AllocNode(t);
    var (t1, index) := a;
    var n := t1.nodes[index := NewLeaf(key, orderIndex)];
    var t2 := t1.(nodes := n, root := index, leafCount := 1);
    assert Witness(t2, Leaf(index as int));
    WitnessContents(t2, Leaf(index as int));
    return Success(t2);
  }

  /** The existing-key case of `insert`: only the order index of the leaf
      the key's route ends at changes. */
  method Overwrite(t: Tree, ghost s: Shape, current: u32, key: u64, orderIndex: u32) returns (t2: Tree)
    requires Valid(t) && Witness(t, s)
    requires current as int == Route(t.nodes, s, key) && 0 <= current as int < |t.nodes|
    requires t.nodes[current].key == key
    ensures Valid(t2) && Contents(t2) == Contents(t)[key := orderIndex]
    ensures t2.root == t.root && t2.leafCount == t.leafCount && t2.freeList == t.freeList
    ensures |t2.nodes| == |t.nodes|
    ensures forall i :: 0 <= i < |t.nodes| ==> t2.nodes[i] == t.nodes[i].(orderIndex := t2.nodes[i].orderIndex)
  {
    RouteFacts(t.nodes, t.freeList as int, s, EMPTY as int, key);
    WitnessContents(t, s);
    var n := t.nodes[current := t.nodes[current].(orderIndex := orderIndex)];
    t2 := t.(nodes := n);
    OverwriteTree(t.nodes, t2, s, key, orderIndex);
  }

  /** The tree whose arena has the key's leaf re-pointed at `v`, on the
      same shape: valid, with the key now mapped to `v`. */
  lemma OverwriteTree(nodes: seq<Node>, t2: Tree, s: Shape, key: u64, v: u32)
    requires Realizes(nodes, t2.freeList as int, s, EMPTY as int) && key in ContentsOf(nodes, s)
    requires var L := Route(nodes, s, key);
      0 <= L < |nodes| && t2.nodes == nodes[L := nodes[L].(orderIndex := v)]
    requires |nodes| <= EMPTY as int && t2.leafCount <= t2.freeList
    requires s.at == t2.root as int && t2.leafCount as int == LeafCount(s)
    ensures Valid(t2) && Contents(t2) == ContentsOf(nodes, s)[key := v]
  {
    SetOrderIndex(nodes, t2.freeList as int, s, EMPTY as int, key, v);
    FromWitness(t2, s);
  }

  /** The descent shared by `insert`, `find` and `remove`: from the root, follow the
      bit of the key each inner node tests, down to a leaf. That leaf holds
      the key exactly when the tree does. */
  method Descend(t: Tree, ghost s: Shape, key: u64) returns (current: u32)
    requires Valid(t) && Witness(t, s)
    ensures current as int == Route(t.nodes, s, key)
    ensures current < t.freeList && t.nodes[current].isLeaf
    ensures key in Contents(t) <==> t.nodes[current].key == key
    ensures key in Contents(t) ==> Contents(t)[key] == t.nodes[current].orderIndex
  {
    var free := t.freeList as int;
    WitnessContents(t, s);
    RouteFacts(t.nodes, free, s, EMPTY as int, key);
    ghost var sub := s;
    ghost var p: int := EMPTY as int;
    current := t.root;
    while true
      invariant Realizes(t.nodes, free, sub, p)
      invariant sub.at == current as int
      invariant Route(t.nodes, s, key) == Route(t.nodes, sub, key)
      decreases sub
    {
      var node := t.nodes[current];
      if node.isLeaf {
        assert sub.Leaf?;
        return;
      }
      p := current as int;
      if GetBit(key, node.prefixLen) {
        current := node.right;
        sub := sub.right;
      } else {
        current := node.left;
        sub := sub.left;
      }
    }
  }

  /** The new-key case of `insert`: `current` is the leaf the key's route
      ends at, holding a different key. Two slots are allocated, an inner
      node at the critical bit and a leaf for the key, and the inner node
      takes the place of `current` under its old parent. */
  method SplitLeaf(t: Tree, ghost s: Shape, current: u32, key: u64, orderIndex: u32) returns (r: Result<Tree, MarketError>)
    requires Valid(t) && Witness(t, s)
    requires current as int == Route(t.nodes, s, key) && 0 <= current as int < |t.nodes|
    requires t.nodes[current].key != key
    ensures r.Failure? <==> t.freeList as int + 2 > |t.nodes|
    ensures r.Failure? ==> r.error == OrderBookFull
    ensures r.Success? ==> Valid(r.value) && Contents(r.value) == Contents(t)[key := orderIndex]
    ensures r.Success? ==> |r.value.nodes| == |t.nodes| && r.value.freeList as int == t.freeList as int + 2
    ensures r.Success? ==> r.value.leafCount as int == t.leafCount as int + 1
  {
    var free := t.freeList as int;
    var L := current as int;
    var node := t.nodes[current];
    LeafParent(t, s, key);
    assert |t.nodes| % U32_LIMIT == |t.nodes|;
    var crit := FindCriticalBit(key, node.key);
    var a1 :- AllocNode(t);
    var (t1, inner) := a1;
    var a2 :- AllocNode(t1);
    var (t2, leaf) := a2;
    var n := Link(t.nodes, current, inner, leaf, key, orderIndex, crit);
    var root := if node.parent == EMPTY then inner else t.root;
    InsertSplice(t, s, key, orderIndex, L, crit, n, root);
    var t3 := Tree(root, t.leafCount + 1, t.freeList + 2, n);
    GraftTree(t.nodes, t3, t.freeList, s, key, orderIndex, crit, L);
    return Success(t3);
  }

  /** The node writes of `insert` for a new key: the fresh leaf and the
      current leaf become the children of the fresh inner node (the new
      leaf on the side of its critical bit), the inner node takes over the
      current leaf's parent, and that parent, if any, points at the inner
      node where it pointed at the current leaf. */
  method Link(nodes: seq<Node>, current: u32, inner: u32, leaf: u32, key: u64, orderIndex: u32, crit: u8) returns (n: seq<Node>)
    requires current < inner && leaf as int == inner as int + 1 && (leaf as int) < |nodes| <= EMPTY as int
    requires nodes[current].parent == EMPTY || nodes[current].parent < inner
    requires nodes[current].parent != current
    ensures IsSplice(nodes, n, current as int, inner as int, key, orderIndex, crit)
  {
    n := nodes[inner := NewInner(crit)];
    n := n[leaf := NewLeaf(key, orderIndex)];
    if GetBit(key, crit) {
      n := n[inner := n[inner].(left := current, right := leaf)];
    } else {
      n := n[inner := n[inner].(left := leaf, right := current)];
    }
    var oldParent := nodes[current].parent;
    n := n[current := n[current].(parent := inner)];
    n := n[leaf := n[leaf].(parent := inner)];
    n := n[inner := n[inner].(parent := oldParent)];
    if oldParent != EMPTY {
      var parentNode := n[oldParent];
      if parentNode.left == current {
        n := n[oldParent := parentNode.(left := inner)];
      } else {
        n := n[oldParent := parentNode.(right := inner)];
      }
    }
  }

  /** The leaf a route ends at is allocated, and its parent is either
      null (the leaf is the root) or another allocated node. */
  lemma LeafParent(t: Tree, s: Shape, key: u64)
    requires Valid(t) && Witness(t, s)
    ensures var L := Route(t.nodes, s, key);
      && 0 <= L < t.freeList as int && t.nodes[L].isLeaf
      && (t.nodes[L].parent == EMPTY <==> L == s.at)
      && (t.nodes[L].parent == EMPTY || t.nodes[L].parent < t.freeList)
      && t.nodes[L].parent as int != L
  {
    var free := t.freeList as int;
    var L := Route(t.nodes, s, key);
    RouteFacts(t.nodes, free, s, EMPTY as int, key);
    if L != s.at {
      ParentFacts(t.nodes, free, s, EMPTY as int, L);
      IndicesBelow(t.nodes, free, s, EMPTY as int);
    }
  }

  /** The facts `GraftTree` needs hold of the arena `insert` builds for a
      new key: the old contents are those of the witness shape, the key is
      not among them, and the root and leaf counter it writes are those of
      the grafted shape. */
  lemma InsertSplice(t: Tree, s: Shape, key: u64, v: u32, L: int, crit: u8, n: seq<Node>, root: u32)
    requires Valid(t) && Witness(t, s)
    requires L == Route(t.nodes, s, key) && 0 <= L < |t.nodes| && t.nodes[L].key != key
    requires crit == FindCriticalBit(key, t.nodes[L].key)
    requires t.freeList as int + 2 <= |t.nodes|
    requires IsSplice(t.nodes, n, L, t.freeList as int, key, v, crit)
    requires root as int == if t.nodes[L].parent == EMPTY then t.freeList as int else t.root as int
    ensures GraftPre(t.nodes, n, t.freeList as int, s, EMPTY as int, key, v, crit, L)
    ensures root as int == if s.at == L then t.freeList as int else s.at
    ensures t.leafCount as int + 1 == LeafCount(s) + 1 <= t.freeList as int + 2
    ensures Contents(t) == ContentsOf(t.nodes, s)
  {
    var free := t.freeList as int;
    LeafParent(t, s, key);
    assert key !in ContentsOf(t.nodes, s) by {
      RouteFacts(t.nodes, free, s, EMPTY as int, key);
    }
    IndicesBelow(t.nodes, free, s, EMPTY as int);
    WitnessContents(t, s);
  }

  /** The tree whose arena is the spliced one and whose root is the
      grafted shape's: valid, holding the old contents and the new key. */
  lemma GraftTree(nodes: seq<Node>, t2: Tree, free: u32, s: Shape, key: u64, v: u32, crit: u8, L: int)
    requires GraftPre(nodes, t2.nodes, free as int, s, EMPTY as int, key, v, crit, L)
    requires t2.root as int == if s.at == L then free as int else s.at
    requires t2.leafCount as int == LeafCount(s) + 1 <= free as int + 2 == t2.freeList as int
    ensures Valid(t2) && Contents(t2) == ContentsOf(nodes, s)[key := v]
  {
    var g0 := NewSub(L, free as int, key, crit);
    GraftRealizes(nodes, t2.nodes, free as int, s, EMPTY as int, key, v, crit, L);
    GraftCount(nodes, s, key, g0);
    FromWitness(t2, Graft(nodes, s, key, g0));
  }

  lemma {:induction false} GraftCount(nodes: seq<Node>, s: Shape, key: u64, g0: Shape)
    requires LeafCount(g0) == 2
    ensures LeafCount(Graft(nodes, s, key, g0)) == LeafCount(s) + 1
  {
    match s
    case Leaf(_) =>
    case Inner(at, l, r) =>
      GraftCount(nodes, l, key, g0);
      GraftCount(nodes, r, key, g0);
  }

  /** `remove`: takes the key out of the tree and returns its order index,
      or fails with `OrderNotFound` when the key is absent. The removed leaf
      and its parent stay allocated; the bump pointer does not move. */
  method Remove(t: Tree, key: u64) returns (r: Result<(Tree, u32), MarketError>)
    requires Valid(t)
    ensures r.Success? <==> key in Contents(t)
    ensures r.Failure? ==> r.error == OrderNotFound
    ensures r.Success? ==>
      && Valid(r.value.0)
      && r.value.1 == Contents(t)[key]
      && Contents(r.value.0) == Contents(t) - {key}
      && |r.value.0.nodes| == |t.nodes| && r.value.0.freeList == t.freeList
      && r.value.0.leafCount as int == t.leafCount as int - 1
  {
    if t.root == EMPTY {
      return Failure(OrderNotFound);
    }
    ghost var s :| Witness(t, s);
    var current := Descend(t, s, key);
    var node := t.nodes[current];
    if node.key != key {
      return Failure(OrderNotFound);
    }
    if node.parent == EMPTY {
      LeafParent(t, s, key);
      assert s.Leaf?;
      return Success((t.(root := EMPTY, leafCount := 0), node.orderIndex));
    }
    var t2 := UnlinkLeaf(t, s, current, key);
    return Success((t2, node.orderIndex));
  }

  /** The case of `remove` where the leaf has a parent: the sibling of the
      leaf takes the parent's place under the grandparent, or becomes the
      root. */
  method UnlinkLeaf(t: Tree, ghost s: Shape, current: u32, key: u64) returns (t2: Tree)
    requires Valid(t) && Witness(t, s)
    requires current as int == Route(t.nodes, s, key) && 0 <= current as int < |t.nodes|
    requires t.nodes[current].key == key && t.nodes[current].parent != EMPTY
    ensures Valid(t2) && Contents(t2) == Contents(t) - {key}
    ensures |t2.nodes| == |t.nodes| && t2.freeList == t.freeList
    ensures t2.leafCount as int == t.leafCount as int - 1
  {
    var L := current as int;
    SiblingFacts(t, s, key);
    var parent := t.nodes[t.nodes[current].parent];
    var siblingIndex := if parent.left == current then parent.right else parent.left;
    var n := Unlink(t.nodes, current);
    var root := if parent.parent == EMPTY then siblingIndex else t.root;
    RemovePre(t, s, key, L, n, root);
    t2 := Tree(root, t.leafCount - 1, t.freeList, n);
    PruneTree(t.nodes, t2, s, key, L);
  }

  /** The node writes of `remove` for a leaf with a parent: the grandparent,
      if any, points at the sibling where it pointed at the parent, and the
      sibling takes the grandparent as its parent. */
  method Unlink(nodes: seq<Node>, current: u32) returns (n: seq<Node>)
    requires current as int < |nodes| <= EMPTY as int
    requires var P := nodes[current].parent;
      && P as int < |nodes|
      && Sibling(nodes[P], current) as int < |nodes|
      && (nodes[P].parent == EMPTY || nodes[P].parent as int < |nodes|)
      && nodes[P].parent != Sibling(nodes[P], current)
    ensures IsUnlink(nodes, n, current as int)
  {
    var parentIndex := nodes[current].parent;
    var parent := nodes[parentIndex];
    var siblingIndex := if parent.left == current then parent.right else parent.left;
    n := nodes;
    if parent.parent == EMPTY {
      n := n[siblingIndex := n[siblingIndex].(parent := EMPTY)];
    } else {
      var grandparentIndex := parent.parent;
      var grandparent := n[grandparentIndex];
      if grandparent.left == parentIndex {
        n := n[grandparentIndex := grandparent.(left := siblingIndex)];
      } else {
        n := n[grandparentIndex := grandparent.(right := siblingIndex)];
      }
      n := n[siblingIndex := n[siblingIndex].(parent := grandparentIndex)];
    }
  }

  /** Where the parent, sibling and grandparent of a leaf with a parent
      lie: all inside the arena, the sibling distinct from the leaf and
      from the grandparent, and no grandparent exactly when the parent is
      the root. */
  lemma SiblingFacts(t: Tree, s: Shape, key: u64)
    requires Valid(t) && Witness(t, s)
    requires var L := Route(t.nodes, s, key); 0 <= L < |t.nodes| && t.nodes[L].parent != EMPTY
    ensures var L := Route(t.nodes, s, key);
      var P := t.nodes[L].parent;
      && P < t.freeList && !t.nodes[P].isLeaf
      && (t.nodes[P].left as int == L || t.nodes[P].right as int == L)
      && var S := Sibling(t.nodes[P], L as u32);
      && S < t.freeList && S as int != L
      && var G := t.nodes[P].parent;
      && (G == EMPTY <==> P as int == s.at)
      && (G == EMPTY || G < t.freeList)
      && G != S
  {
    var free := t.freeList as int;
    var L := Route(t.nodes, s, key);
    RouteFacts(t.nodes, free, s, EMPTY as int, key);
    IndicesBelow(t.nodes, free, s, EMPTY as int);
    ParentFacts(t.nodes, free, s, EMPTY as int, L);
    var P := t.nodes[L].parent as int;
    if P != s.at {
      ParentFacts(t.nodes, free, s, EMPTY as int, P);
    }
    ParentNotChild(t.nodes, free, s, EMPTY as int, P);
  }

  /** The facts `PruneTree` needs hold of the arena `remove` leaves: the
      old contents are those of the witness shape, and the root and leaf
      counter it writes are those of the pruned shape. */
  lemma RemovePre(t: Tree, s: Shape, key: u64, L: int, n: seq<Node>, root: u32)
    requires Valid(t) && Witness(t, s)
    requires L == Route(t.nodes, s, key) && 0 <= L < |t.nodes|
    requires t.nodes[L].key == key && t.nodes[L].parent != EMPTY
    requires IsUnlink(t.nodes, n, L)
    requires var P := t.nodes[L].parent;
      root == if t.nodes[P].parent == EMPTY then Sibling(t.nodes[P], L as u32) else t.root
    ensures PrunePre(t.nodes, n, t.freeList as int, s, EMPTY as int, key, L)
    ensures var P := t.nodes[L].parent;
      root as int == if s.at == P as int then Sibling(t.nodes[P], L as u32) as int else s.at
    ensures 1 <= t.leafCount as int == LeafCount(s) <= t.freeList as int
    ensures Contents(t) == ContentsOf(t.nodes, s)
  {
    var free := t.freeList as int;
    SiblingFacts(t, s, key);
    RouteFacts(t.nodes, free, s, EMPTY as int, key);
    IndicesBelow(t.nodes, free, s, EMPTY as int);
    assert s.Inner?;
    PruneCount(t.nodes, s, key);
    WitnessContents(t, s);
  }

  /** The tree whose arena is the unlinked one and whose root is the pruned
      shape's: valid, holding the old contents without the key. */
  lemma PruneTree(nodes: seq<Node>, t2: Tree, s: Shape, key: u64, L: int)
    requires PrunePre(nodes, t2.nodes, t2.freeList as int, s, EMPTY as int, key, L)
    requires var P := nodes[L].parent;
      t2.root as int == if s.at == P as int then Sibling(nodes[P], L as u32) as int else s.at
    requires t2.leafCount as int + 1 == LeafCount(s) && t2.leafCount < t2.freeList
    ensures Valid(t2) && Contents(t2) == ContentsOf(nodes, s) - {key}
  {
    var free := t2.freeList as int;
    PruneRealizes(nodes, t2.nodes, free, s, EMPTY as int, key, L);
    PruneCount(nodes, s, key);
    FromWitness(t2, Prune(nodes, s, key));
  }

  /** Pruning an inner tree removes one leaf. */
  lemma {:induction false} PruneCount(nodes: seq<Node>, s: Shape, key: u64)
    requires s.Inner?
    ensures LeafCount(Prune(nodes, s, key)) + 1 == LeafCount(s)
  {
    var Inner(at, l, r) := s;
    if GetBit(key, PrefixAt(nodes, at)) {
      if r.Inner? {
        PruneCount(nodes, r, key);
      }
    } else {
      if l.Inner? {
        PruneCount(nodes, l, key);
      }
    }
  }

  /** `find`: the order index stored for the key, if any. */
  method Find(t: Tree, key: u64) returns (r: Option<u32>)
    requires Valid(t)
    ensures r == if key in Contents(t) then Some(Contents(t)[key]) else None
  {
    if t.root == EMPTY {
      return None;
    }
    ghost var s :| Witness(t, s);
    var current := Descend(t, s, key);
    var node := t.nodes[current];
    if node.key == key {
      return Some(node.orderIndex);
    }
    return None;
  }

  /** `find_min_leaf`: visits every leaf below `index` (the keys are not
      ordered by position) and returns the least key with its order index,
      preferring the right subtree on a tie. The shape `s` of the subtree
      only serves as the termination measure. */
  function FindMinLeaf(t: Tree, index: u32, ghost s: Shape, ghost free: nat, ghost parent: int): (r: Option<(u64, u32)>)
    requires Realizes(t.nodes, free, s, parent) && s.at == index as int
    ensures r.Some? && r.value.0 in ContentsOf(t.nodes, s) && ContentsOf(t.nodes, s)[r.value.0] == r.value.1
    ensures forall k :: k in ContentsOf(t.nodes, s) ==> r.value.0 <= k
    decreases s
  {
    var node := t.nodes[index];
    if node.isLeaf then Some((node.key, node.orderIndex))
    else
      var l := FindMinLeaf(t, node.left, s.left, free, index as int).value;
      var r := FindMinLeaf(t, node.right, s.right, free, index as int).value;
      if l.0 < r.0 then Some(l) else Some(r)
  }

  /** `find_max_leaf`: as `FindMinLeaf` for the greatest key, preferring
      the right subtree on a tie. */
  function FindMaxLeaf(t: Tree, index: u32, ghost s: Shape, ghost free: nat, ghost parent: int): (r: Option<(u64, u32)>)
    requires Realizes(t.nodes, free, s, parent) && s.at == index as int
    ensures r.Some? && r.value.0 in ContentsOf(t.nodes, s) && ContentsOf(t.nodes, s)[r.value.0] == r.value.1
    ensures forall k :: k in ContentsOf(t.nodes, s) ==> k <= r.value.0
    decreases s
  {
    var node := t.nodes[index];
    if node.isLeaf then Some((node.key, node.orderIndex))
    else
      var l := FindMaxLeaf(t, node.left, s.left, free, index as int).value;
      var r := FindMaxLeaf(t, node.right, s.right, free, index as int).value;
      if l.0 > r.0 then Some(l) else Some(r)
  }

  /** `min`: the least key of the tree with its order index (the best ask
      of the ask tree), `None` exactly when the tree is empty. */
  method Min(t: Tree) returns (r: Option<(u64, u32)>)
    requires Valid(t)
    ensures r.None? <==> Contents(t) == map[]
    ensures r.Some? ==> r.value.0 in Contents(t) && Contents(t)[r.value.0] == r.value.1
    ensures r.Some? ==> forall k :: k in Contents(t) ==> r.value.0 <= k
  {
    if t.root == EMPTY {
      return None;
    }
    ghost var s :| Witness(t, s);
    WitnessContents(t, s);
    r := FindMinLeaf(t, t.root, s, t.freeList as int, EMPTY as int);
  }

  /** `max`: the greatest key of the tree with its order index (the best
      bid of the bid tree), `None` exactly when the tree is empty. */
  method Max(t: Tree) returns (r: Option<(u64, u32)>)
    requires Valid(t)
    ensures r.None? <==> Contents(t) == map[]
    ensures r.Some? ==> r.value.0 in Contents(t) && Contents(t)[r.value.0] == r.value.1
    ensures r.Some? ==> forall k :: k in Contents(t) ==> k <= r.value.0
  {
    if t.root == EMPTY {
      return None;
    }
    ghost var s :| Witness(t, s);
    WitnessContents(t, s);
    r := FindMaxLeaf(t, t.root, s, t.freeList as int, EMPTY as int);
  }
}

=== FILE: critbit_arena.dfy ===
/** The node arena of the crit-bit tree (critbit.rs) and its well-formedness.

    A tree is a pre-allocated vector of nodes, a root index, a leaf count and a
    bump pointer `freeList`. Nodes are never freed. The ghost `Shape` datatype
    names the binary tree hanging from an index; `Realizes` says the arena
    really holds that tree: every reachable index is below the bump pointer,
    parent and child pointers agree, no index occurs twice (so there is no
    cycle and no sharing), and every inner node routes its keys: the left
    subtree holds exactly keys whose bit `prefixLen` is clear, the right
    subtree keys whose bit is set. The routing condition is what makes lookup
    correct; it also makes leaf keys distinct. Note that it does NOT order the
    keys, which is why `min` and `max` scan every leaf. */
module CritBitArena {
  import opened Base
  import opened Bits

  /** `CritBitNode::EMPTY`, the null index. */
  const EMPTY: u32 := U32_MAX

  /** `CritBitNode` */
  datatype Node = Node(
    key: u64,
    orderIndex: u32,
    parent: u32,
    left: u32,
    right: u32,
    prefixLen: u8,
    isLeaf: bool)

  /** `CritBitTree` */
  datatype Tree = Tree(root: u32, leafCount: u32, freeList: u32, nodes: seq<Node>)

  /** The binary tree hanging from arena index `at`. */
  datatype Shape = Leaf(at: nat) | Inner(at: nat, left: Shape, right: Shape)

  /** `new_leaf` */
  function NewLeaf(key: u64, orderIndex: u32): (n: Node)
    ensures n.isLeaf && n.key == key && n.orderIndex == orderIndex
    ensures n.parent == EMPTY && n.left == EMPTY && n.right == EMPTY
  {
    Node(key, orderIndex, EMPTY, EMPTY, EMPTY, 0, true)
  }

  /** `new_inner` */
  function NewInner(prefixLen: u8): (n: Node)
    ensures !n.isLeaf && n.prefixLen == prefixLen
    ensures n.parent == EMPTY && n.left == EMPTY && n.right == EMPTY
  {
    Node(0, 0, EMPTY, EMPTY, EMPTY, prefixLen, false)
  }

  /** The node `n` with whichever child pointer equals `from` (the left one
      if it does, otherwise the right one) redirected to `to`. */
  function Redirect(n: Node, from: u32, to: u32): Node
  {
    if n.left == from then n.(left := to) else n.(right := to)
  }

  ghost function Indices(s: Shape): set<int>
  {
    match s
    case Leaf(at) => {at}
    case Inner(at, l, r) => {at} + Indices(l) + Indices(r)
  }

  ghost function LeafCount(s: Shape): nat
  {
    match s
    case Leaf(_) => 1
    case Inner(_, l, r) => LeafCount(l) + LeafCount(r)
  }

  ghost function PrefixAt(nodes: seq<Node>, i: int): u8
  {
    if 0 <= i < |nodes| then nodes[i].prefixLen else 0
  }

  /** The key-to-order-index map stored in the leaves of `s`. */
  ghost function ContentsOf(nodes: seq<Node>, s: Shape): map<u64, u32>
  {
    match s
    case Leaf(at) => if at < |nodes| then map[nodes[at].key := nodes[at].orderIndex] else map[]
    case Inner(_, l, r) => ContentsOf(nodes, l) + ContentsOf(nodes, r)
  }

  /** The leaf reached from `s` by following the bits of `key`. */
  ghost function Route(nodes: seq<Node>, s: Shape, key: u64): int
  {
    match s
    case Leaf(at) => at
    case Inner(at, l, r) =>
      if GetBit(key, PrefixAt(nodes, at)) then Route(nodes, r, key) else Route(nodes, l, key)
  }

  /** The arena `nodes`, with slots below `free` allocated, holds the tree
      `s` whose root has parent pointer `parent`. */
  ghost predicate Realizes(nodes: seq<Node>, free: nat, s: Shape, parent: int)
  {
    && s.at < free <= |nodes|
    && nodes[s.at].parent as int == parent
    && (match s
        case Leaf(at) => nodes[at].isLeaf
        case Inner(at, l, r) =>
          && !nodes[at].isLeaf
          && nodes[at].left as int == l.at
          && nodes[at].right as int == r.at
          && Realizes(nodes, free, l, at)
          && Realizes(nodes, free, r, at)
          && Indices(l) !! Indices(r)
          && at !in Indices(l) && at !in Indices(r)
          && (forall k :: k in ContentsOf(nodes, l) ==> !GetBit(k, nodes[at].prefixLen))
          && (forall k :: k in ContentsOf(nodes, r) ==> GetBit(k, nodes[at].prefixLen)))
  }

  /** `s` is the tree of `t`: it hangs from the root, which has no parent,
      and `leafCount` counts its leaves. */
  ghost predicate Witness(t: Tree, s: Shape)
  {
    && s.at == t.root as int
    && Realizes(t.nodes, t.freeList as int, s, EMPTY as int)
    && t.leafCount as int == LeafCount(s)
  }

  /** Well-formedness of a crit-bit tree. The arena length fits in a `u32`
      (so `nodes.len() as u32` is exact), the bump pointer stays inside the
      arena, and there are no more leaves than allocated slots (so the leaf
      counter cannot overflow). */
  ghost predicate Valid(t: Tree)
  {
    && |t.nodes| <= EMPTY as int
    && t.freeList as int <= |t.nodes|
    && t.leafCount <= t.freeList
    && (t.root == EMPTY ==> t.leafCount == 0)
    && (t.root != EMPTY ==> exists s :: Witness(t, s))
  }

  /** The abstract contents of a valid tree: price level to queue index. */
  ghost function Contents(t: Tree): map<u64, u32>
    requires Valid(t)
  {
    if t.root == EMPTY then map[] else var s :| Witness(t, s); ContentsOf(t.nodes, s)
  }

  // ---------------------------------------------------------------------
  // Basic facts about realized shapes

  lemma {:induction false} IndicesBelow(nodes: seq<Node>, free: nat, s: Shape, p: int)
    requires Realizes(nodes, free, s, p)
    ensures forall i :: i in Indices(s) ==> 0 <= i < free
  {
    match s
    case Leaf(_) =>
    case Inner(at, l, r) =>
      IndicesBelow(nodes, free, l, at);
      IndicesBelow(nodes, free, r, at);
  }

  /** The arena determines the shape hanging from an index. */
  lemma {:induction false} ShapeUnique(nodes: seq<Node>, free1: nat, free2: nat, s1: Shape, s2: Shape, p1: int, p2: int)
    requires Realizes(nodes, free1, s1, p1) && Realizes(nodes, free2, s2, p2)
    requires s1.at == s2.at
    ensures s1 == s2
  {
    match s1
    case Leaf(_) =>
    case Inner(at, l, r) =>
      ShapeUnique(nodes, free1, free2, l, s2.left, at, at);
      ShapeUnique(nodes, free1, free2, r, s2.right, at, at);
  }

  lemma WitnessContents(t: Tree, s: Shape)
    requires Valid(t) && Witness(t, s)
    ensures Contents(t) == ContentsOf(t.nodes, s)
  {
    forall s' | Witness(t, s')
      ensures s' == s
    {
      ShapeUnique(t.nodes, t.freeList as int, t.freeList as int, s, s', EMPTY as int, EMPTY as int);
    }
  }

  /** A non-empty tree with a witness inside its bounds is valid. */
  lemma FromWitness(t: Tree, s: Shape)
    requires |t.nodes| <= EMPTY as int && t.leafCount <= t.freeList
    requires s.at == t.root as int && t.leafCount as int == LeafCount(s)
    requires Realizes(t.nodes, t.freeList as int, s, EMPTY as int)
    ensures Valid(t) && Contents(t) == ContentsOf(t.nodes, s)
  {
    assert Witness(t, s);
    WitnessContents(t, s);
  }

  /** Leaf keys are distinct: the tree has as many leaves as keys. */
  lemma {:induction false} LeafCountIsSize(nodes: seq<Node>, free: nat, s: Shape, p: int)
    requires Realizes(nodes, free, s, p)
    ensures |ContentsOf(nodes, s)| == LeafCount(s)
  {
    match s
    case Leaf(_) =>
    case Inner(at, l, r) =>
      LeafCountIsSize(nodes, free, l, at);
      LeafCountIsSize(nodes, free, r, at);
      var cl, cr := ContentsOf(nodes, l), ContentsOf(nodes, r);
      assert cl.Keys !! cr.Keys;
      assert (cl + cr).Keys == cl.Keys + cr.Keys;
  }

  /** Following the bits of `key` ends at the leaf holding `key`, if any. */
  lemma {:induction false} RouteFacts(nodes: seq<Node>, free: nat, s: Shape, p: int, key: u64)
    requires Realizes(nodes, free, s, p)
    ensures Route(nodes, s, key) in Indices(s)
    ensures 0 <= Route(nodes, s, key) < free && nodes[Route(nodes, s, key)].isLeaf
    ensures key in ContentsOf(nodes, s) <==> nodes[Route(nodes, s, key)].key == key
    ensures key in ContentsOf(nodes, s) ==>
              ContentsOf(nodes, s)[key] == nodes[Route(nodes, s, key)].orderIndex
  {
    match s
    case Leaf(_) =>
    case Inner(at, l, r) =>
      RouteFacts(nodes, free, l, at, key);
      RouteFacts(nodes, free, r, at, key);
  }

  /** The parent of a non-root index of `s` is an inner node of `s` that
      has it as a child. */
  lemma {:induction false} ParentFacts(nodes: seq<Node>, free: nat, s: Shape, p: int, x: int)
    requires Realizes(nodes, free, s, p)
    requires x in Indices(s) && x != s.at
    ensures 0 <= x < free
    ensures var q := nodes[x].parent as int;
      && q in Indices(s) && q < |nodes| && !nodes[q].isLeaf
      && (nodes[q].left as int == x || nodes[q].right as int == x)
      && nodes[q].left as int in Indices(s) && nodes[q].right as int in Indices(s)
      && nodes[q].left != nodes[q].right
  {
    IndicesBelow(nodes, free, s, p);
    match s
    case Inner(at, l, r) =>
      if x == l.at || x == r.at {
      } else if x in Indices(l) {
        ParentFacts(nodes, free, l, at, x);
      } else {
        ParentFacts(nodes, free, r, at, x);
      }
  }

  /** No inner node of `s` has its parent as a child. */
  lemma {:induction false} ParentNotChild(nodes: seq<Node>, free: nat, s: Shape, p: int, x: int)
    requires Realizes(nodes, free, s, p) && p !in Indices(s)
    requires x in Indices(s) && 0 <= x < |nodes| && !nodes[x].isLeaf
    ensures nodes[x].parent != nodes[x].left && nodes[x].parent != nodes[x].right
  {
    match s
    case Inner(at, l, r) =>
      if x == at {
      } else if x in Indices(l) {
        ParentNotChild(nodes, free, l, at, x);
      } else {
        ParentNotChild(nodes, free, r, at, x);
      }
  }

  /** Indices of `s` at which the two arenas hold the same node. */
  ghost predicate AgreeOn(nodes: seq<Node>, nodes2: seq<Node>, s: Shape)
  {
    forall i :: i in Indices(s) ==> 0 <= i < |nodes| && 0 <= i < |nodes2| && nodes2[i] == nodes[i]
  }

  /** A realized tree only depends on the nodes at its own indices. */
  lemma {:induction false} Frame(nodes: seq<Node>, nodes2: seq<Node>, free: nat, free2: nat, s: Shape, p: int)
    requires Realizes(nodes, free, s, p)
    requires free <= free2 <= |nodes2|
    requires AgreeOn(nodes, nodes2, s)
    ensures Realizes(nodes2, free2, s, p)
    ensures ContentsOf(nodes2, s) == ContentsOf(nodes, s)
    ensures forall key :: Route(nodes2, s, key) == Route(nodes, s, key)
  {
    match s
    case Leaf(_) =>
    case Inner(at, l, r) =>
      Frame(nodes, nodes2, free, free2, l, at);
      Frame(nodes, nodes2, free, free2, r, at);
  }

  /** Changing only the parent pointer of the root of `s`. */
  lemma Reparent(nodes: seq<Node>, nodes2: seq<Node>, free: nat, s: Shape, p: int, p2: u32)
    requires Realizes(nodes, free, s, p)
    requires |nodes2| == |nodes|
    requires nodes2[s.at] == nodes[s.at].(parent := p2)
    requires forall i :: i in Indices(s) && i != s.at ==> 0 <= i < |nodes| && nodes2[i] == nodes[i]
    ensures Realizes(nodes2, free, s, p2 as int)
    ensures ContentsOf(nodes2, s) == ContentsOf(nodes, s)
  {
    match s
    case Leaf(_) =>
    case Inner(at, l, r) =>
      assert AgreeOn(nodes, nodes2, l) by {
        assert at !in Indices(l);
        assert Indices(l) <= Indices(s);
      }
      assert AgreeOn(nodes, nodes2, r) by {
        assert at !in Indices(r);
        assert Indices(r) <= Indices(s);
      }
      Frame(nodes, nodes2, free, free, l, at);
      Frame(nodes, nodes2, free, free, r, at);
  }

  // ---------------------------------------------------------------------
  // Overwriting the order index of an existing key

  lemma {:induction false} SetOrderIndex(nodes: seq<Node>, free: nat, s: Shape, p: int, key: u64, v: u32)
    requires Realizes(nodes, free, s, p)
    requires key in ContentsOf(nodes, s)
    ensures var L := Route(nodes, s, key);
      && 0 <= L < |nodes|
      && Realizes(nodes[L := nodes[L].(orderIndex := v)], free, s, p)
      && ContentsOf(nodes[L := nodes[L].(orderIndex := v)], s) == ContentsOf(nodes, s)[key := v]
  {
    var L := Route(nodes, s, key);
    RouteFacts(nodes, free, s, p, key);
    var nodes2 := nodes[L := nodes[L].(orderIndex := v)];
    match s
    case Leaf(_) =>
    case Inner(at, l, r) =>
      var bit := GetBit(key, nodes[at].prefixLen);
      var (on, off) := if bit then (r, l) else (l, r);
      assert key !in ContentsOf(nodes, off);
      assert key in ContentsOf(nodes, on);
      RouteFacts(nodes, free, on, at, key);
      IndicesBelow(nodes, free, s, p);
      SetOrderIndex(nodes, free, on, at, key, v);
      Frame(nodes, nodes2, free, free, off, at);
      UpdateJoin(ContentsOf(nodes, l), ContentsOf(nodes, r), ContentsOf(nodes2, l), ContentsOf(nodes2, r), key, v, bit);
  }

  lemma UpdateJoin(cl: map<u64, u32>, cr: map<u64, u32>, cl2: map<u64, u32>, cr2: map<u64, u32>, key: u64, v: u32, right: bool)
    requires right ==> key !in cl && cl2 == cl && cr2 == cr[key := v]
    requires !right ==> key !in cr && cr2 == cr && cl2 == cl[key := v]
    ensures cl2 + cr2 == (cl + cr)[key := v]
  {
  }

  // ---------------------------------------------------------------------
  // Inserting a new key beside the leaf its route ends at

  /** The shape that replaces leaf `L`: a fresh inner node `I` whose children
      are `L` and the fresh leaf `I + 1`, the latter on the side given by the
      critical bit of the new key. */
  ghost function NewSub(L: int, I: nat, key: u64, crit: u8): Shape
    requires 0 <= L
  {
    if GetBit(key, crit) then Inner(I, Leaf(L), Leaf(I + 1)) else Inner(I, Leaf(I + 1), Leaf(L))
  }

  /** `s` with the leaf reached by `key` replaced by `g`. */
  ghost function Graft(nodes: seq<Node>, s: Shape, key: u64, g: Shape): Shape
  {
    match s
    case Leaf(_) => g
    case Inner(at, l, r) =>
      if GetBit(key, PrefixAt(nodes, at)) then Inner(at, l, Graft(nodes, r, key, g))
      else Inner(at, Graft(nodes, l, key, g), r)
  }

  /** `n2` is the arena after `insert` has placed the inner node `I` and
      the leaf `I + 1` for `key` above leaf `L`, and redirected the parent of
      `L` (if any) to `I`. */
  ghost predicate IsSplice(nodes: seq<Node>, n2: seq<Node>, L: int, I: nat, key: u64, v: u32, crit: u8)
  {
    var P := if 0 <= L < |nodes| then nodes[L].parent else EMPTY;
    && 0 <= L < I && I + 1 < |nodes| <= EMPTY as int
    && |n2| == |nodes|
    && n2[I] == Node(0, 0, P, if GetBit(key, crit) then L as u32 else (I + 1) as u32,
                     if GetBit(key, crit) then (I + 1) as u32 else L as u32, crit, false)
    && n2[I + 1] == NewLeaf(key, v).(parent := I as u32)
    && n2[L] == nodes[L].(parent := I as u32)
    && (P as int < I ==> n2[P] == Redirect(nodes[P], L as u32, I as u32))
    && (forall i :: 0 <= i < I && i != L && i != P as int ==> n2[i] == nodes[i])
  }

  /** Grafting is correct: the spliced arena realizes the grafted shape,
      whose contents gain exactly the new key. */
  lemma {:induction false} GraftRealizes(nodes: seq<Node>, n2: seq<Node>, free: nat, s: Shape, p: int, key: u64, v: u32, crit: u8, L: int)
    requires GraftPre(nodes, n2, free, s, p, key, v, crit, L)
    ensures GraftPost(nodes, n2, free, s, p, key, v, crit, L)
    decreases s, 1
  {
    match s
    case Leaf(_) => GraftLeaf(nodes, n2, free, s, p, key, v, crit, L);
    case Inner(at, l, r) =>
      if GetBit(key, nodes[at].prefixLen) {
        GraftRight(nodes, n2, free, s, p, key, v, crit, L);
      } else {
        GraftLeft(nodes, n2, free, s, p, key, v, crit, L);
      }
  }

  ghost predicate GraftPre(nodes: seq<Node>, n2: seq<Node>, free: nat, s: Shape, p: int, key: u64, v: u32, crit: u8, L: int)
  {
    && Realizes(nodes, free, s, p)
    && free + 2 <= |nodes| <= EMPTY as int
    && (p == EMPTY as int || 0 <= p < free)
    && p !in Indices(s)
    && key !in ContentsOf(nodes, s)
    && 0 <= L < free && L == Route(nodes, s, key)
    && crit == FindCriticalBit(key, nodes[L].key)
    && IsSplice(nodes, n2, L, free, key, v, crit)
  }

  ghost predicate GraftPost(nodes: seq<Node>, n2: seq<Node>, free: nat, s: Shape, p: int, key: u64, v: u32, crit: u8, L: int)
    requires 0 <= L
  {
    var g := Graft(nodes, s, key, NewSub(L, free, key, crit));
    && Realizes(n2, free + 2, g, p)
    && ContentsOf(n2, g) == ContentsOf(nodes, s)[key := v]
    && Indices(g) == Indices(s) + {free, free + 1}
    && g.at == (if s.at == L then free else s.at)
  }

  /** Facts shared by the cases of `GraftRealizes`. */
  lemma GraftCommon(nodes: seq<Node>, n2: seq<Node>, free: nat, s: Shape, p: int, key: u64, v: u32, crit: u8, L: int)
    requires GraftPre(nodes, n2, free, s, p, key, v, crit, L)
    ensures var P := nodes[L].parent as int;
      && L in Indices(s) && nodes[L].isLeaf && nodes[L].key != key
      && (forall i :: i in Indices(s) ==> 0 <= i < free)
      && (P == p || P in Indices(s))
      && (L == s.at ==> P == p)
      && P != L && (P < free || P == EMPTY as int)
  {
    RouteFacts(nodes, free, s, p, key);
    IndicesBelow(nodes, free, s, p);
    if L != s.at {
      ParentFacts(nodes, free, s, p, L);
    }
  }

  lemma GraftLeaf(nodes: seq<Node>, n2: seq<Node>, free: nat, s: Shape, p: int, key: u64, v: u32, crit: u8, L: int)
    requires GraftPre(nodes, n2, free, s, p, key, v, crit, L)
    requires s.Leaf?
    ensures GraftPost(nodes, n2, free, s, p, key, v, crit, L)
  {
    GraftCommon(nodes, n2, free, s, p, key, v, crit, L);
    var g := NewSub(L, free, key, crit);
    assert Realizes(n2, free + 2, g.left, free);
    assert Realizes(n2, free + 2, g.right, free);
    assert Realizes(n2, free + 2, g, p);
    assert ContentsOf(n2, g) == ContentsOf(nodes, s)[key := v];
  }

  lemma GraftRight(nodes: seq<Node>, n2: seq<Node>, free: nat, s: Shape, p: int, key: u64, v: u32, crit: u8, L: int)
    requires GraftPre(nodes, n2, free, s, p, key, v, crit, L)
    requires s.Inner? && GetBit(key, nodes[s.at].prefixLen)
    ensures GraftPost(nodes, n2, free, s, p, key, v, crit, L)
    decreases s, 0
  {
    GraftRightStep(nodes, n2, free, s, p, key, v, crit, L);
    GraftRealizes(nodes, n2, free, s.right, s.at, key, v, crit, L);
    GraftRightJoin(nodes, n2, free, s, p, key, v, crit, L);
  }

  /** Reassembles `GraftPost` for `s` from that of its right subtree. */
  lemma GraftRightJoin(nodes: seq<Node>, n2: seq<Node>, free: nat, s: Shape, p: int, key: u64, v: u32, crit: u8, L: int)
    requires s.Inner? && 0 <= L && s.at != L && |n2| == |nodes|
    requires s.at < free && free + 2 <= |nodes|
    requires nodes[s.at].parent as int == p && !nodes[s.at].isLeaf
    requires nodes[s.at].left as int == s.left.at && nodes[s.at].right as int == s.right.at
    requires Indices(s.left) !! Indices(s.right) && s.at !in Indices(s.left) && s.at !in Indices(s.right)
    requires forall k :: k in ContentsOf(nodes, s.left) ==> !GetBit(k, nodes[s.at].prefixLen)
    requires forall k :: k in ContentsOf(nodes, s.right) ==> GetBit(k, nodes[s.at].prefixLen)
    requires GetBit(key, nodes[s.at].prefixLen)
    requires forall i :: i in Indices(s) ==> 0 <= i < free
    requires GraftPost(nodes, n2, free, s.right, s.at, key, v, crit, L)
    requires Realizes(n2, free + 2, s.left, s.at) && ContentsOf(n2, s.left) == ContentsOf(nodes, s.left)
    requires key !in ContentsOf(nodes, s.left)
    requires n2[s.at] == nodes[s.at].(right := (if s.right.at == L then free else s.right.at) as u32)
    ensures GraftPost(nodes, n2, free, s, p, key, v, crit, L)
  {
    var Inner(at, l, r) := s;
    var g0 := NewSub(L, free, key, crit);
    var gr := Graft(nodes, r, key, g0);
    assert Graft(nodes, s, key, g0) == Inner(at, l, gr) by {
      assert PrefixAt(nodes, at) == nodes[at].prefixLen;
    }
    UpdateJoin(ContentsOf(nodes, l), ContentsOf(nodes, r), ContentsOf(n2, l), ContentsOf(n2, gr), key, v, true);
    forall k | k in ContentsOf(n2, gr)
      ensures GetBit(k, n2[at].prefixLen)
    {
      if k != key {
        assert k in ContentsOf(nodes, r);
      }
    }
    assert Indices(s) == {at} + Indices(l) + Indices(r);
    assert Indices(gr) == Indices(r) + {free, free + 1};
    assert free !in Indices(l) && free + 1 !in Indices(l) && at != free && at != free + 1;
    InnerRealizes(n2, free + 2, at, l, gr, p);
  }

  /** Everything `GraftRight` needs about the node `s.at` and the subtree
      it does not descend into. */
  lemma GraftRightStep(nodes: seq<Node>, n2: seq<Node>, free: nat, s: Shape, p: int, key: u64, v: u32, crit: u8, L: int)
    requires GraftPre(nodes, n2, free, s, p, key, v, crit, L)
    requires s.Inner? && GetBit(key, nodes[s.at].prefixLen)
    ensures GraftPre(nodes, n2, free, s.right, s.at, key, v, crit, L)
    ensures Realizes(n2, free + 2, s.left, s.at) && ContentsOf(n2, s.left) == ContentsOf(nodes, s.left)
    ensures key !in ContentsOf(nodes, s.left)
    ensures n2[s.at] == nodes[s.at].(right := (if s.right.at == L then free else s.right.at) as u32)
    ensures forall i :: i in Indices(s) ==> 0 <= i < free
    ensures s.at != L
  {
    GraftCommon(nodes, n2, free, s, p, key, v, crit, L);
    var Inner(at, l, r) := s;
    RouteFacts(nodes, free, r, at, key);
    if L != r.at {
      ParentFacts(nodes, free, r, at, L);
    }
    GraftFrame(nodes, n2, free, s, p, key, v, crit, L, l);
    if at == nodes[L].parent as int {
      assert Route(nodes, s, key) == Route(nodes, r, key);
      assert L == r.at;
    }
  }

  lemma GraftLeft(nodes: seq<Node>, n2: seq<Node>, free: nat, s: Shape, p: int, key: u64, v: u32, crit: u8, L: int)
    requires GraftPre(nodes, n2, free, s, p, key, v, crit, L)
    requires s.Inner? && !GetBit(key, nodes[s.at].prefixLen)
    ensures GraftPost(nodes, n2, free, s, p, key, v, crit, L)
    decreases s, 0
  {
    GraftLeftStep(nodes, n2, free, s, p, key, v, crit, L);
    GraftRealizes(nodes, n2, free, s.left, s.at, key, v, crit, L);
    GraftLeftJoin(nodes, n2, free, s, p, key, v, crit, L);
  }

  /** Reassembles `GraftPost` for `s` from that of its left subtree. */
  lemma GraftLeftJoin(nodes: seq<Node>, n2: seq<Node>, free: nat, s: Shape, p: int, key: u64, v: u32, crit: u8, L: int)
    requires s.Inner? && 0 <= L && s.at != L && |n2| == |nodes|
    requires s.at < free && free + 2 <= |nodes|
    requires nodes[s.at].parent as int == p && !nodes[s.at].isLeaf
    requires nodes[s.at].left as int == s.left.at && nodes[s.at].right as int == s.right.at
    requires Indices(s.left) !! Indices(s.right) && s.at !in Indices(s.left) && s.at !in Indices(s.right)
    requires forall k :: k in ContentsOf(nodes, s.left) ==> !GetBit(k, nodes[s.at].prefixLen)
    requires forall k :: k in ContentsOf(nodes, s.right) ==> GetBit(k, nodes[s.at].prefixLen)
    requires !GetBit(key, nodes[s.at].prefixLen)
    requires forall i :: i in Indices(s) ==> 0 <= i < free
    requires GraftPost(nodes, n2, free, s.left, s.at, key, v, crit, L)
    requires Realizes(n2, free + 2, s.right, s.at) && ContentsOf(n2, s.right) == ContentsOf(nodes, s.right)
    requires key !in ContentsOf(nodes, s.right)
    requires n2[s.at] == nodes[s.at].(left := (if s.left.at == L then free else s.left.at) as u32)
    ensures GraftPost(nodes, n2, free, s, p, key, v, crit, L)
  {
    var Inner(at, l, r) := s;
    var g0 := NewSub(L, free, key, crit);
    var gl := Graft(nodes, l, key, g0);
    assert Graft(nodes, s, key, g0) == Inner(at, gl, r) by {
      assert PrefixAt(nodes, at) == nodes[at].prefixLen;
    }
    UpdateJoin(ContentsOf(nodes, l), ContentsOf(nodes, r), ContentsOf(n2, gl), ContentsOf(n2, r), key, v, false);
    forall k | k in ContentsOf(n2, gl)
      ensures !GetBit(k, n2[at].prefixLen)
    {
      if k != key {
        assert k in ContentsOf(nodes, l);
      }
    }
    assert Indices(s) == {at} + Indices(l) + Indices(r);
    assert Indices(gl) == Indices(l) + {free, free + 1};
    assert free !in Indices(r) && free + 1 !in Indices(r) && at != free && at != free + 1;
    InnerRealizes(n2, free + 2, at, gl, r, p);
  }

  /** Everything `GraftLeft` needs about the node `s.at` and the subtree
      it does not descend into. */
  lemma GraftLeftStep(nodes: seq<Node>, n2: seq<Node>, free: nat, s: Shape, p: int, key: u64, v: u32, crit: u8, L: int)
    requires GraftPre(nodes, n2, free, s, p, key, v, crit, L)
    requires s.Inner? && !GetBit(key, nodes[s.at].prefixLen)
    ensures GraftPre(nodes, n2, free, s.left, s.at, key, v, crit, L)
    ensures Realizes(n2, free + 2, s.right, s.at) && ContentsOf(n2, s.right) == ContentsOf(nodes, s.right)
    ensures key !in ContentsOf(nodes, s.right)
    ensures n2[s.at] == nodes[s.at].(left := (if s.left.at == L then free else s.left.at) as u32)
    ensures forall i :: i in Indices(s) ==> 0 <= i < free
    ensures s.at != L
  {
    GraftCommon(nodes, n2, free, s, p, key, v, crit, L);
    var Inner(at, l, r) := s;
    RouteFacts(nodes, free, l, at, key);
    if L != l.at {
      ParentFacts(nodes, free, l, at, L);
    }
    GraftFrame(nodes, n2, free, s, p, key, v, crit, L, r);
    if at == nodes[L].parent as int {
      assert Route(nodes, s, key) == Route(nodes, l, key);
      assert L == l.at;
    }
  }

  /** The subtree of `s` that the key's route avoids is left alone by the
      splice. */
  lemma GraftFrame(nodes: seq<Node>, n2: seq<Node>, free: nat, s: Shape, p: int, key: u64, v: u32, crit: u8, L: int, off: Shape)
    requires Realizes(nodes, free, s, p) && free + 2 <= |nodes|
    requires key !in ContentsOf(nodes, s) && L == Route(nodes, s, key)
    requires IsSplice(nodes, n2, L, free, key, v, crit)
    requires s.Inner? && off == if GetBit(key, nodes[s.at].prefixLen) then s.left else s.right
    ensures Realizes(n2, free + 2, off, s.at) && ContentsOf(n2, off) == ContentsOf(nodes, off)
    ensures key !in ContentsOf(nodes, off)
  {
    RouteAvoids(nodes, free, s, p, key, off);
    SpliceAgrees(nodes, n2, L, free, key, v, crit, off);
    Frame(nodes, n2, free, free + 2, off, s.at);
  }

  /** The subtree of `s` that the route of `key` avoids holds neither the
      leaf the route ends at nor that leaf's parent. */
  lemma RouteAvoids(nodes: seq<Node>, free: nat, s: Shape, p: int, key: u64, off: Shape)
    requires Realizes(nodes, free, s, p)
    requires s.Inner? && off == if GetBit(key, nodes[s.at].prefixLen) then s.left else s.right
    ensures var L := Route(nodes, s, key);
      && 0 <= L < |nodes|
      && Realizes(nodes, free, off, s.at)
      && (forall i :: i in Indices(off) ==> 0 <= i < free && i != L && i != nodes[L].parent as int)
      && (key in ContentsOf(nodes, off) ==> key in ContentsOf(nodes, s))
  {
    var Inner(at, l, r) := s;
    var on := if GetBit(key, nodes[at].prefixLen) then r else l;
    var L := Route(nodes, s, key);
    assert L == Route(nodes, on, key);
    RouteFacts(nodes, free, on, at, key);
    IndicesBelow(nodes, free, off, at);
    if L != on.at {
      ParentFacts(nodes, free, on, at, L);
    }
    assert nodes[L].parent as int == at || nodes[L].parent as int in Indices(on);
  }

  /** The splice keeps every node other than the leaf, its parent and the
      two fresh ones. */
  lemma SpliceAgrees(nodes: seq<Node>, n2: seq<Node>, L: int, I: nat, key: u64, v: u32, crit: u8, s: Shape)
    requires IsSplice(nodes, n2, L, I, key, v, crit)
    requires forall i :: i in Indices(s) ==> 0 <= i < I && i != L && i != nodes[L].parent as int
    ensures AgreeOn(nodes, n2, s)
  {
  }

  /** The definition of `Realizes` for an inner node, as a lemma. */
  lemma InnerRealizes(nodes: seq<Node>, free: nat, at: nat, l: Shape, r: Shape, p: int)
    requires at < free <= |nodes| && nodes[at].parent as int == p && !nodes[at].isLeaf
    requires nodes[at].left as int == l.at && nodes[at].right as int == r.at
    requires Realizes(nodes, free, l, at) && Realizes(nodes, free, r, at)
    requires Indices(l) !! Indices(r) && at !in Indices(l) && at !in Indices(r)
    requires forall k :: k in ContentsOf(nodes, l) ==> !GetBit(k, nodes[at].prefixLen)
    requires forall k :: k in ContentsOf(nodes, r) ==> GetBit(k, nodes[at].prefixLen)
    ensures Realizes(nodes, free, Inner(at, l, r), p)
  {
  }

  // ---------------------------------------------------------------------
  // Removing a leaf by lifting its sibling into its parent's place

  /** The child of `parent` that is not `child` (the right one when the
      left one is `child`, otherwise the left one). */
  function Sibling(parent: Node, child: u32): u32
  {
    if parent.left == child then parent.right else parent.left
  }

  /** `n2` is the arena after `remove` has unlinked leaf `L`: with `P` the
      parent of `L`, `S` its sibling and `G` the grandparent, `G` (if any)
      points at `S` where it pointed at `P`, and `S` has parent `G`. */
  ghost predicate IsUnlink(nodes: seq<Node>, n2: seq<Node>, L: int)
  {
    && 0 <= L < |nodes| <= EMPTY as int && nodes[L].parent as int < |nodes|
    && var P := nodes[L].parent;
       var S := Sibling(nodes[P], L as u32);
       var G := nodes[P].parent;
       && S as int < |nodes|
       && |n2| == |nodes|
       && n2[S] == nodes[S].(parent := G)
       && (G != EMPTY ==> G as int < |nodes| && n2[G] == Redirect(nodes[G], P, S))
       && (forall i :: 0 <= i < |nodes| && i != S as int && i != G as int ==> n2[i] == nodes[i])
  }

  /** `s` with the leaf reached by `key` removed and its sibling put in
      place of their parent. */
  ghost function Prune(nodes: seq<Node>, s: Shape, key: u64): Shape
  {
    match s
    case Leaf(_) => s
    case Inner(at, l, r) =>
      if GetBit(key, PrefixAt(nodes, at)) then (if r.Leaf? then l else Inner(at, l, Prune(nodes, r, key)))
      else (if l.Leaf? then r else Inner(at, Prune(nodes, l, key), r))
  }

  ghost predicate PrunePre(nodes: seq<Node>, n2: seq<Node>, free: nat, s: Shape, p: int, key: u64, L: int)
  {
    && Realizes(nodes, free, s, p)
    && s.Inner?
    && |nodes| <= EMPTY as int
    && (p == EMPTY as int || 0 <= p < free)
    && p !in Indices(s)
    && key in ContentsOf(nodes, s)
    && L == Route(nodes, s, key)
    && IsUnlink(nodes, n2, L)
  }

  ghost predicate PrunePost(nodes: seq<Node>, n2: seq<Node>, free: nat, s: Shape, p: int, key: u64, L: int)
    requires 0 <= L < |nodes| <= EMPTY as int && nodes[L].parent as int < |nodes|
  {
    var g := Prune(nodes, s, key);
    var P := nodes[L].parent;
    && Realizes(n2, free, g, p)
    && ContentsOf(n2, g) == ContentsOf(nodes, s) - {key}
    && Indices(g) <= Indices(s)
    && g.at == (if s.at == P as int then Sibling(nodes[P], L as u32) as int else s.at)
  }

  /** Facts shared by the cases of `PruneRealizes`. */
  lemma PruneCommon(nodes: seq<Node>, n2: seq<Node>, free: nat, s: Shape, p: int, key: u64, L: int)
    requires PrunePre(nodes, n2, free, s, p, key, L)
    ensures L in Indices(s) && L != s.at && nodes[L].isLeaf && nodes[L].key == key
    ensures forall i :: i in Indices(s) ==> 0 <= i < free
    ensures var P := nodes[L].parent as int;
      && P in Indices(s) && !nodes[P].isLeaf
      && (nodes[P].left as int == L || nodes[P].right as int == L)
      && Sibling(nodes[P], L as u32) as int in Indices(s)
      && Sibling(nodes[P], L as u32) as int != L
  {
    RouteFacts(nodes, free, s, p, key);
    IndicesBelow(nodes, free, s, p);
    ParentFacts(nodes, free, s, p, L);
  }

  /** Pruning is correct: the unlinked arena realizes the pruned shape,
      whose contents lose exactly `key`. */
  lemma {:induction false} PruneRealizes(nodes: seq<Node>, n2: seq<Node>, free: nat, s: Shape, p: int, key: u64, L: int)
    requires PrunePre(nodes, n2, free, s, p, key, L)
    ensures PrunePost(nodes, n2, free, s, p, key, L)
    decreases s, 1
  {
    var Inner(at, l, r) := s;
    if GetBit(key, nodes[at].prefixLen) {
      if r.Leaf? {
        PruneLeaf(nodes, n2, free, s, p, key, L, true);
      } else {
        PruneRight(nodes, n2, free, s, p, key, L);
      }
    } else {
      if l.Leaf? {
        PruneLeaf(nodes, n2, free, s, p, key, L, false);
      } else {
        PruneLeft(nodes, n2, free, s, p, key, L);
      }
    }
  }

  /** The removed leaf is a child of `s.at`: its sibling takes `s`'s place. */
  lemma PruneLeaf(nodes: seq<Node>, n2: seq<Node>, free: nat, s: Shape, p: int, key: u64, L: int, right: bool)
    requires PrunePre(nodes, n2, free, s, p, key, L)
    requires right == GetBit(key, nodes[s.at].prefixLen)
    requires if right then s.right.Leaf? else s.left.Leaf?
    ensures PrunePost(nodes, n2, free, s, p, key, L)
  {
    PruneCommon(nodes, n2, free, s, p, key, L);
    var Inner(at, l, r) := s;
    if right {
      assert Route(nodes, s, key) == Route(nodes, r, key);
      assert L == r.at;
      assert Realizes(nodes, free, r, at);
      assert nodes[L].parent as int == at;
      assert Sibling(nodes[at], L as u32) as int == l.at;
      assert nodes[at].parent as int == p;
      Reparent(nodes, n2, free, l, at, p as u32);
      assert key !in ContentsOf(nodes, l);
      RemoveJoin(ContentsOf(nodes, l), ContentsOf(nodes, r), ContentsOf(n2, l), ContentsOf(n2, l), key, true, true);
    } else {
      assert Route(nodes, s, key) == Route(nodes, l, key);
      assert L == l.at;
      assert Realizes(nodes, free, l, at);
      assert nodes[L].parent as int == at;
      assert Sibling(nodes[at], L as u32) as int == r.at;
      assert nodes[at].parent as int == p;
      Reparent(nodes, n2, free, r, at, p as u32);
      assert key !in ContentsOf(nodes, r);
      RemoveJoin(ContentsOf(nodes, l), ContentsOf(nodes, r), ContentsOf(n2, r), ContentsOf(n2, r), key, false, true);
    }
  }

  lemma PruneRight(nodes: seq<Node>, n2: seq<Node>, free: nat, s: Shape, p: int, key: u64, L: int)
    requires PrunePre(nodes, n2, free, s, p, key, L)
    requires s.Inner? && GetBit(key, nodes[s.at].prefixLen) && s.right.Inner?
    ensures PrunePost(nodes, n2, free, s, p, key, L)
    decreases s, 0
  {
    var Inner(at, l, r) := s;
    PruneRightStep(nodes, n2, free, s, p, key, L);
    PruneRealizes(nodes, n2, free, r, at, key, L);
    var pr := Prune(nodes, r, key);
    RemoveJoin(ContentsOf(nodes, l), ContentsOf(nodes, r), ContentsOf(n2, l), ContentsOf(n2, pr), key, true, false);
    InnerRealizes(n2, free, at, l, pr, p);
  }

  /** Everything `PruneRight` needs about the node `s.at` and the subtree
      it does not descend into. */
  lemma PruneRightStep(nodes: seq<Node>, n2: seq<Node>, free: nat, s: Shape, p: int, key: u64, L: int)
    requires PrunePre(nodes, n2, free, s, p, key, L)
    requires s.Inner? && GetBit(key, nodes[s.at].prefixLen) && s.right.Inner?
    ensures PrunePre(nodes, n2, free, s.right, s.at, key, L)
    ensures Realizes(n2, free, s.left, s.at) && ContentsOf(n2, s.left) == ContentsOf(nodes, s.left)
    ensures key !in ContentsOf(nodes, s.left)
    ensures nodes[L].parent as int != s.at
    ensures var P := nodes[L].parent;
      n2[s.at] == nodes[s.at].(right := if s.right.at == P as int then Sibling(nodes[P], L as u32) else s.right.at as u32)
  {
    PruneCommon(nodes, n2, free, s, p, key, L);
    var Inner(at, l, r) := s;
    RouteFacts(nodes, free, r, at, key);
    ParentFacts(nodes, free, r, at, L);
    var P := nodes[L].parent as int;
    if P != r.at {
      ParentFacts(nodes, free, r, at, P);
    }
    Frame(nodes, n2, free, free, l, at);
  }

  lemma PruneLeft(nodes: seq<Node>, n2: seq<Node>, free: nat, s: Shape, p: int, key: u64, L: int)
    requires PrunePre(nodes, n2, free, s, p, key, L)
    requires s.Inner? && !GetBit(key, nodes[s.at].prefixLen) && s.left.Inner?
    ensures PrunePost(nodes, n2, free, s, p, key, L)
    decreases s, 0
  {
    var Inner(at, l, r) := s;
    PruneLeftStep(nodes, n2, free, s, p, key, L);
    PruneRealizes(nodes, n2, free, l, at, key, L);
    var pl := Prune(nodes, l, key);
    RemoveJoin(ContentsOf(nodes, l), ContentsOf(nodes, r), ContentsOf(n2, pl), ContentsOf(n2, r), key, false, false);
    InnerRealizes(n2, free, at, pl, r, p);
  }

  /** Everything `PruneLeft` needs about the node `s.at` and the subtree
      it does not descend into. */
  lemma PruneLeftStep(nodes: seq<Node>, n2: seq<Node>, free: nat, s: Shape, p: int, key: u64, L: int)
    requires PrunePre(nodes, n2, free, s, p, key, L)
    requires s.Inner? && !GetBit(key, nodes[s.at].prefixLen) && s.left.Inner?
    ensures PrunePre(nodes, n2, free, s.left, s.at, key, L)
    ensures Realizes(n2, free, s.right, s.at) && ContentsOf(n2, s.right) == ContentsOf(nodes, s.right)
    ensures key !in ContentsOf(nodes, s.right)
    ensures nodes[L].parent as int != s.at
    ensures var P := nodes[L].parent;
      n2[s.at] == nodes[s.at].(left := if s.left.at == P as int then Sibling(nodes[P], L as u32) else s.left.at as u32)
  {
    PruneCommon(nodes, n2, free, s, p, key, L);
    var Inner(at, l, r) := s;
    RouteFacts(nodes, free, l, at, key);
    ParentFacts(nodes, free, l, at, L);
    var P := nodes[L].parent as int;
    if P != l.at {
      ParentFacts(nodes, free, l, at, P);
    }
    Frame(nodes, n2, free, free, r, at);
  }

  /** Map algebra for removing `key` from the side `right` of a join. When
      `whole`, that side holds `key` alone and disappears. */
  lemma RemoveJoin(cl: map<u64, u32>, cr: map<u64, u32>, cl2: map<u64, u32>, cr2: map<u64, u32>, key: u64, right: bool, whole: bool)
    requires right ==> key !in cl && (if whole then cr.Keys == {key} && cl2 == cl else cl2 == cl && cr2 == cr - {key})
    requires !right ==> key !in cr && (if whole then cl.Keys == {key} && cr2 == cr else cr2 == cr && cl2 == cl - {key})
    ensures (if whole then (if right then cl2 else cr2) else cl2 + cr2) == (cl + cr) - {key}
  {
  }
}

=== FILE: matching.dfy ===
/** Matching an incoming order against the resting side of the book
    (`OrderBook::match_order` of order_book.rs).

    `Matched` is the reference: it reads only the abstract levels of the
    resting side (price to orders, oldest first) and takes from the head of
    the best level while the incoming order has quantity left, the best
    price is within the limit, and the head order belongs to someone else.
    The lemmas about it state what matching promises (limit respected,
    quantity conserved, price priority, where and why it stops, self-trade
    blocked); `MatchOrder` runs the loop on the tree-and-slab book and is
    proved to produce exactly what `Matched` describes. */
module Matching {
  import opened Base
  import opened CritBitArena
  import CritBit
  import opened Orders
  import opened OrderQueues
  import opened OrderBooks

  /** One fill: the maker's price, the quantity taken and the maker's id. */
  datatype Execution = Execution(price: u64, quantity: u64, makerId: u128)

  /** An incoming order of `side` accepts a resting price up to (bids) or
      down to (asks) its limit. */
  predicate Acceptable(side: Side, price: u64, limit: u64)
  {
    if side == Bid then price <= limit else price >= limit
  }

  /** `price` is at least as good as `other` for an incoming order of
      `side`: no higher for a buyer, no lower for a seller. */
  predicate AtLeastAsGood(side: Side, price: u64, other: u64)
  {
    if side == Bid then price <= other else price >= other
  }

  ghost predicate Nonempty(L: map<u64, seq<Order>>)
  {
    forall p :: p in L ==> L[p] != []
  }

  /** The total quantity of `es`. */
  function Total(es: seq<Execution>): nat
  {
    if es == [] then 0 else es[0].quantity + Total(es[1..])
  }

  /** The length of the best level of the resting side. */
  ghost function HeadCount(L: map<u64, seq<Order>>, resting: Side): nat
  {
    if L == map[] then 0 else |L[BestKey(resting, L.Keys)]|
  }

  /** Taking `f` from the oldest order of level `p`: the order stays with
      what remains, or leaves once filled, and the level leaves with its
      last order. */
  ghost function TakeHead(L: map<u64, seq<Order>>, p: u64, f: u64): (L1: map<u64, seq<Order>>)
    requires p in L && L[p] != []
    ensures Nonempty(L) ==> Nonempty(L1)
    ensures L1.Keys <= L.Keys
  {
    var m := Fill(L[p][0], f);
    if m.IsFilled() then
      if |L[p]| == 1 then L - {p} else L[p := L[p][1..]]
    else
      L[p := [m] + L[p][1..]]
  }

  /** A step that takes nothing removes an order, so matching ends. */
  lemma TakeHeadShrinks(L: map<u64, seq<Order>>, resting: Side, p: u64, f: u64)
    requires L != map[] && p == BestKey(resting, L.Keys) && L[p] != []
    requires f == 0 ==> L[p][0].quantity == 0
    ensures var L1 := TakeHead(L, p, f);
      f == 0 ==> |L1.Keys| < |L.Keys| || (L1.Keys == L.Keys && HeadCount(L1, resting) < HeadCount(L, resting))
  {
    var L1 := TakeHead(L, p, f);
    if f == 0 {
      if |L[p]| == 1 {
        assert L1.Keys == L.Keys - {p};
      } else {
        assert L1.Keys == L.Keys;
        assert L1 != map[] by {
          assert p in L1;
        }
      }
    }
  }

  /** One round of matching: none when it stops; otherwise the fill
      against the oldest order at the best price, the levels after it and
      the quantity still wanted. */
  ghost function Next(L: map<u64, seq<Order>>, side: Side, rem: u64, limit: u64, taker: Pubkey): (r: Option<(Execution, map<u64, seq<Order>>, u64)>)
    requires Nonempty(L)
    ensures r.None? <==>
      rem == 0 || L == map[] ||
      !Acceptable(side, BestKey(side.Opposite(), L.Keys), limit) ||
      L[BestKey(side.Opposite(), L.Keys)][0].owner == taker
    ensures r.Some? ==>
      var (e, L1, rem1) := r.value;
      && Nonempty(L1) && L1.Keys <= L.Keys
      && e.price == BestKey(side.Opposite(), L.Keys) && Acceptable(side, e.price, limit)
      && e.quantity as int + rem1 as int == rem as int
      && (rem1 < rem || |L1.Keys| < |L.Keys| || (L1.Keys == L.Keys && HeadCount(L1, side.Opposite()) < HeadCount(L, side.Opposite())))
  {
    var resting := side.Opposite();
    if rem == 0 || L == map[] then None
    else
      var p := BestKey(resting, L.Keys);
      var m := L[p][0];
      if !Acceptable(side, p, limit) || m.owner == taker then None
      else
        var f := if rem <= m.quantity then rem else m.quantity;
        TakeHeadShrinks(L, resting, p, f);
        Some((Execution(p, f, m.orderId), TakeHead(L, p, f), rem - f))
  }

  /** A round that fills: the best level is within the limit, its oldest
      order is someone else's, and `min(rem, quantity)` of that order is
      taken, leaving `L1` and `rem1`. */
  ghost predicate Fills(L: map<u64, seq<Order>>, side: Side, rem: u64, limit: u64, taker: Pubkey, e: Execution, L1: map<u64, seq<Order>>, rem1: u64)
  {
    && L != map[] && rem > 0
    && var p := BestKey(side.Opposite(), L.Keys);
    && p in L && L[p] != []
    && Acceptable(side, p, limit) && L[p][0].owner != taker
    && e == Execution(p, if rem <= L[p][0].quantity then rem else L[p][0].quantity, L[p][0].orderId)
    && rem1 as int == rem as int - e.quantity as int
    && L1 == TakeHead(L, p, e.quantity)
  }

  /** A round that fills is the reference's next step. */
  lemma NextFills(L: map<u64, seq<Order>>, side: Side, rem: u64, limit: u64, taker: Pubkey, e: Execution, L1: map<u64, seq<Order>>, rem1: u64)
    requires Nonempty(L) && Fills(L, side, rem, limit, taker, e, L1, rem1)
    ensures Next(L, side, rem, limit, taker) == Some((e, L1, rem1))
  {
  }

  /** What matching produces from the levels `L` of the resting side: the
      fills in order, the levels left, and the quantity left unmatched. */
  ghost function Matched(L: map<u64, seq<Order>>, side: Side, rem: u64, limit: u64, taker: Pubkey): (r: (seq<Execution>, map<u64, seq<Order>>, u64))
    requires Nonempty(L)
    ensures Nonempty(r.1)
    decreases rem, |L.Keys|, HeadCount(L, side.Opposite())
  {
    match Next(L, side, rem, limit, taker)
    case None => ([], L, rem)
    case Some((e, L1, rem1)) =>
      var r := Matched(L1, side, rem1, limit, taker);
      ([e] + r.0, r.1, r.2)
  }

  /** Nothing is created or lost: the fills and what is left add up to the
      incoming quantity. */
  lemma {:induction false} MatchedConserves(L: map<u64, seq<Order>>, side: Side, rem: u64, limit: u64, taker: Pubkey)
    requires Nonempty(L)
    ensures var r := Matched(L, side, rem, limit, taker);
      Total(r.0) + r.2 == rem as int
    decreases rem, |L.Keys|, HeadCount(L, side.Opposite())
  {
    match Next(L, side, rem, limit, taker)
    case None =>
    case Some((e, L1, rem1)) =>
      MatchedConserves(L1, side, rem1, limit, taker);
      var r := Matched(L1, side, rem1, limit, taker);
      assert ([e] + r.0)[1..] == r.0;
  }

  /** Every fill is at a price the incoming order accepts, at a price some
      level had, and the levels left are among those there were. */
  lemma {:induction false} MatchedWithinLimit(L: map<u64, seq<Order>>, side: Side, rem: u64, limit: u64, taker: Pubkey)
    requires Nonempty(L)
    ensures var r := Matched(L, side, rem, limit, taker);
      && (forall e :: e in r.0 ==> Acceptable(side, e.price, limit) && e.price in L)
      && r.1.Keys <= L.Keys
    decreases rem, |L.Keys|, HeadCount(L, side.Opposite())
  {
    match Next(L, side, rem, limit, taker)
    case None =>
    case Some((e, L1, rem1)) =>
      MatchedWithinLimit(L1, side, rem1, limit, taker);
  }

  /** Each fill is at a price at least as good for the incoming order as
      every later fill. */
  ghost predicate InPriceOrder(side: Side, es: seq<Execution>)
  {
    forall j, k :: 0 <= j < k < |es| ==> AtLeastAsGood(side, es[j].price, es[k].price)
  }

  /** A fill at least as good as every fill of an ordered run may lead it. */
  lemma LeadInPriceOrder(side: Side, e: Execution, rest: seq<Execution>)
    requires InPriceOrder(side, rest)
    requires forall x :: x in rest ==> AtLeastAsGood(side, e.price, x.price)
    ensures InPriceOrder(side, [e] + rest)
  {
    var es := [e] + rest;
    forall j, k | 0 <= j < k < |es|
      ensures AtLeastAsGood(side, es[j].price, es[k].price)
    {
      if j == 0 {
        assert es[k] in rest;
      } else {
        assert es[j] == rest[j - 1] && es[k] == rest[k - 1];
      }
    }
  }

  /** The best resting price is at least as good for the incoming order as
      any other resting price. */
  lemma BestIsAtLeastAsGood(side: Side, keys: set<u64>, p: u64)
    requires keys != {} && p in keys
    ensures AtLeastAsGood(side, BestKey(side.Opposite(), keys), p)
  {
  }

  /** Price priority: the fills come best price first. */
  lemma {:induction false} MatchedInPriceOrder(L: map<u64, seq<Order>>, side: Side, rem: u64, limit: u64, taker: Pubkey)
    requires Nonempty(L)
    ensures InPriceOrder(side, Matched(L, side, rem, limit, taker).0)
    decreases rem, |L.Keys|, HeadCount(L, side.Opposite())
  {
    match Next(L, side, rem, limit, taker)
    case None =>
    case Some((e, L1, rem1)) =>
      MatchedInPriceOrder(L1, side, rem1, limit, taker);
      MatchedWithinLimit(L1, side, rem1, limit, taker);
      var rest := Matched(L1, side, rem1, limit, taker).0;
      forall x | x in rest
        ensures AtLeastAsGood(side, e.price, x.price)
      {
        BestIsAtLeastAsGood(side, L.Keys, x.price);
      }
      LeadInPriceOrder(side, e, rest);
  }

  /** Matching stops only when the incoming order is done, the resting
      side is empty, its best price is beyond the limit, or its oldest
      order at that price has the same owner. */
  lemma {:induction false} MatchedStops(L: map<u64, seq<Order>>, side: Side, rem: u64, limit: u64, taker: Pubkey)
    requires Nonempty(L)
    ensures var r := Matched(L, side, rem, limit, taker);
      r.2 != 0 && r.1 != map[] ==>
        var p := BestKey(side.Opposite(), r.1.Keys);
        !Acceptable(side, p, limit) || r.1[p][0].owner == taker
    decreases rem, |L.Keys|, HeadCount(L, side.Opposite())
  {
    match Next(L, side, rem, limit, taker)
    case None =>
    case Some((e, L1, rem1)) =>
      MatchedStops(L1, side, rem1, limit, taker);
  }

  /** Self-trade prevention: when the oldest order at the best resting
      price is the taker's own, nothing matches and nothing changes, even
      if better-suited orders rest behind it. */
  lemma SelfTradeBlocks(L: map<u64, seq<Order>>, side: Side, rem: u64, limit: u64, taker: Pubkey)
    requires Nonempty(L) && L != map[]
    requires L[BestKey(side.Opposite(), L.Keys)][0].owner == taker
    ensures Matched(L, side, rem, limit, taker) == ([], L, rem)
  {
  }

  // ---------------------------------------------------------------------
  // The loop on the book

  lemma LevelsNonempty(b: OrderBook, side: Side)
    requires Shaped(b) && Indexed(b) && Stocked(b)
    ensures Nonempty(Levels(b, side))
  {
    Sides(b, side);
  }

  /** What matching leaves alone: the header fields, the slab's size and
      bump pointer, the taker's own tree, and every queue's running total
      (a partial fill does not lower it, and a popped order is taken off
      at quantity 0). */
  ghost predicate Untouched(b: OrderBook, c: OrderBook, side: Side)
  {
    && c.market == b.market && c.baseMint == b.baseMint && c.quoteMint == b.quoteMint
    && c.nextQueueIndex == b.nextQueueIndex
    && c.totalOrders == b.totalOrders && c.bestBid == b.bestBid && c.bestAsk == b.bestAsk
    && c.TreeOf(side) == b.TreeOf(side)
    && |c.queues| == |b.queues|
    && forall i :: 0 <= i < |b.queues| ==> c.queues[i].totalQuantity == b.queues[i].totalQuantity
  }

  /** Neither tree's arena bump pointer has moved: a level dropped by
      matching gives no node back. */
  predicate ArenasKept(b: OrderBook, c: OrderBook)
  {
    c.bids.freeList == b.bids.freeList && c.asks.freeList == b.asks.freeList
  }

  /** No level of `P` sits at slot `i`. */
  ghost predicate Unnamed(P: map<u64, u32>, i: int)
  {
    forall p :: p in P ==> P[p] as int != i
  }

  /** Matching against `resting` opens no level there and writes only the
      queues of `b`'s resting levels: every other slot, the taker's levels
      and the unused ones alike, is left as it was. */
  ghost predicate SlotsKept(b: OrderBook, c: OrderBook, resting: Side)
    requires Shaped(b) && Shaped(c)
  {
    var P, P1 := Prices(b, resting), Prices(c, resting);
    && (forall p :: p in P1 ==> p in P && P1[p] == P[p])
    && forall i :: 0 <= i < |b.queues| && Unnamed(P, i) ==> c.queues[i] == b.queues[i]
  }

  lemma SlotsKeptTrans(a: OrderBook, b: OrderBook, c: OrderBook, resting: Side)
    requires Shaped(a) && Shaped(b) && Shaped(c)
    requires SlotsKept(a, b, resting) && SlotsKept(b, c, resting)
    ensures SlotsKept(a, c, resting)
  {
    var P, P1 := Prices(a, resting), Prices(b, resting);
    forall i | 0 <= i < |a.queues| && Unnamed(P, i)
      ensures c.queues[i] == a.queues[i]
    {
      assert Unnamed(P1, i);
    }
  }

  /** A round that rewrites only the slot of level `price`, and keeps the
      level or drops it, keeps every other slot. */
  lemma OneSlotKept(cur: OrderBook, next: OrderBook, resting: Side, price: u64, qi: u32)
    requires Shaped(cur) && Shaped(next)
    requires price in Prices(cur, resting) && qi == Prices(cur, resting)[price]
    requires qi as int < |cur.queues| && next.queues == cur.queues[qi := next.queues[qi]]
    requires Prices(next, resting) == Prices(cur, resting) || Prices(next, resting) == Prices(cur, resting) - {price}
    ensures SlotsKept(cur, next, resting)
  {
    var P := Prices(cur, resting);
    forall i | 0 <= i < |cur.queues| && Unnamed(P, i)
      ensures next.queues[i] == cur.queues[i]
    {
      assert P[price] as int != i;
    }
  }

  /** Storing a queue with the same running total leaves every running
      total of the slab as it was. */
  lemma SameTotals(qs: seq<OrderQueue>, i: nat, q: OrderQueue)
    requires i < |qs| && q.totalQuantity == qs[i].totalQuantity
    ensures |qs[i := q]| == |qs|
    ensures forall j :: 0 <= j < |qs| ==> qs[i := q][j].totalQuantity == qs[j].totalQuantity
  {
  }

  /** A filled-in head order keeps its price and side and never raises the
      queued quantity. */
  lemma FillHead(q: OrderQueue, price: u64, side: Side, f: u64)
    requires LevelOk(q, price, side) && Covered(q)
    ensures var q1 := q.(orders := [Fill(q.orders[0], f)] + q.orders[1..]);
      LevelOk(q1, price, side) && Covered(q1) && Covered(q.(orders := q.orders[1..]))
  {
    var q1 := q.(orders := [Fill(q.orders[0], f)] + q.orders[1..]);
    assert q1.orders[1..] == q.orders[1..];
    assert forall o :: o in q1.orders ==> o == q1.orders[0] || o in q.orders[1..];
  }

  /** One round of `match_order` on the book: `go` is false when the loop
      breaks, and otherwise the round `Fills` describes, which is the
      reference's next step. */
  method MatchStep(cur: OrderBook, side: Side, rem: u64, limit: u64, taker: Pubkey)
    returns (go: bool, next: OrderBook, e: Execution, rem1: u64)
    requires Shaped(cur) && Indexed(cur) && Stocked(cur) && rem > 0
    ensures Nonempty(Levels(cur, side.Opposite()))
    ensures !go ==> Next(Levels(cur, side.Opposite()), side, rem, limit, taker).None?
    ensures go ==>
      && Shaped(next) && Indexed(next) && Stocked(next)
      && Fills(Levels(cur, side.Opposite()), side, rem, limit, taker, e, Levels(next, side.Opposite()), rem1)
      && Levels(next, side) == Levels(cur, side)
      && Untouched(cur, next, side) && ArenasKept(cur, next)
      && SlotsKept(cur, next, side.Opposite())
      && TotalQueued(next.queues) <= TotalQueued(cur.queues)
  {
    var resting := side.Opposite();
    assert resting.Opposite() == side;
    LevelsNonempty(cur, resting);
    ghost var L := Levels(cur, resting);
    next, e, rem1 := cur, Execution(0, 0, 0), rem;
    var best := BestLevel(cur, resting);
    if best.None? {
      return false, next, e, rem1;
    }
    var (price, qi) := best.value;
    if !Acceptable(side, price, limit) {
      assert Next(L, side, rem, limit, taker).None?;
      return false, next, e, rem1;
    }
    var q := cur.queues[qi];
    assert LevelOk(q, price, resting) && Covered(q) by {
      Sides(cur, resting);
    }
    assert L[price] == q.orders;
    if q.orders[0].owner == taker {
      assert Next(L, side, rem, limit, taker).None?;
      return false, next, e, rem1;
    }
    next, e, rem1 := FillRound(cur, side, rem, limit, taker, price, qi);
    return true, next, e, rem1;
  }

  /** A round that fills: the oldest order at the best price is within
      the limit and not the taker's. */
  method FillRound(cur: OrderBook, side: Side, rem: u64, limit: u64, taker: Pubkey, price: u64, qi: u32)
    returns (next: OrderBook, e: Execution, rem1: u64)
    requires Shaped(cur) && Indexed(cur) && Stocked(cur) && rem > 0
    requires Nonempty(Levels(cur, side.Opposite())) && Levels(cur, side.Opposite()) != map[]
    requires price == BestKey(side.Opposite(), Levels(cur, side.Opposite()).Keys) && Acceptable(side, price, limit)
    requires price in Prices(cur, side.Opposite()) && qi == Prices(cur, side.Opposite())[price]
    requires cur.queues[qi].orders != [] && cur.queues[qi].orders[0].owner != taker
    ensures Shaped(next) && Indexed(next) && Stocked(next)
    ensures Fills(Levels(cur, side.Opposite()), side, rem, limit, taker, e, Levels(next, side.Opposite()), rem1)
    ensures Levels(next, side) == Levels(cur, side)
    ensures Untouched(cur, next, side) && ArenasKept(cur, next)
    ensures SlotsKept(cur, next, side.Opposite())
    ensures TotalQueued(next.queues) <= TotalQueued(cur.queues)
  {
    ghost var L := Levels(cur, side.Opposite());
    assert L[price] == cur.queues[qi].orders;
    var maker := cur.queues[qi].orders[0];
    var f := if rem <= maker.quantity then rem else maker.quantity;
    e, rem1 := Execution(price, f, maker.orderId), rem - f;
    next := TakeRound(cur, side, price, qi, f);
  }

  /** Filling `f` of the oldest order at `price`, seen from the taker's
      `side`. */
  method TakeRound(cur: OrderBook, side: Side, price: u64, qi: u32, f: u64) returns (next: OrderBook)
    requires Shaped(cur) && Indexed(cur) && Stocked(cur)
    requires price in Prices(cur, side.Opposite()) && qi == Prices(cur, side.Opposite())[price]
    ensures Shaped(next) && Indexed(next) && Stocked(next)
    ensures Levels(cur, side.Opposite())[price] != []
    ensures Levels(next, side.Opposite()) == TakeHead(Levels(cur, side.Opposite()), price, f)
    ensures Levels(next, side) == Levels(cur, side)
    ensures Untouched(cur, next, side) && ArenasKept(cur, next)
    ensures SlotsKept(cur, next, side.Opposite())
    ensures TotalQueued(next.queues) <= TotalQueued(cur.queues)
  {
    var resting := side.Opposite();
    assert resting.Opposite() == side;
    next := TakeFill(cur, resting, price, qi, f);
  }

  /** Fills `f` of the oldest order at `price` on `resting` in place, pops
      it once filled, and drops the level from the tree once its queue is
      empty. */
  method TakeFill(cur: OrderBook, resting: Side, price: u64, qi: u32, f: u64) returns (next: OrderBook)
    requires Shaped(cur) && Indexed(cur) && Stocked(cur)
    requires price in Prices(cur, resting) && qi == Prices(cur, resting)[price]
    ensures Shaped(next) && Indexed(next) && Stocked(next)
    ensures Levels(cur, resting)[price] != []
    ensures Levels(next, resting) == TakeHead(Levels(cur, resting), price, f)
    ensures Levels(next, resting.Opposite()) == Levels(cur, resting.Opposite())
    ensures Untouched(cur, next, resting.Opposite())
    ensures next.TreeOf(resting).freeList == cur.TreeOf(resting).freeList
    ensures SlotsKept(cur, next, resting)
    ensures TotalQueued(next.queues) <= TotalQueued(cur.queues)
  {
    var q := cur.queues[qi];
    assert LevelOk(q, price, resting) && Covered(q) by {
      Sides(cur, resting);
    }
    assert Levels(cur, resting)[price] == q.orders;
    var filled := Fill(q.orders[0], f);
    if !filled.IsFilled() {
      next := FillInPlace(cur, resting, price, qi, f);
    } else if |q.orders| > 1 {
      next := PopHead(cur, resting, price, qi, f);
    } else {
      next := PopLast(cur, resting, price, qi, f);
    }
  }

  /** The three shapes `TakeHead` can take. */
  lemma TakeHeadCases(L: map<u64, seq<Order>>, p: u64, f: u64)
    requires p in L && L[p] != []
    ensures !Fill(L[p][0], f).IsFilled() ==> TakeHead(L, p, f) == L[p := [Fill(L[p][0], f)] + L[p][1..]]
    ensures Fill(L[p][0], f).IsFilled() && |L[p]| > 1 ==> TakeHead(L, p, f) == L[p := L[p][1..]]
    ensures Fill(L[p][0], f).IsFilled() && |L[p]| == 1 ==> TakeHead(L, p, f) == L - {p}
  {
  }

  /** Popping a head order that a fill has emptied leaves the rest of the
      queue and its running total as they were. */
  lemma PopFilled(q: OrderQueue, f: u64)
    requires q.orders != [] && Fill(q.orders[0], f).IsFilled()
    ensures PopIfFilled(q.(orders := [Fill(q.orders[0], f)] + q.orders[1..])).0 == q.(orders := q.orders[1..])
  {
    var q1 := q.(orders := [Fill(q.orders[0], f)] + q.orders[1..]);
    assert q1.orders[1..] == q.orders[1..];
  }

  /** A partial fill: the head order stays, with less remaining. */
  method FillInPlace(cur: OrderBook, resting: Side, price: u64, qi: u32, f: u64) returns (next: OrderBook)
    requires Shaped(cur) && Indexed(cur) && Stocked(cur)
    requires price in Prices(cur, resting) && qi == Prices(cur, resting)[price]
    requires cur.queues[qi].orders != [] && !Fill(cur.queues[qi].orders[0], f).IsFilled()
    ensures Shaped(next) && Indexed(next) && Stocked(next)
    ensures Levels(next, resting) == TakeHead(Levels(cur, resting), price, f)
    ensures Levels(next, resting.Opposite()) == Levels(cur, resting.Opposite())
    ensures Untouched(cur, next, resting.Opposite())
    ensures next.TreeOf(resting).freeList == cur.TreeOf(resting).freeList
    ensures SlotsKept(cur, next, resting)
    ensures TotalQueued(next.queues) <= TotalQueued(cur.queues)
  {
    ghost var L := Levels(cur, resting);
    var q := cur.queues[qi];
    assert LevelOk(q, price, resting) && Covered(q) by {
      Sides(cur, resting);
    }
    assert L[price] == q.orders;
    var q1 := q.(orders := [Fill(q.orders[0], f)] + q.orders[1..]);
    FillHead(q, price, resting, f);
    next := cur.(queues := cur.queues[qi := q1]);
    SameTotals(cur.queues, qi as nat, q1);
    SetQueue(cur, resting, price, q1);
    TakeHeadCases(L, price, f);
    TotalQueuedUpdate(cur.queues, qi as nat, q1);
    assert Prices(next, resting) == Prices(cur, resting);
    OneSlotKept(cur, next, resting, price, qi);
  }

  /** A filled head order leaves a level that keeps other orders. */
  method PopHead(cur: OrderBook, resting: Side, price: u64, qi: u32, f: u64) returns (next: OrderBook)
    requires Shaped(cur) && Indexed(cur) && Stocked(cur)
    requires price in Prices(cur, resting) && qi == Prices(cur, resting)[price]
    requires |cur.queues[qi].orders| > 1 && Fill(cur.queues[qi].orders[0], f).IsFilled()
    ensures Shaped(next) && Indexed(next) && Stocked(next)
    ensures Levels(next, resting) == TakeHead(Levels(cur, resting), price, f)
    ensures Levels(next, resting.Opposite()) == Levels(cur, resting.Opposite())
    ensures Untouched(cur, next, resting.Opposite())
    ensures next.TreeOf(resting).freeList == cur.TreeOf(resting).freeList
    ensures SlotsKept(cur, next, resting)
    ensures TotalQueued(next.queues) <= TotalQueued(cur.queues)
  {
    ghost var L := Levels(cur, resting);
    var q := cur.queues[qi];
    assert LevelOk(q, price, resting) && Covered(q) by {
      Sides(cur, resting);
    }
    assert L[price] == q.orders;
    var q1 := q.(orders := [Fill(q.orders[0], f)] + q.orders[1..]);
    FillHead(q, price, resting, f);
    var (q2, _) := PopIfFilled(q1);
    PopFilled(q, f);
    assert q2.orders == Without(q.orders, 0);
    next := cur.(queues := cur.queues[qi := q2]);
    SameTotals(cur.queues, qi as nat, q2);
    TakeKeep(cur, resting, price, q2);
    TakeHeadCases(L, price, f);
    assert Prices(next, resting) == Prices(cur, resting);
    OneSlotKept(cur, next, resting, price, qi);
  }

  /** The last order of a level is filled: the level leaves the tree. */
  method PopLast(cur: OrderBook, resting: Side, price: u64, qi: u32, f: u64) returns (next: OrderBook)
    requires Shaped(cur) && Indexed(cur) && Stocked(cur)
    requires price in Prices(cur, resting) && qi == Prices(cur, resting)[price]
    requires |cur.queues[qi].orders| == 1 && Fill(cur.queues[qi].orders[0], f).IsFilled()
    ensures Shaped(next) && Indexed(next) && Stocked(next)
    ensures Levels(next, resting) == TakeHead(Levels(cur, resting), price, f)
    ensures Levels(next, resting.Opposite()) == Levels(cur, resting.Opposite())
    ensures Untouched(cur, next, resting.Opposite())
    ensures next.TreeOf(resting).freeList == cur.TreeOf(resting).freeList
    ensures SlotsKept(cur, next, resting)
    ensures TotalQueued(next.queues) <= TotalQueued(cur.queues)
  {
    ghost var L := Levels(cur, resting);
    var q := cur.queues[qi];
    assert L[price] == q.orders;
    var q1 := q.(orders := [Fill(q.orders[0], f)] + q.orders[1..]);
    var (q2, _) := PopIfFilled(q1);
    PopFilled(q, f);
    assert q2 == q.(orders := []);
    assert Covered(q2);
    SameTotals(cur.queues, qi as nat, q2);
    next := DropLevel(cur, resting, price, qi, q2);
    TakeHeadCases(L, price, f);
    OneSlotKept(cur, next, resting, price, qi);
  }

  lemma {:induction false} TotalQueuedAppend(a: seq<OrderQueue>, b: seq<OrderQueue>)
    ensures TotalQueued(a + b) == TotalQueued(a) + TotalQueued(b)
  {
    if a == [] {
      assert a + b == b;
    } else {
      assert (a + b)[1..] == a[1..] + b;
      TotalQueuedAppend(a[1..], b);
    }
  }

  /** The recount at the end of `match_order`: the number of orders over
      all queues, which fits 64 bits when it is at most a count that did. */
  method CountOrders(queues: seq<OrderQueue>) returns (n: u64)
    requires TotalQueued(queues) <= U64_MAX
    ensures n as int == TotalQueued(queues)
  {
    n := 0;
    var i := 0;
    while i < |queues|
      invariant 0 <= i <= |queues|
      invariant n as int == TotalQueued(queues[..i])
    {
      assert queues[..i + 1] == queues[..i] + [queues[i]];
      TotalQueuedAppend(queues[..i], [queues[i]]);
      assert queues == queues[..i + 1] + queues[i + 1..];
      TotalQueuedAppend(queues[..i + 1], queues[i + 1..]);
      assert [queues[i]][1..] == [];
      n := n + |queues[i].orders| as u64;
      i := i + 1;
    }
    assert queues[..i] == queues;
  }

  /** `match_order`: fills the incoming order of `side` (up to
      `maxQuantity`, at prices within `limitPrice`, never against the
      taker's own order) from the resting side, then recounts the orders
      and refreshes the cached prices. The fills and the resting levels
      left are exactly those of `Matched`; the taker's side is unchanged,
      only the queues of resting levels are written, and a match with no
      fills gives back the book it was given. */
  method MatchOrder(b: OrderBook, side: Side, maxQuantity: u64, limitPrice: u64, taker: Pubkey)
    returns (b1: OrderBook, fills: seq<Execution>)
    requires Inv(b)
    ensures Inv(b1)
    ensures Nonempty(Levels(b, side.Opposite()))
    ensures var M := Matched(Levels(b, side.Opposite()), side, maxQuantity, limitPrice, taker);
      fills == M.0 && Levels(b1, side.Opposite()) == M.1
    ensures Levels(b1, side) == Levels(b, side)
    ensures Total(fills) <= maxQuantity as int
    ensures forall e :: e in fills ==> Acceptable(side, e.price, limitPrice)
    ensures b1.market == b.market && b1.baseMint == b.baseMint && b1.quoteMint == b.quoteMint
    ensures b1.nextQueueIndex == b.nextQueueIndex && |b1.queues| == |b.queues|
    ensures b1.TreeOf(side) == b.TreeOf(side)
    ensures b1.bids.freeList == b.bids.freeList && b1.asks.freeList == b.asks.freeList
    ensures forall i :: 0 <= i < |b.queues| ==> b1.queues[i].totalQuantity == b.queues[i].totalQuantity
    ensures forall i :: 0 <= i < |b.queues| && Unnamed(Prices(b, side.Opposite()), i) ==> b1.queues[i] == b.queues[i]
    ensures b1.totalOrders <= b.totalOrders
    ensures fills == [] ==> b1 == b
  {
    var cur;
    cur, fills := MatchLoop(b, side, maxQuantity, limitPrice, taker);
    MatchedConserves(Levels(b, side.Opposite()), side, maxQuantity, limitPrice, taker);
    MatchedWithinLimit(Levels(b, side.Opposite()), side, maxQuantity, limitPrice, taker);
    b1 := Recount(cur, side);
    if fills == [] {
      BestUnchanged(b, b1);
    }
  }

  /** An incoming order for nothing leaves the book exactly as it was,
      order count included. */
  method MatchNothing(b: OrderBook, side: Side, limitPrice: u64, taker: Pubkey) returns (b1: OrderBook, fills: seq<Execution>)
    requires Inv(b)
    ensures fills == [] && b1 == b && b1.totalOrders == b.totalOrders
  {
    b1, fills := MatchOrder(b, side, 0, limitPrice, taker);
  }

  /** Refreshing the cached prices of a book whose trees did not change
      gives back the prices it had. */
  lemma BestUnchanged(b: OrderBook, b1: OrderBook)
    requires Inv(b) && Inv(b1) && b1.bids == b.bids && b1.asks == b.asks
    ensures b1.bestBid == b.bestBid && b1.bestAsk == b.bestAsk
  {
    if Contents(b.bids) != map[] {
      BestUnique(Bid, Contents(b.bids).Keys, b.bestBid, b1.bestBid);
    }
    if Contents(b.asks) != map[] {
      BestUnique(Ask, Contents(b.asks).Keys, b.bestAsk, b1.bestAsk);
    }
  }

  /** Matching a bid of 5 up to 100 against a new book fills nothing and
      moves neither tree's arena pointer, so an ask of 5 at 100 can still
      rest. */
  method MatchScenario(market: Pubkey, baseMint: Pubkey, quoteMint: Pubkey, taker: Pubkey, o: Order)
    returns (b1: OrderBook, fills: seq<Execution>, r: Result<OrderBook, MarketError>)
    requires o.side == Ask && o.price == 100 && o.quantity == 5
    ensures fills == [] && b1.bids.freeList == 0 && b1.asks.freeList == 0
    ensures r.Success? && Inv(r.value) && Levels(r.value, Ask) == map[100 := [o]]
  {
    var b := New(market, baseMint, quoteMint);
    b1, fills := MatchOrder(b, Bid, 5, 100, taker);
    assert Levels(b1, Ask) == map[] by {
      assert Next(map[], Bid, 5, 100, taker).None?;
    }
    assert b1.totalOrders == 0 by {
      assert SlabOk(b1.queues, 0);
      TotalQueuedEmpty(b1.queues);
    }
    assert Prices(b1, Ask) == map[] by {
      assert Prices(b1, Ask).Keys == Levels(b1, Ask).Keys;
    }
    r := InsertOrder(b1, o);
  }

  /** Transitivity of what matching leaves alone. */
  lemma UntouchedTrans(a: OrderBook, b: OrderBook, c: OrderBook, side: Side)
    requires Untouched(a, b, side) && Untouched(b, c, side)
    ensures Untouched(a, c, side)
  {
  }

  /** The loop of `match_order`, one round per call: rounds of `MatchStep`
      while the incoming order has quantity left and the step goes on. */
  method MatchLoop(cur: OrderBook, side: Side, rem: u64, limitPrice: u64, taker: Pubkey)
    returns (end: OrderBook, fills: seq<Execution>)
    requires Shaped(cur) && Indexed(cur) && Stocked(cur)
    ensures Nonempty(Levels(cur, side.Opposite()))
    ensures Shaped(end) && Indexed(end) && Stocked(end)
    ensures var M := Matched(Levels(cur, side.Opposite()), side, rem, limitPrice, taker);
      fills == M.0 && Levels(end, side.Opposite()) == M.1
    ensures Levels(end, side) == Levels(cur, side)
    ensures Untouched(cur, end, side) && ArenasKept(cur, end)
    ensures SlotsKept(cur, end, side.Opposite())
    ensures TotalQueued(end.queues) <= TotalQueued(cur.queues)
    ensures fills == [] ==> end == cur
    decreases rem, |Levels(cur, side.Opposite()).Keys|, HeadCount(Levels(cur, side.Opposite()), side.Opposite())
  {
    LevelsNonempty(cur, side.Opposite());
    if rem == 0 {
      return cur, [];
    }
    var go, next, e, rem1 := MatchStep(cur, side, rem, limitPrice, taker);
    if !go {
      return cur, [];
    }
    NextFills(Levels(cur, side.Opposite()), side, rem, limitPrice, taker, e, Levels(next, side.Opposite()), rem1);
    var rest;
    end, rest := MatchLoop(next, side, rem1, limitPrice, taker);
    UntouchedTrans(cur, next, end, side);
    SlotsKeptTrans(cur, next, end, side.Opposite());
    fills := [e] + rest;
  }

  /** The end of `match_order`: the order count is recounted from the
      queues and the cached prices are refreshed from the trees. */
  method Recount(cur: OrderBook, side: Side) returns (b1: OrderBook)
    requires Shaped(cur) && Indexed(cur) && Stocked(cur) && TotalQueued(cur.queues) <= U64_MAX
    ensures Inv(b1)
    ensures b1.totalOrders as int == TotalQueued(cur.queues)
    ensures Levels(b1, side) == Levels(cur, side) && Levels(b1, side.Opposite()) == Levels(cur, side.Opposite())
    ensures b1 == cur.(totalOrders := b1.totalOrders, bestBid := b1.bestBid, bestAsk := b1.bestAsk)
  {
    var count := CountOrders(cur.queues);
    var counted := cur.(totalOrders := count);
    b1 := UpdateBestPrices(counted);
    Restamp(cur, b1);
  }
}

=== FILE: order.dfy ===
/** Orders of the matching engine (order.rs): sides, the order record, its
    fill arithmetic and the packing of 128-bit order ids. */
module Orders {
  import opened Base
  import opened Bits

  datatype OrderType = Limit | Market | PostOnly | ImmediateOrCancel | FillOrKill

  datatype Side = Bid | Ask
  {
    /** `Side::opposite` */
    function Opposite(): (o: Side)
      ensures o != this
    {
      match this
      case Bid => Ask
      case Ask => Bid
    }
  }

  datatype PaymentStatus = Pending | PaymentMarked | SettlementDelay | Verified | Disputed

  /** The fixed 32-byte `payment_method` field. */
  type PaymentMethod = s: seq<u8> | |s| == 32 witness Zeros(32)

  datatype Order = Order(
    orderId: u128,
    owner: Pubkey,
    quantity: u64,
    originalQuantity: u64,
    price: u64,
    timestamp: i64,
    orderType: OrderType,
    side: Side,
    clientOrderId: u64,
    paymentMethod: PaymentMethod,
    paymentStatus: PaymentStatus,
    paymentMarkedTimestamp: i64,
    settlementTimestamp: i64)
  {
    /** `is_filled` */
    predicate IsFilled()
    {
      quantity == 0
    }
  }

  /** The invariant every order keeps: what remains never exceeds what was
      placed. */
  ghost predicate Consistent(o: Order)
  {
    o.quantity <= o.originalQuantity
  }

  /** `Order::new`. The payment method string is given as its bytes; the
      first 32 are kept and the rest of the field is zero. */
  function NewOrder(orderId: u128, owner: Pubkey, quantity: u64, price: u64, timestamp: i64,
                    orderType: OrderType, side: Side, clientOrderId: u64, paymentMethod: seq<u8>): (o: Order)
    ensures Consistent(o)
    ensures o.originalQuantity == quantity && o.quantity == quantity
    ensures o.paymentStatus == Pending && o.paymentMarkedTimestamp == 0 && o.settlementTimestamp == 0
    ensures forall i :: 0 <= i < 32 ==>
      o.paymentMethod[i] == if i < |paymentMethod| then paymentMethod[i] else 0
    ensures o.orderId == orderId && o.owner == owner && o.price == price && o.timestamp == timestamp
    ensures o.orderType == orderType && o.side == side && o.clientOrderId == clientOrderId
  {
    var len := if |paymentMethod| < 32 then |paymentMethod| else 32;
    var bytes: PaymentMethod := paymentMethod[..len] + Zeros(32 - len);
    Order(orderId, owner, quantity, quantity, price, timestamp, orderType, side, clientOrderId,
          bytes, Pending, 0, 0)
  }

  /** `fill`: takes `q` off the remaining quantity, stopping at zero. */
  function Fill(o: Order, q: u64): (o2: Order)
    ensures o2 == o.(quantity := o2.quantity)
    ensures o2.quantity <= o.quantity
    ensures o2.IsFilled() <==> q >= o.quantity
    ensures !o2.IsFilled() ==> o2.quantity + q == o.quantity
    ensures Consistent(o) ==> Consistent(o2)
  {
    o.(quantity := if o.quantity >= q then o.quantity - q else 0)
  }

  /** `fill_percentage` as written: `(original - remaining) * 100` is
      computed in 64 bits, so it overflows (and aborts) once the filled
      amount exceeds `u64::MAX / 100`; the subtraction itself aborts when
      more remains than was placed. */
  function FillPercentageAsWritten(o: Order): (r: Result<u64, MarketError>)
    ensures r.Failure? <==>
      o.originalQuantity != 0 && (o.quantity > o.originalQuantity || (o.originalQuantity - o.quantity) * 100 > U64_MAX)
    ensures r.Success? ==> r.value <= 100
  {
    if o.originalQuantity == 0 then Success(0)
    else if o.quantity > o.originalQuantity then Failure(Overflow)
    else
      var filled := o.originalQuantity - o.quantity;
      if filled * 100 > U64_MAX then Failure(Overflow)
      else
        Percent(filled, o.originalQuantity);
        Success(filled * 100 / o.originalQuantity)
  }

  /** A filled amount above `u64::MAX / 100` makes `fill_percentage`
      abort, although the percentage of any consistent order is defined. */
  lemma FillPercentageOverflows()
    ensures var o := NewOrder(0, Zeros(32), 0x8000_0000_0000_0000, 1, 0, Limit, Bid, 0, []);
      && FillPercentageAsWritten(Fill(o, o.quantity)) == Failure(Overflow)
      && FillPercentage(Fill(o, o.quantity)) == 100
  {
  }

  /** `fill_percentage` as evidently intended: the share of the original
      quantity that has been filled, in whole percent rounded down. The
      product is formed in wider arithmetic, so every consistent order has
      a percentage. */
  function FillPercentage(o: Order): (r: u64)
    requires Consistent(o)
    ensures r <= 100
    ensures o.originalQuantity == 0 ==> r == 0
    ensures o.originalQuantity > 0 ==>
      r * o.originalQuantity <= (o.originalQuantity - o.quantity) * 100 < (r + 1) * o.originalQuantity
    ensures o.originalQuantity > 0 && o.IsFilled() ==> r == 100
    ensures o.quantity == o.originalQuantity ==> r == 0
  {
    if o.originalQuantity == 0 then 0
    else
      var filled := o.originalQuantity - o.quantity;
      Percent(filled, o.originalQuantity);
      filled * 100 / o.originalQuantity
  }

  /** The whole percentage `filled` is of `total`, rounded down, lies
      between 0 and 100 and is exact at both ends. */
  lemma Percent(filled: nat, total: nat)
    requires 0 < total && filled <= total
    ensures var r := filled * 100 / total;
      && 0 <= r <= 100
      && r * total <= filled * 100 < (r + 1) * total
      && (filled == total ==> r == 100)
      && (filled == 0 ==> r == 0)
  {
    DivideBelow(filled * 100, total, 100);
  }

  /** Floor division brackets its numerator, and a numerator of at most
      `k` times the divisor has a quotient of at most `k`. */
  lemma DivideBelow(x: nat, d: nat, k: nat)
    requires d > 0
    ensures (x / d) * d <= x < (x / d + 1) * d
    ensures x <= k * d ==> x / d <= k
    ensures x == k * d ==> x / d == k
  {
    var q, m := x / d, x % d;
    assert x == q * d + m;
  }

  /** Where both are defined, the corrected percentage is the one the
      source computes. */
  lemma FillPercentageAgrees(o: Order)
    requires Consistent(o) && FillPercentageAsWritten(o).Success?
    ensures FillPercentageAsWritten(o).value == FillPercentage(o)
  {
  }

  // ---------------------------------------------------------------------
  // Order ids

  /** `x as u64` for an `i64`: the two's-complement bit pattern. */
  function I64AsU64(x: i64): (r: u64)
    ensures x >= 0 ==> r == x
    ensures x < 0 ==> r == x + U64_LIMIT
  {
    x % U64_LIMIT
  }

  /** `u64::from_le_bytes` (and its generalisation to any length). */
  function LittleEndian(bytes: seq<u8>): (n: nat)
    ensures n < Pow2(8 * |bytes|)
  {
    if bytes == [] then 0
    else
      Pow2Add(8, 8 * (|bytes| - 1));
      assert Pow2(8) == 256;
      bytes[0] + 256 * LittleEndian(bytes[1..])
  }

  /** Different byte strings of one length have different values. */
  lemma {:induction false} LittleEndianInjective(a: seq<u8>, b: seq<u8>)
    requires |a| == |b| && LittleEndian(a) == LittleEndian(b)
    ensures a == b
  {
    if a != [] {
      assert a[0] == LittleEndian(a) % 256 == LittleEndian(b) % 256 == b[0];
      LittleEndianInjective(a[1..], b[1..]);
      assert a == [a[0]] + a[1..];
      assert b == [b[0]] + b[1..];
    }
  }

  /** `generate_order_id`: the low 32 bits of the timestamp in bits
      96..127, the low 32 bits of the sequence number in bits 64..95, and
      the first eight owner bytes, read little-endian, in bits 0..63. The
      shifted fields occupy disjoint bits, so the source's `|` adds. */
  function GenerateOrderId(owner: Pubkey, sequence: u64, timestamp: i64): (id: u128)
    ensures id / U64_LIMIT / U32_LIMIT == timestamp % U32_LIMIT
    ensures (id / U64_LIMIT) % U32_LIMIT == sequence % U32_LIMIT
    ensures id % U64_LIMIT == LittleEndian(owner[..8])
  {
    var stamp := I64AsU64(timestamp) % U32_LIMIT;
    assert stamp == timestamp % U32_LIMIT by { Wrap32(timestamp); }
    Pack(stamp, sequence % U32_LIMIT, U32_LIMIT);
    var high := stamp * U32_LIMIT + sequence % U32_LIMIT;
    Pow2Of64();
    var low := LittleEndian(owner[..8]);
    Pack(high, low, U64_LIMIT);
    high * U64_LIMIT + low
  }

  /** Placing `lo` below `hi` in base `base` keeps both recoverable. */
  lemma Pack(hi: nat, lo: nat, base: nat)
    requires lo < base
    ensures (hi * base + lo) / base == hi
    ensures (hi * base + lo) % base == lo
  {
    var x := hi * base + lo;
    var q, m := x / base, x % base;
    assert (hi - q) * base == m - lo;
    if hi > q {
      AtLeastOnce(hi - q, base);
    } else if hi < q {
      AtLeastOnce(q - hi, base);
    }
  }

  /** A positive multiple of `d` is at least `d`. */
  lemma {:induction false} AtLeastOnce(k: nat, d: nat)
    requires k >= 1
    ensures k * d >= d
  {
    if k > 1 {
      AtLeastOnce(k - 1, d);
      assert k * d == (k - 1) * d + d;
    }
  }

  /** The low 32 bits of an `i64` are those of its 64-bit pattern. */
  lemma Wrap32(x: i64)
    ensures I64AsU64(x) % U32_LIMIT == x % U32_LIMIT
  {
    if x < 0 {
      assert I64AsU64(x) == x + U32_LIMIT * U32_LIMIT;
    }
  }

  /** Ids differ when the sequence numbers differ in their low 32 bits, or
      the owners differ in their first eight bytes. */
  lemma OrderIdsDiffer(owner1: Pubkey, owner2: Pubkey, seq1: u64, seq2: u64, t1: i64, t2: i64)
    requires seq1 % U32_LIMIT != seq2 % U32_LIMIT || owner1[..8] != owner2[..8]
    ensures GenerateOrderId(owner1, seq1, t1) != GenerateOrderId(owner2, seq2, t2)
  {
    if owner1[..8] != owner2[..8] && GenerateOrderId(owner1, seq1, t1) == GenerateOrderId(owner2, seq2, t2) {
      LittleEndianInjective(owner1[..8], owner2[..8]);
    }
  }
}

=== FILE: order_book.dfy ===
/** The order book (order_book.rs): a bid tree and an ask tree of price
    levels over one slab of 50 order queues, with cached best prices.

    `Inv` is the book's invariant. Each tree has a 50-node arena; every
    price level of either tree names its own queue slot below the slab's
    bump pointer `nextQueueIndex` (no slot serves two levels); the queue of
    a level is non-empty and holds orders of that price and side; every
    queue's running total covers its orders; the slots at or above the bump
    pointer are untouched; `totalOrders` counts every queued order; and the
    cached prices are the highest bid (0 when there is none) and the lowest
    ask (`u64::MAX` when there is none). `Levels` is the abstract view of
    one side: price to the orders queued at that price, oldest first. */
module OrderBooks {
  import opened Base
  import opened CritBitArena
  import CritBit
  import opened Orders
  import opened OrderQueues

  /** `OrderBook::MAX_PRICE_LEVELS` */
  const MAX_PRICE_LEVELS: nat := 50

  datatype OrderBook = OrderBook(
    market: Pubkey,
    baseMint: Pubkey,
    quoteMint: Pubkey,
    bids: Tree,
    asks: Tree,
    queues: seq<OrderQueue>,
    nextQueueIndex: u32,
    totalOrders: u64,
    bestBid: u64,
    bestAsk: u64)
  {
    /** The tree of one side. */
    function TreeOf(side: Side): Tree
    {
      if side == Bid then bids else asks
    }

    /** The book with the tree of `side` replaced. */
    function WithTree(side: Side, t: Tree): (b: OrderBook)
      ensures b.TreeOf(side) == t && b.TreeOf(side.Opposite()) == TreeOf(side.Opposite())
      ensures b.(bids := bids, asks := asks) == this
    {
      if side == Bid then this.(bids := t) else this.(asks := t)
    }
  }

  /** The number of orders in all queues. */
  ghost function TotalQueued(queues: seq<OrderQueue>): nat
  {
    if queues == [] then 0 else |queues[0].orders| + TotalQueued(queues[1..])
  }

  lemma {:induction false} TotalQueuedUpdate(queues: seq<OrderQueue>, i: nat, q: OrderQueue)
    requires i < |queues|
    ensures TotalQueued(queues[i := q]) + |queues[i].orders| == TotalQueued(queues) + |q.orders|
  {
    if i > 0 {
      assert queues[i := q][1..] == queues[1..][i - 1 := q];
      TotalQueuedUpdate(queues[1..], i - 1, q);
    }
  }

  /** The best price among `keys` for resting orders of `side`: the
      highest for bids, the lowest for asks. */
  ghost predicate IsBest(side: Side, keys: set<u64>, p: u64)
  {
    p in keys && forall k :: k in keys ==> if side == Bid then k <= p else p <= k
  }

  ghost function BestKey(side: Side, keys: set<u64>): (p: u64)
    requires keys != {}
    ensures IsBest(side, keys, p)
  {
    var k :| k in keys;
    assert forall x :: x in keys ==> x == k || x in keys - {k};
    if keys == {k} then k
    else
      var p := BestKey(side, keys - {k});
      if (side == Bid && k > p) || (side == Ask && k < p) then k else p
  }

  lemma BestUnique(side: Side, keys: set<u64>, p: u64, p': u64)
    requires IsBest(side, keys, p) && IsBest(side, keys, p')
    ensures p == p'
  {
  }

  ghost predicate Shaped(b: OrderBook)
  {
    && |b.queues| == MAX_PRICE_LEVELS
    && b.nextQueueIndex as int <= MAX_PRICE_LEVELS
    && Valid(b.bids) && Valid(b.asks)
    && |b.bids.nodes| == MAX_PRICE_LEVELS && |b.asks.nodes| == MAX_PRICE_LEVELS
  }

  /** The price levels of one side: price to queue slot. */
  ghost function Prices(b: OrderBook, side: Side): map<u64, u32>
    requires Shaped(b)
  {
    Contents(b.TreeOf(side))
  }

  /** Every level names an allocated slot, and no slot serves two levels. */
  ghost predicate Indexed(b: OrderBook)
    requires Shaped(b)
  {
    var bids, asks := Prices(b, Bid), Prices(b, Ask);
    && Below(bids, b.nextQueueIndex as int) && Below(asks, b.nextQueueIndex as int)
    && Injective(bids) && Injective(asks) && Apart(bids, asks)
  }

  /** Each level's queue is non-empty and of the level's price and side;
      the slab is in order. */
  ghost predicate Stocked(b: OrderBook)
    requires Shaped(b) && Indexed(b)
  {
    && Filed(Prices(b, Bid), b.queues, Bid)
    && Filed(Prices(b, Ask), b.queues, Ask)
    && SlabOk(b.queues, b.nextQueueIndex as int)
  }

  /** The cached prices are the best of each side, or the sentinels. */
  ghost predicate BestPricesCorrect(b: OrderBook)
    requires Valid(b.bids) && Valid(b.asks)
  {
    && (Contents(b.bids) == map[] ==> b.bestBid == 0)
    && (Contents(b.bids) != map[] ==> IsBest(Bid, Contents(b.bids).Keys, b.bestBid))
    && (Contents(b.asks) == map[] ==> b.bestAsk == U64_MAX)
    && (Contents(b.asks) != map[] ==> IsBest(Ask, Contents(b.asks).Keys, b.bestAsk))
  }

  /** The invariant apart from the cached best prices. */
  ghost predicate Core(b: OrderBook)
  {
    && Shaped(b)
    && Indexed(b)
    && Stocked(b)
    && b.totalOrders as int == TotalQueued(b.queues)
  }

  ghost predicate Inv(b: OrderBook)
  {
    Core(b) && BestPricesCorrect(b)
  }

  /** The abstract view of one side: price to the orders queued there,
      oldest first. */
  ghost function Levels(b: OrderBook, side: Side): map<u64, seq<Order>>
    requires Shaped(b) && Indexed(b)
  {
    LevelsOf(Prices(b, side), b.queues)
  }

  // ---------------------------------------------------------------------
  // Price levels over the queue slab, apart from the trees

  ghost predicate Below(m: map<u64, u32>, n: int)
  {
    forall k :: k in m ==> m[k] as int < n
  }

  ghost predicate Injective(m: map<u64, u32>)
  {
    forall k1, k2 :: k1 in m && k2 in m && k1 != k2 ==> m[k1] != m[k2]
  }

  ghost predicate Apart(m1: map<u64, u32>, m2: map<u64, u32>)
  {
    forall k1, k2 :: k1 in m1 && k2 in m2 ==> m1[k1] != m2[k2]
  }

  /** A level's queue: non-empty, of its price and side. */
  ghost predicate LevelOk(q: OrderQueue, price: u64, side: Side)
  {
    q.orders != [] && forall o :: o in q.orders ==> o.price == price && o.side == side
  }

  ghost predicate Filed(m: map<u64, u32>, queues: seq<OrderQueue>, side: Side)
  {
    forall k :: k in m ==> m[k] as int < |queues| && LevelOk(queues[m[k]], k, side)
  }

  /** Every running total covers its queue, and the slots from the bump
      pointer on are fresh. */
  ghost predicate SlabOk(queues: seq<OrderQueue>, next: int)
  {
    && (forall i :: 0 <= i < |queues| ==> Covered(queues[i]))
    && (forall i :: 0 <= i && next <= i < |queues| ==> queues[i] == EmptyQueue())
  }

  ghost function LevelsOf(m: map<u64, u32>, queues: seq<OrderQueue>): map<u64, seq<Order>>
  {
    map k | k in m :: if m[k] as int < |queues| then queues[m[k]].orders else []
  }

  /** Replacing a slot no level of `m` names changes nothing for `m`. */
  lemma FrameSlot(m: map<u64, u32>, queues: seq<OrderQueue>, side: Side, i: nat, q: OrderQueue)
    requires i < |queues| && Filed(m, queues, side)
    requires forall k :: k in m ==> m[k] as int != i
    ensures Filed(m, queues[i := q], side)
    ensures LevelsOf(m, queues[i := q]) == LevelsOf(m, queues)
  {
    var qs := queues[i := q];
    forall k | k in m
      ensures m[k] as int < |qs| && LevelOk(qs[m[k]], k, side)
      ensures qs[m[k]].orders == queues[m[k]].orders
    {
      assert m[k] as int != i;
    }
  }

  /** Storing the queue of level `price` at its slot `m[price]`. */
  lemma SetSlot(m: map<u64, u32>, queues: seq<OrderQueue>, side: Side, price: u64, q: OrderQueue)
    requires Filed(m, queues, side) && Injective(m) && price in m
    requires LevelOk(q, price, side)
    ensures Filed(m, queues[m[price] := q], side)
    ensures LevelsOf(m, queues[m[price] := q]) == LevelsOf(m, queues)[price := q.orders]
  {
    var i := m[price];
    var qs := queues[i := q];
    var m' := m - {price};
    forall k | k in m'
      ensures m'[k] as int != i as int
    {
      assert k != price;
    }
    assert Filed(m', queues, side);
    FrameSlot(m', queues, side, i as nat, q);
    forall k | k in m
      ensures m[k] as int < |qs| && LevelOk(qs[m[k]], k, side)
    {
      if k != price {
        assert k in m';
      }
    }
    var L, L1 := LevelsOf(m, queues), LevelsOf(m, qs);
    forall k | k in L1
      ensures L1[k] == L[price := q.orders][k]
    {
      if k != price {
        assert k in m';
        assert LevelsOf(m', qs)[k] == LevelsOf(m', queues)[k];
      }
    }
    assert L1.Keys == L[price := q.orders].Keys;
  }

  /** Storing a queue at slot `i` of the slab keeps the slab in order
      when the queue is covered and `i` lies below the bump pointer. */
  lemma SlabSet(queues: seq<OrderQueue>, next: int, i: nat, q: OrderQueue)
    requires SlabOk(queues, next) && i < |queues| && i < next && Covered(q)
    ensures SlabOk(queues[i := q], next)
  {
  }

  /** The queue of one level is replaced. */
  lemma SlotUpdate(P: map<u64, u32>, O: map<u64, u32>, queues: seq<OrderQueue>, next: int, side: Side, price: u64, q: OrderQueue)
    requires next <= |queues| && Below(P, next) && Below(O, next) && Injective(P) && Apart(P, O)
    requires Filed(P, queues, side) && Filed(O, queues, side.Opposite()) && SlabOk(queues, next)
    requires price in P && LevelOk(q, price, side) && Covered(q)
    ensures var qs := queues[P[price] := q];
      && Filed(P, qs, side) && Filed(O, qs, side.Opposite()) && SlabOk(qs, next)
      && LevelsOf(P, qs) == LevelsOf(P, queues)[price := q.orders]
      && LevelsOf(O, qs) == LevelsOf(O, queues)
  {
    var i := P[price];
    SetSlot(P, queues, side, price, q);
    FrameSlot(O, queues, side.Opposite(), i as nat, q);
    SlabSet(queues, next, i as nat, q);
  }

  /** A new level takes the slot at the bump pointer. */
  lemma SlotAdd(P: map<u64, u32>, O: map<u64, u32>, queues: seq<OrderQueue>, next: u32, side: Side, price: u64, q: OrderQueue)
    requires next as int < |queues| && Below(P, next as int) && Below(O, next as int) && Injective(P) && Apart(P, O)
    requires Filed(P, queues, side) && Filed(O, queues, side.Opposite()) && SlabOk(queues, next as int)
    requires price !in P && LevelOk(q, price, side) && Covered(q)
    ensures var qs, P1 := queues[next := q], P[price := next];
      && Below(P1, next as int + 1) && Below(O, next as int + 1) && Injective(P1) && Apart(P1, O)
      && Filed(P1, qs, side) && Filed(O, qs, side.Opposite()) && SlabOk(qs, next as int + 1)
      && LevelsOf(P1, qs) == LevelsOf(P, queues)[price := q.orders]
      && LevelsOf(O, qs) == LevelsOf(O, queues)
  {
    IndexAdd(P, O, next, price);
    FiledAdd(P, queues, next, side, price, q);
    FrameSlot(O, queues, side.Opposite(), next as nat, q);
  }

  lemma IndexAdd(P: map<u64, u32>, O: map<u64, u32>, next: u32, price: u64)
    requires Below(P, next as int) && Below(O, next as int) && Injective(P) && Apart(P, O)
    requires price !in P
    ensures var P1 := P[price := next];
      Below(P1, next as int + 1) && Below(O, next as int + 1) && Injective(P1) && Apart(P1, O)
  {
  }

  lemma FiledAdd(P: map<u64, u32>, queues: seq<OrderQueue>, next: u32, side: Side, price: u64, q: OrderQueue)
    requires next as int < |queues| && Below(P, next as int) && Filed(P, queues, side)
    requires price !in P && LevelOk(q, price, side)
    ensures var qs, P1 := queues[next := q], P[price := next];
      && Filed(P1, qs, side)
      && LevelsOf(P1, qs) == LevelsOf(P, queues)[price := q.orders]
  {
    var qs, P1 := queues[next := q], P[price := next];
    FrameSlot(P, queues, side, next as nat, q);
    forall k | k in P1
      ensures P1[k] as int < |qs| && LevelOk(qs[P1[k]], k, side)
    {
      if k != price {
        assert k in P;
      }
    }
    var L, L1 := LevelsOf(P, queues), LevelsOf(P1, qs);
    forall k | k in L1
      ensures L1[k] == L[price := q.orders][k]
    {
      if k != price {
        assert k in P;
        assert LevelsOf(P, qs)[k] == L[k];
      }
    }
    assert L1.Keys == L[price := q.orders].Keys;
  }

  /** A level whose queue became empty is dropped. */
  lemma SlotDrop(P: map<u64, u32>, O: map<u64, u32>, queues: seq<OrderQueue>, next: int, side: Side, price: u64, q: OrderQueue)
    requires next <= |queues| && Below(P, next) && Below(O, next) && Injective(P) && Apart(P, O)
    requires Filed(P, queues, side) && Filed(O, queues, side.Opposite()) && SlabOk(queues, next)
    requires price in P && q.orders == [] && Covered(q)
    ensures var qs, P1 := queues[P[price] := q], P - {price};
      && Below(P1, next) && Injective(P1) && Apart(P1, O)
      && Filed(P1, qs, side) && Filed(O, qs, side.Opposite()) && SlabOk(qs, next)
      && LevelsOf(P1, qs) == LevelsOf(P, queues) - {price}
      && LevelsOf(O, qs) == LevelsOf(O, queues)
  {
    var i := P[price];
    assert i as int < next;
    FiledDrop(P, queues, side, price, q);
    FrameSlot(O, queues, side.Opposite(), i as nat, q);
    SlabSet(queues, next, i as nat, q);
  }

  lemma FiledDrop(P: map<u64, u32>, queues: seq<OrderQueue>, side: Side, price: u64, q: OrderQueue)
    requires Filed(P, queues, side) && Injective(P) && price in P
    ensures var qs, P1 := queues[P[price] := q], P - {price};
      && Filed(P1, qs, side)
      && LevelsOf(P1, qs) == LevelsOf(P, queues) - {price}
  {
    var i := P[price];
    var P1 := P - {price};
    forall k | k in P1
      ensures P1[k] as int != i as int
    {
      assert k != price;
    }
    FrameSlot(P1, queues, side, i as nat, q);
    var L, L1 := LevelsOf(P, queues), LevelsOf(P1, queues);
    assert L1.Keys == (L - {price}).Keys;
  }

  // ---------------------------------------------------------------------
  // From one side's point of view

  /** The invariant read from `side`: its own levels `P`, the other
      side's `O`. */
  ghost predicate SideView(P: map<u64, u32>, O: map<u64, u32>, queues: seq<OrderQueue>, next: int, side: Side)
  {
    && next <= |queues|
    && Below(P, next) && Below(O, next) && Injective(P) && Injective(O) && Apart(P, O)
    && Filed(P, queues, side) && Filed(O, queues, side.Opposite()) && SlabOk(queues, next)
  }

  lemma Sides(b: OrderBook, side: Side)
    requires Shaped(b) && Indexed(b) && Stocked(b)
    ensures SideView(Prices(b, side), Prices(b, side.Opposite()), b.queues, b.nextQueueIndex as int, side)
  {
    var bids, asks := Prices(b, Bid), Prices(b, Ask);
    assert Apart(asks, bids) by {
      forall k1, k2 | k1 in asks && k2 in bids
        ensures asks[k1] != bids[k2]
      {
        assert bids[k2] != asks[k1];
      }
    }
  }

  lemma FromSides(b: OrderBook, side: Side)
    requires Shaped(b)
    requires SideView(Prices(b, side), Prices(b, side.Opposite()), b.queues, b.nextQueueIndex as int, side)
    ensures Indexed(b) && Stocked(b)
  {
    var bids, asks := Prices(b, Bid), Prices(b, Ask);
    assert Apart(bids, asks) by {
      forall k1, k2 | k1 in bids && k2 in asks
        ensures bids[k1] != asks[k2]
      {
        if side == Ask {
          assert asks[k2] != bids[k1];
        }
      }
    }
  }

  /** A book whose trees hold `P` (for `side`) and `O`, and whose slab
      satisfies the side view of them, satisfies the level structure, with
      the levels read off `P` and `O`. */
  lemma Rebuild(b: OrderBook, side: Side, P: map<u64, u32>, O: map<u64, u32>)
    requires |b.queues| == MAX_PRICE_LEVELS && b.nextQueueIndex as int <= MAX_PRICE_LEVELS
    requires Valid(b.TreeOf(side)) && |b.TreeOf(side).nodes| == MAX_PRICE_LEVELS
    requires Valid(b.TreeOf(side.Opposite())) && |b.TreeOf(side.Opposite()).nodes| == MAX_PRICE_LEVELS
    requires Contents(b.TreeOf(side)) == P && Contents(b.TreeOf(side.Opposite())) == O
    requires SideView(P, O, b.queues, b.nextQueueIndex as int, side)
    ensures Shaped(b) && Indexed(b) && Stocked(b)
    ensures Levels(b, side) == LevelsOf(P, b.queues) && Levels(b, side.Opposite()) == LevelsOf(O, b.queues)
  {
    assert Shaped(b);
    assert Prices(b, side) == P && Prices(b, side.Opposite()) == O;
    FromSides(b, side);
  }

  /** A slab of empty queues holds no orders. */
  lemma {:induction false} TotalQueuedEmpty(queues: seq<OrderQueue>)
    requires forall i :: 0 <= i < |queues| ==> queues[i].orders == []
    ensures TotalQueued(queues) == 0
  {
    if queues != [] {
      TotalQueuedEmpty(queues[1..]);
    }
  }

  // ---------------------------------------------------------------------
  // Operations

  /** `OrderBook::new`: both trees with 50 free nodes, 50 fresh queues,
      no orders, and the sentinel best prices. */
  function New(market: Pubkey, baseMint: Pubkey, quoteMint: Pubkey): (b: OrderBook)
    ensures Inv(b)
    ensures Levels(b, Bid) == map[] && Levels(b, Ask) == map[]
    ensures b.bestBid == 0 && b.bestAsk == U64_MAX && b.totalOrders == 0 && b.nextQueueIndex == 0
    ensures b.market == market && b.baseMint == baseMint && b.quoteMint == quoteMint
    ensures b.bids.freeList == 0 && b.asks.freeList == 0
    ensures forall i :: 0 <= i < |b.queues| ==> b.queues[i] == EmptyQueue()
  {
    TotalQueuedEmpty(seq(MAX_PRICE_LEVELS, _ => EmptyQueue()));
    OrderBook(market, baseMint, quoteMint,
      CritBit.New(MAX_PRICE_LEVELS), CritBit.New(MAX_PRICE_LEVELS),
      seq(MAX_PRICE_LEVELS, _ => EmptyQueue()), 0, 0, 0, U64_MAX)
  }

  /** `update_best_prices`: caches the highest bid (0 when there is none)
      and the lowest ask (`u64::MAX` when there is none). */
  method UpdateBestPrices(b: OrderBook) returns (b1: OrderBook)
    requires Valid(b.bids) && Valid(b.asks)
    ensures b1 == b.(bestBid := b1.bestBid, bestAsk := b1.bestAsk)
    ensures BestPricesCorrect(b1)
  {
    var hi := CritBit.Max(b.bids);
    var lo := CritBit.Min(b.asks);
    var bid := if hi.Some? then hi.value.0 else 0;
    var ask := if lo.Some? then lo.value.0 else U64_MAX;
    b1 := b.(bestBid := bid, bestAsk := ask);
  }

  /** The cached price of a side, and the sentinel it holds when the side
      is empty. */
  function Cached(b: OrderBook, side: Side): u64
  {
    if side == Bid then b.bestBid else b.bestAsk
  }

  function Sentinel(side: Side): u64
  {
    if side == Bid then 0 else U64_MAX
  }

  /** The cached best price of a side is the best key of its levels, or
      the side's sentinel when it has none. */
  lemma BestPriceIsBestLevel(b: OrderBook, side: Side)
    requires Inv(b)
    ensures Levels(b, side) == map[] ==> Cached(b, side) == Sentinel(side)
    ensures Levels(b, side) != map[] ==> Cached(b, side) == BestKey(side, Levels(b, side).Keys)
  {
    var keys := Levels(b, side).Keys;
    assert keys == Prices(b, side).Keys;
    if keys != {} {
      BestUnique(side, keys, Cached(b, side), BestKey(side, keys));
    } else {
      assert Prices(b, side) == map[];
    }
  }

  /** Pushing on an existing level. */
  lemma PushExisting(b: OrderBook, o: Order, q: OrderQueue)
    requires Core(b) && o.price in Prices(b, o.side)
    requires Push(b.queues[Prices(b, o.side)[o.price]], o) == Success(q)
    ensures var b1 := b.(queues := b.queues[Prices(b, o.side)[o.price] := q]);
      && Shaped(b1) && Indexed(b1) && Stocked(b1)
      && TotalQueued(b1.queues) == TotalQueued(b.queues) + 1
      && Levels(b1, o.side) == Levels(b, o.side)[o.price := Levels(b, o.side)[o.price] + [o]]
      && Levels(b1, o.side.Opposite()) == Levels(b, o.side.Opposite())
  {
    var side, opp := o.side, o.side.Opposite();
    var i := Prices(b, side)[o.price];
    var b1 := b.(queues := b.queues[i := q]);
    var oldQ := b.queues[i];
    assert LevelOk(q, o.price, side) && Covered(q) by {
      Sides(b, side);
      assert LevelOk(oldQ, o.price, side) && Covered(oldQ);
      assert q.orders == oldQ.orders + [o];
    }
    SetQueue(b, side, o.price, q);
    TotalQueuedUpdate(b.queues, i as nat, q);
  }

  /** Replacing the queue of an existing level by another valid one. */
  lemma SetQueue(b: OrderBook, side: Side, price: u64, q: OrderQueue)
    requires Shaped(b) && Indexed(b) && Stocked(b) && price in Prices(b, side)
    requires LevelOk(q, price, side) && Covered(q)
    ensures var b1 := b.(queues := b.queues[Prices(b, side)[price] := q]);
      && Shaped(b1) && Indexed(b1) && Stocked(b1)
      && Levels(b1, side) == Levels(b, side)[price := q.orders]
      && Levels(b1, side.Opposite()) == Levels(b, side.Opposite())
  {
    var opp := side.Opposite();
    var P, O := Prices(b, side), Prices(b, opp);
    var b1 := b.(queues := b.queues[P[price] := q]);
    Sides(b, side);
    SlotUpdate(P, O, b.queues, b.nextQueueIndex as int, side, price, q);
    Rebuild(b1, side, P, O);
  }

  /** Opening a new level at the bump pointer. */
  lemma PushNew(b: OrderBook, o: Order, t: Tree)
    requires Core(b) && o.price !in Prices(b, o.side)
    requires b.nextQueueIndex as int < MAX_PRICE_LEVELS
    requires Valid(t) && |t.nodes| == MAX_PRICE_LEVELS
    requires Contents(t) == Prices(b, o.side)[o.price := b.nextQueueIndex]
    ensures var b1 := b.(queues := b.queues[b.nextQueueIndex := OrderQueue([o], o.quantity)],
                         nextQueueIndex := b.nextQueueIndex + 1).WithTree(o.side, t);
      && Shaped(b1) && Indexed(b1) && Stocked(b1)
      && TotalQueued(b1.queues) == TotalQueued(b.queues) + 1
      && Levels(b1, o.side) == Levels(b, o.side)[o.price := [o]]
      && Levels(b1, o.side.Opposite()) == Levels(b, o.side.Opposite())
  {
    var side, opp := o.side, o.side.Opposite();
    var P, O := Prices(b, side), Prices(b, opp);
    var next := b.nextQueueIndex;
    var q := OrderQueue([o], o.quantity);
    var b1 := b.(queues := b.queues[next := q], nextQueueIndex := next + 1).WithTree(side, t);
    Sides(b, side);
    assert Covered(q) by {
      assert [o][1..] == [];
    }
    assert b.queues[next] == EmptyQueue();
    SlotAdd(P, O, b.queues, next, side, o.price, q);
    Rebuild(b1, side, P[o.price := next], O);
    TotalQueuedUpdate(b.queues, next as nat, q);
  }

  /** The queue slot of the level at `price` on `side`, if there is one. */
  ghost function SlotOf(b: OrderBook, side: Side, price: u64): Option<u32>
    requires Shaped(b)
  {
    if price in Prices(b, side) then Some(Prices(b, side)[price]) else None
  }

  /** A key stored in the side's tree names the level's slot. */
  lemma NewSlot(b: OrderBook, side: Side, price: u64, qi: u32)
    requires Shaped(b) && price in Contents(b.TreeOf(side)) && Contents(b.TreeOf(side))[price] == qi
    ensures SlotOf(b, side, price) == Some(qi)
  {
  }

  /** The queue slot an insert of `o` appends to: its level's slot, or the
      bump pointer when the price is new. */
  ghost function InsertSlot(b: OrderBook, o: Order): u32
    requires Shaped(b)
  {
    if o.price in Prices(b, o.side) then Prices(b, o.side)[o.price] else b.nextQueueIndex
  }

  /** What an insert of `o` does to the slab and the trees: only the slot
      of its level changes, gaining `o` at the tail and `o.quantity` in the
      running total; the opposite tree is untouched; the side's tree is
      untouched for a known price and uses one arena node (the first key)
      or two for a new one. */
  ghost predicate Appended(b: OrderBook, b1: OrderBook, o: Order)
    requires Shaped(b)
  {
    var qi, t, t1 := InsertSlot(b, o), b.TreeOf(o.side), b1.TreeOf(o.side);
    && qi as int < |b.queues| == |b1.queues|
    && b1.queues == b.queues[qi := b1.queues[qi]]
    && b1.queues[qi].orders == b.queues[qi].orders + [o]
    && b1.queues[qi].totalQuantity as int == b.queues[qi].totalQuantity as int + o.quantity as int
    && b1.TreeOf(o.side.Opposite()) == b.TreeOf(o.side.Opposite())
    && (o.price in Prices(b, o.side) ==> t1 == t)
    && t1.freeList as int == t.freeList as int + (if o.price in Prices(b, o.side) then 0 else if t.root == EMPTY then 1 else 2)
  }

  /** The failure of opening a level: every slot is used, or the side's
      tree has no room for another leaf. */
  ghost predicate NoRoom(b: OrderBook, side: Side)
  {
    var t := b.TreeOf(side);
    || b.nextQueueIndex as int >= MAX_PRICE_LEVELS
    || t.freeList as int + (if t.root == EMPTY then 1 else 2) > MAX_PRICE_LEVELS
  }

  /** `insert_order`: appends the order to the queue of its price on its
      side, opening a level (the next queue slot and a tree entry) when the
      price is new. Opening fails with `OrderBookFull` when the 50 slots
      are used or the tree's node arena is exhausted; the queue total and
      the order count abort on overflow. */
  method InsertOrder(b: OrderBook, o: Order) returns (r: Result<OrderBook, MarketError>)
    requires Inv(b)
    ensures var P := Prices(b, o.side);
      o.price in P ==>
        (r.Failure? <==> b.queues[P[o.price]].totalQuantity + o.quantity > U64_MAX || b.totalOrders == U64_MAX)
    ensures o.price !in Prices(b, o.side) ==>
      (r.Failure? <==> NoRoom(b, o.side) || b.totalOrders == U64_MAX)
    ensures r.Failure? ==>
      r.error == if o.price !in Prices(b, o.side) && NoRoom(b, o.side) then OrderBookFull else Overflow
    ensures r.Success? ==> Inv(r.value)
    ensures r.Success? ==>
      var L := Levels(b, o.side);
      Levels(r.value, o.side) == L[o.price := (if o.price in L then L[o.price] else []) + [o]]
    ensures r.Success? ==> Levels(r.value, o.side.Opposite()) == Levels(b, o.side.Opposite())
    ensures r.Success? ==> r.value.totalOrders as int == b.totalOrders as int + 1
    ensures r.Success? ==>
      r.value.nextQueueIndex as int == b.nextQueueIndex as int + (if o.price in Prices(b, o.side) then 0 else 1)
    ensures r.Success? && o.price !in Prices(b, o.side) ==> SlotOf(r.value, o.side, o.price) == Some(b.nextQueueIndex)
    ensures r.Success? ==> Shaped(r.value) && Prices(r.value, o.side) == Prices(b, o.side)[o.price := InsertSlot(b, o)]
    ensures r.Success? ==> Appended(b, r.value, o)
    ensures r.Success? && o.price !in Prices(b, o.side) ==> r.value.queues[b.nextQueueIndex] == OrderQueue([o], o.quantity)
    ensures r.Success? ==> r.value.market == b.market && r.value.baseMint == b.baseMint && r.value.quoteMint == b.quoteMint
  {
    var e := Enqueue(b, o);
    if e.Failure? {
      return Failure(e.error);
    }
    var b1 := e.value;
    if b1.totalOrders == U64_MAX as u64 {
      return Failure(Overflow);
    }
    var b2 := b1.(totalOrders := b1.totalOrders + 1);
    var b3 := UpdateBestPrices(b2);
    Restamp(b1, b3);
    return Success(b3);
  }

  /** The queue and tree part of `insert_order`. */
  method Enqueue(b: OrderBook, o: Order) returns (r: Result<OrderBook, MarketError>)
    requires Core(b)
    ensures var P := Prices(b, o.side);
      o.price in P ==> (r.Failure? <==> b.queues[P[o.price]].totalQuantity + o.quantity > U64_MAX)
    ensures o.price !in Prices(b, o.side) ==> (r.Failure? <==> NoRoom(b, o.side))
    ensures r.Failure? ==> r.error == if o.price in Prices(b, o.side) then Overflow else OrderBookFull
    ensures r.Success? ==>
      && Shaped(r.value) && Indexed(r.value) && Stocked(r.value)
      && TotalQueued(r.value.queues) == TotalQueued(b.queues) + 1
    ensures r.Success? ==>
      var L := Levels(b, o.side);
      Levels(r.value, o.side) == L[o.price := (if o.price in L then L[o.price] else []) + [o]]
    ensures r.Success? ==> Levels(r.value, o.side.Opposite()) == Levels(b, o.side.Opposite())
    ensures r.Success? ==>
      r.value.nextQueueIndex as int == b.nextQueueIndex as int + (if o.price in Prices(b, o.side) then 0 else 1)
    ensures r.Success? && o.price !in Prices(b, o.side) ==> SlotOf(r.value, o.side, o.price) == Some(b.nextQueueIndex)
    ensures r.Success? ==> Shaped(r.value) && Prices(r.value, o.side) == Prices(b, o.side)[o.price := InsertSlot(b, o)]
    ensures r.Success? ==> Appended(b, r.value, o)
    ensures r.Success? && o.price !in Prices(b, o.side) ==> r.value.queues[b.nextQueueIndex] == OrderQueue([o], o.quantity)
    ensures r.Success? ==> r.value == b.(queues := r.value.queues, nextQueueIndex := r.value.nextQueueIndex,
                                          bids := r.value.bids, asks := r.value.asks)
  {
    ghost var L := Levels(b, o.side);
    assert L.Keys == Prices(b, o.side).Keys;
    var t := b.TreeOf(o.side);
    var found := CritBit.Find(t, o.price);
    if found.Some? {
      r := PushLevel(b, o, found.value);
      return;
    }
    assert [] + [o] == [o];
    r := OpenLevel(b, o);
  }

  /** A price already in the tree: the order joins the back of its queue. */
  method PushLevel(b: OrderBook, o: Order, qi: u32) returns (r: Result<OrderBook, MarketError>)
    requires Core(b) && o.price in Prices(b, o.side) && qi == Prices(b, o.side)[o.price]
    ensures r.Failure? <==> b.queues[qi].totalQuantity + o.quantity > U64_MAX
    ensures r.Failure? ==> r.error == Overflow
    ensures r.Success? ==>
      && Shaped(r.value) && Indexed(r.value) && Stocked(r.value)
      && TotalQueued(r.value.queues) == TotalQueued(b.queues) + 1
      && Levels(r.value, o.side) == Levels(b, o.side)[o.price := Levels(b, o.side)[o.price] + [o]]
      && Levels(r.value, o.side.Opposite()) == Levels(b, o.side.Opposite())
      && Prices(r.value, o.side) == Prices(b, o.side)
      && Appended(b, r.value, o)
      && r.value == b.(queues := r.value.queues)
  {
    var pushed := Push(b.queues[qi], o);
    if pushed.Failure? {
      return Failure(Overflow);
    }
    PushExisting(b, o, pushed.value);
    var b1 := b.(queues := b.queues[qi := pushed.value]);
    assert Prices(b1, o.side) == Prices(b, o.side);
    return Success(b1);
  }

  /** A new price: the next queue slot and a new leaf of the side's tree. */
  method OpenLevel(b: OrderBook, o: Order) returns (r: Result<OrderBook, MarketError>)
    requires Core(b) && o.price !in Prices(b, o.side)
    ensures r.Failure? <==> NoRoom(b, o.side)
    ensures r.Failure? ==> r.error == OrderBookFull
    ensures r.Success? ==>
      && Shaped(r.value) && Indexed(r.value) && Stocked(r.value)
      && TotalQueued(r.value.queues) == TotalQueued(b.queues) + 1
    ensures r.Success? ==> Levels(r.value, o.side) == Levels(b, o.side)[o.price := [o]]
    ensures r.Success? ==> Levels(r.value, o.side.Opposite()) == Levels(b, o.side.Opposite())
    ensures r.Success? ==>
      r.value.nextQueueIndex as int == b.nextQueueIndex as int + 1
    ensures r.Success? ==> Shaped(r.value) && SlotOf(r.value, o.side, o.price) == Some(b.nextQueueIndex)
    ensures r.Success? ==> Prices(r.value, o.side) == Prices(b, o.side)[o.price := b.nextQueueIndex]
    ensures r.Success? ==> Appended(b, r.value, o) && r.value.queues[b.nextQueueIndex] == OrderQueue([o], o.quantity)
    ensures r.Success? ==> r.value == b.(queues := r.value.queues, nextQueueIndex := r.value.nextQueueIndex,
                                          bids := r.value.bids, asks := r.value.asks)
  {
    if b.nextQueueIndex >= MAX_PRICE_LEVELS as u32 {
      return Failure(OrderBookFull);
    }
    var qi := b.nextQueueIndex;
    assert b.queues[qi] == EmptyQueue() by {
      assert SlabOk(b.queues, b.nextQueueIndex as int);
    }
    var q := Push(b.queues[qi], o).value;
    assert q == OrderQueue([o], o.quantity);
    var t := b.TreeOf(o.side);
    assert Valid(t) && |t.nodes| == MAX_PRICE_LEVELS && o.price !in Contents(t);
    var inserted := CritBit.Insert(t, o.price, qi);
    if inserted.Failure? {
      return Failure(OrderBookFull);
    }
    var b1 := b.(queues := b.queues[qi := q], nextQueueIndex := qi + 1).WithTree(o.side, inserted.value);
    assert Shaped(b1) && Indexed(b1) && Stocked(b1)
      && TotalQueued(b1.queues) == TotalQueued(b.queues) + 1
      && Levels(b1, o.side) == Levels(b, o.side)[o.price := [o]]
      && Levels(b1, o.side.Opposite()) == Levels(b, o.side.Opposite()) by {
      PushNew(b, o, inserted.value);
    }
    NewSlot(b1, o.side, o.price, qi);
    assert Appended(b, b1, o);
    return Success(b1);
  }

  /** A new book takes an ask of 5 at 100, then asks of 3 at 100 and at
      101: every insert succeeds; the first two share slot 0, whose
      running total becomes 8, and the third opens slot 1 with total 3. */
  method InsertScenario(market: Pubkey, baseMint: Pubkey, quoteMint: Pubkey, o: Order)
    returns (b1: OrderBook, b2: OrderBook, b3: OrderBook)
    requires o.side == Ask && o.price == 100 && o.quantity == 5
    ensures Inv(b1) && Inv(b2) && Inv(b3)
    ensures b1.queues[0].totalQuantity == 5
    ensures b2.queues[0].totalQuantity == 8
    ensures b3.queues[0].totalQuantity == 8 && b3.queues[1].totalQuantity == 3
    ensures Prices(b3, Ask) == map[100 := 0, 101 := 1]
  {
    b1 := FirstAsk(market, baseMint, quoteMint, o);
    b2 := SecondAsk(b1, o.(quantity := 3));
    b3 := ThirdAsk(b2, o.(price := 101, quantity := 3));
  }

  /** The facts the scenario passes from one insert to the next. */
  ghost predicate AskState(b: OrderBook, slots: map<u64, u32>, count: u64)
  {
    && Inv(b) && Prices(b, Ask) == slots && b.nextQueueIndex as int == |slots|
    && b.asks.freeList as int == (if |slots| == 0 then 0 else 2 * |slots| - 1)
    && b.totalOrders == count
  }

  method FirstAsk(market: Pubkey, baseMint: Pubkey, quoteMint: Pubkey, o: Order) returns (b1: OrderBook)
    requires o.side == Ask && o.price == 100 && o.quantity == 5
    ensures AskState(b1, map[100 := 0], 1) && b1.queues[0].totalQuantity == 5
  {
    var b := New(market, baseMint, quoteMint);
    assert Prices(b, Ask) == map[] && b.queues[0] == EmptyQueue();
    var r := InsertOrder(b, o);
    b1 := r.value;
    assert Prices(b1, Ask).Keys == Levels(b1, Ask).Keys == {100};
    assert SlotOf(b1, Ask, 100) == Some(0);
  }

  method SecondAsk(b1: OrderBook, o: Order) returns (b2: OrderBook)
    requires AskState(b1, map[100 := 0], 1) && b1.queues[0].totalQuantity == 5
    requires o.side == Ask && o.price == 100 && o.quantity == 3
    ensures AskState(b2, map[100 := 0], 2) && b2.queues[0].totalQuantity == 8
  {
    var r := InsertOrder(b1, o);
    b2 := r.value;
    assert Prices(b2, Ask).Keys == Levels(b2, Ask).Keys == {100};
    assert b2.asks == b1.asks;
  }

  method ThirdAsk(b2: OrderBook, o: Order) returns (b3: OrderBook)
    requires AskState(b2, map[100 := 0], 2) && b2.queues[0].totalQuantity == 8
    requires o.side == Ask && o.price == 101 && o.quantity == 3
    ensures AskState(b3, map[100 := 0, 101 := 1], 3)
    ensures b3.queues[0].totalQuantity == 8 && b3.queues[1].totalQuantity == 3
  {
    assert b2.queues[1] == EmptyQueue() by {
      assert SlabOk(b2.queues, b2.nextQueueIndex as int);
    }
    var r := InsertOrder(b2, o);
    b3 := r.value;
  }

  /** The count and the cached prices are outside the level structure. */
  lemma Restamp(b: OrderBook, b1: OrderBook)
    requires Shaped(b) && Indexed(b) && Stocked(b)
    requires b1 == b.(totalOrders := b1.totalOrders, bestBid := b1.bestBid, bestAsk := b1.bestAsk)
    ensures Shaped(b1) && Indexed(b1) && Stocked(b1)
    ensures Prices(b1, Bid) == Prices(b, Bid) && Prices(b1, Ask) == Prices(b, Ask)
    ensures Levels(b1, Bid) == Levels(b, Bid) && Levels(b1, Ask) == Levels(b, Ask)
  {
  }

  /** The orders left at a level once the one at `i` is taken out. */
  function Without(orders: seq<Order>, i: nat): (rest: seq<Order>)
    requires i < |orders|
    ensures |rest| + 1 == |orders|
    ensures forall o :: o in rest ==> o in orders
  {
    orders[..i] + orders[i + 1..]
  }

  /** What taking out the order at position `i` of the level at `price`
      does to the slab and the trees: only the level's slot changes,
      losing that order and its quantity from the running total; the
      opposite tree is untouched, the side's tree is untouched while the
      level keeps orders, and neither tree's bump pointer moves. */
  ghost predicate TakenOut(b: OrderBook, b1: OrderBook, side: Side, price: u64, i: nat)
    requires Shaped(b) && price in Prices(b, side)
  {
    var qi := Prices(b, side)[price];
    && qi as int < |b.queues| == |b1.queues|
    && i < |b.queues[qi].orders|
    && b1.queues == b.queues[qi := b1.queues[qi]]
    && b1.queues[qi].orders == Without(b.queues[qi].orders, i)
    && b1.queues[qi].totalQuantity as int == b.queues[qi].totalQuantity as int - b.queues[qi].orders[i].quantity as int
    && b1.TreeOf(side.Opposite()) == b.TreeOf(side.Opposite())
    && (b1.queues[qi].orders != [] ==> b1.TreeOf(side) == b.TreeOf(side))
    && b1.bids.freeList == b.bids.freeList && b1.asks.freeList == b.asks.freeList
  }

  /** Taking an order out of a level that keeps other orders. */
  lemma TakeKeep(b: OrderBook, side: Side, price: u64, q: OrderQueue)
    requires Shaped(b) && Indexed(b) && Stocked(b) && price in Prices(b, side)
    requires var oldQ := b.queues[Prices(b, side)[price]];
      exists i :: 0 <= i < |oldQ.orders| && q.orders == Without(oldQ.orders, i)
    requires q.orders != [] && Covered(q)
    ensures var b1 := b.(queues := b.queues[Prices(b, side)[price] := q]);
      && Shaped(b1) && Indexed(b1) && Stocked(b1)
      && TotalQueued(b1.queues) + 1 == TotalQueued(b.queues)
      && Levels(b1, side) == Levels(b, side)[price := q.orders]
      && Levels(b1, side.Opposite()) == Levels(b, side.Opposite())
  {
    var i := Prices(b, side)[price];
    var oldQ := b.queues[i];
    assert LevelOk(q, price, side) by {
      Sides(b, side);
      assert LevelOk(oldQ, price, side);
    }
    SetQueue(b, side, price, q);
    TotalQueuedUpdate(b.queues, i as nat, q);
  }

  /** Taking the last order out of a level, which leaves the tree. */
  lemma TakeLast(b: OrderBook, side: Side, price: u64, q: OrderQueue, t: Tree)
    requires Shaped(b) && Indexed(b) && Stocked(b) && price in Prices(b, side)
    requires |b.queues[Prices(b, side)[price]].orders| == 1 && q.orders == [] && Covered(q)
    requires Valid(t) && |t.nodes| == MAX_PRICE_LEVELS && Contents(t) == Prices(b, side) - {price}
    ensures var b1 := b.(queues := b.queues[Prices(b, side)[price] := q]).WithTree(side, t);
      && Shaped(b1) && Indexed(b1) && Stocked(b1)
      && TotalQueued(b1.queues) + 1 == TotalQueued(b.queues)
      && Levels(b1, side) == Levels(b, side) - {price}
      && Levels(b1, side.Opposite()) == Levels(b, side.Opposite())
  {
    var opp := side.Opposite();
    var P, O := Prices(b, side), Prices(b, opp);
    var i := P[price];
    var b1 := b.(queues := b.queues[i := q]).WithTree(side, t);
    Sides(b, side);
    SlotDrop(P, O, b.queues, b.nextQueueIndex as int, side, price, q);
    Rebuild(b1, side, P - {price}, O);
    TotalQueuedUpdate(b.queues, i as nat, q);
  }

  /** `remove_order`: takes the first order with id `order_id` out of the
      queue at `price` on `side`, dropping the level from the tree when its
      queue becomes empty. A missing level or id is `OrderNotFound`. */
  method RemoveOrder(b: OrderBook, orderId: u128, side: Side, price: u64) returns (r: Result<(OrderBook, Order), MarketError>)
    requires Inv(b)
    ensures var L := Levels(b, side);
      r.Success? <==> price in L && Position(L[price], orderId).Some?
    ensures r.Failure? ==> r.error == OrderNotFound
    ensures r.Success? ==>
      var L := Levels(b, side);
      var i := Position(L[price], orderId).value;
      var rest := Without(L[price], i);
      && Inv(r.value.0)
      && r.value.1 == L[price][i]
      && Levels(r.value.0, side) == (if rest == [] then L - {price} else L[price := rest])
      && Levels(r.value.0, side.Opposite()) == Levels(b, side.Opposite())
      && r.value.0.totalOrders as int == b.totalOrders as int - 1
      && r.value.0.nextQueueIndex == b.nextQueueIndex
      && r.value.0.bids.freeList == b.bids.freeList && r.value.0.asks.freeList == b.asks.freeList
      && TakenOut(b, r.value.0, side, price, i)
      && r.value.0.market == b.market && r.value.0.baseMint == b.baseMint && r.value.0.quoteMint == b.quoteMint
  {
    var d := Dequeue(b, orderId, side, price);
    if d.Failure? {
      return Failure(d.error);
    }
    var (b1, o) := d.value;
    var b2 := b1.(totalOrders := b1.totalOrders - 1);
    var b3 := UpdateBestPrices(b2);
    Restamp(b1, b3);
    return Success((b3, o));
  }

  /** The queue and tree part of `remove_order`. */
  method Dequeue(b: OrderBook, orderId: u128, side: Side, price: u64) returns (r: Result<(OrderBook, Order), MarketError>)
    requires Core(b)
    ensures var L := Levels(b, side);
      r.Success? <==> price in L && Position(L[price], orderId).Some?
    ensures r.Failure? ==> r.error == OrderNotFound
    ensures r.Success? ==>
      var L := Levels(b, side);
      var i := Position(L[price], orderId).value;
      var rest := Without(L[price], i);
      && Shaped(r.value.0) && Indexed(r.value.0) && Stocked(r.value.0)
      && TotalQueued(r.value.0.queues) + 1 == TotalQueued(b.queues)
      && r.value.1 == L[price][i]
      && Levels(r.value.0, side) == (if rest == [] then L - {price} else L[price := rest])
      && Levels(r.value.0, side.Opposite()) == Levels(b, side.Opposite())
      && r.value.0.bids.freeList == b.bids.freeList && r.value.0.asks.freeList == b.asks.freeList
      && TakenOut(b, r.value.0, side, price, i)
      && r.value.0 == b.(queues := r.value.0.queues, bids := r.value.0.bids, asks := r.value.0.asks)
  {
    assert Levels(b, side).Keys == Prices(b, side).Keys;
    var found := CritBit.Find(b.TreeOf(side), price);
    if found.None? {
      return Failure(OrderNotFound);
    }
    r := TakeOut(b, orderId, side, price, found.value);
  }

  /** `remove_order` once the level's queue slot `qi` is known. */
  method TakeOut(b: OrderBook, orderId: u128, side: Side, price: u64, qi: u32) returns (r: Result<(OrderBook, Order), MarketError>)
    requires Core(b) && price in Prices(b, side) && qi == Prices(b, side)[price]
    ensures var L := Levels(b, side);
      r.Success? <==> Position(L[price], orderId).Some?
    ensures r.Failure? ==> r.error == OrderNotFound
    ensures r.Success? ==>
      var L := Levels(b, side);
      var i := Position(L[price], orderId).value;
      var rest := Without(L[price], i);
      && Shaped(r.value.0) && Indexed(r.value.0) && Stocked(r.value.0)
      && TotalQueued(r.value.0.queues) + 1 == TotalQueued(b.queues)
      && r.value.1 == L[price][i]
      && Levels(r.value.0, side) == (if rest == [] then L - {price} else L[price := rest])
      && Levels(r.value.0, side.Opposite()) == Levels(b, side.Opposite())
      && r.value.0.bids.freeList == b.bids.freeList && r.value.0.asks.freeList == b.asks.freeList
      && TakenOut(b, r.value.0, side, price, i)
      && r.value.0 == b.(queues := r.value.0.queues, bids := r.value.0.bids, asks := r.value.0.asks)
  {
    ghost var L := Levels(b, side);
    var oldQ := b.queues[qi];
    assert L[price] == oldQ.orders;
    assert Covered(oldQ) && oldQ.orders != [] by {
      Sides(b, side);
    }
    RemoveCovered(oldQ, orderId);
    var (q, taken) := Remove(oldQ, orderId).value;
    if taken.None? {
      return Failure(OrderNotFound);
    }
    ghost var i := Position(oldQ.orders, orderId).value;
    assert q.orders == Without(oldQ.orders, i);
    if !q.IsEmpty() {
      TakeKeep(b, side, price, q);
      return Success((b.(queues := b.queues[qi := q]), taken.value));
    }
    var b1 := DropLevel(b, side, price, qi, q);
    return Success((b1, taken.value));
  }

  /** The last order of a level is gone: its price leaves the side's tree. */
  method DropLevel(b: OrderBook, side: Side, price: u64, qi: u32, q: OrderQueue) returns (b1: OrderBook)
    requires Shaped(b) && Indexed(b) && Stocked(b) && price in Prices(b, side) && qi == Prices(b, side)[price]
    requires |b.queues[Prices(b, side)[price]].orders| == 1 && q.orders == [] && Covered(q)
    ensures && Shaped(b1) && Indexed(b1) && Stocked(b1)
      && TotalQueued(b1.queues) + 1 == TotalQueued(b.queues)
      && Levels(b1, side) == Levels(b, side) - {price}
      && Levels(b1, side.Opposite()) == Levels(b, side.Opposite())
    ensures b1 == b.(queues := b1.queues, bids := b1.bids, asks := b1.asks)
    ensures b1.queues == b.queues[qi := q] && b1.TreeOf(side.Opposite()) == b.TreeOf(side.Opposite())
    ensures b1.bids.freeList == b.bids.freeList && b1.asks.freeList == b.asks.freeList
    ensures Prices(b1, side) == Prices(b, side) - {price}
  {
    var t := b.TreeOf(side);
    var removed := CritBit.Remove(t, price);
    assert removed.Success?;
    b1 := b.(queues := b.queues[qi := q]).WithTree(side, removed.value.0);
    TakeLast(b, side, price, q, removed.value.0);
  }

  // ---------------------------------------------------------------------
  // Queries

  /** The best level of `side` read from its tree: `max` for bids, `min`
      for asks, as `get_best_order`, `get_depth` and `match_order` do. */
  method BestLevel(b: OrderBook, side: Side) returns (r: Option<(u64, u32)>)
    requires Shaped(b) && Indexed(b) && Stocked(b)
    ensures r.None? <==> Levels(b, side) == map[]
    ensures r.Some? ==>
      && Levels(b, side) != map[]
      && r.value.0 == BestKey(side, Levels(b, side).Keys)
      && r.value.0 in Prices(b, side) && r.value.1 == Prices(b, side)[r.value.0]
  {
    ghost var keys := Levels(b, side).Keys;
    assert keys == Prices(b, side).Keys;
    if side == Bid {
      r := CritBit.Max(b.bids);
    } else {
      r := CritBit.Min(b.asks);
    }
    if r.Some? {
      BestUnique(side, keys, r.value.0, BestKey(side, keys));
    }
  }

  /** `get_best_order` (and `get_best_order_mut`): the oldest order at the
      best price of `side`. */
  method GetBestOrder(b: OrderBook, side: Side) returns (r: Option<Order>)
    requires Inv(b)
    ensures r.None? <==> Levels(b, side) == map[]
    ensures r.Some? ==> r.value == Levels(b, side)[BestKey(side, Levels(b, side).Keys)][0]
  {
    var best := BestLevel(b, side);
    if best.None? {
      return None;
    }
    assert b.queues[best.value.1].orders != [] by {
      Sides(b, side);
    }
    r := Peek(b.queues[best.value.1]);
  }

  /** `get_depth`: only the best level is reported, as its price and its
      queue's running total (which bounds the quantity queued there from
      above); the requested number of levels is ignored. */
  method GetDepth(b: OrderBook, side: Side, levels: nat) returns (r: seq<(u64, u64)>)
    requires Inv(b)
    ensures Levels(b, side) == map[] ==> r == []
    ensures Levels(b, side) != map[] ==>
      && |r| == 1
      && r[0].0 == BestKey(side, Levels(b, side).Keys)
      && r[0].1 as int >= Quantities(Levels(b, side)[r[0].0])
      && r[0].1 == b.queues[Prices(b, side)[r[0].0]].totalQuantity
  {
    var best := BestLevel(b, side);
    r := [];
    if best.Some? {
      var q := b.queues[best.value.1];
      assert Covered(q) by {
        Sides(b, side);
      }
      r := r + [(best.value.0, q.totalQuantity)];
    }
  }

  /** `get_spread`: none while either cached price is its sentinel;
      otherwise how far the best ask lies above the best bid, 0 for a
      crossed book. */
  function GetSpread(b: OrderBook): (r: Option<u64>)
    ensures r.None? <==> b.bestBid == 0 || b.bestAsk == U64_MAX
    ensures r.Some? && b.bestBid <= b.bestAsk ==> b.bestBid as int + r.value as int == b.bestAsk as int
    ensures r.Some? && b.bestBid > b.bestAsk ==> r.value == 0
  {
    if b.bestBid == 0 || b.bestAsk == U64_MAX as u64 then None
    else Some(if b.bestAsk >= b.bestBid then b.bestAsk - b.bestBid else 0)
  }

  /** The spread read off the trees' best price levels: missing when a side
      is empty, and also when the best bid is priced 0 or the best ask
      `u64::MAX`, since those prices coincide with the sentinels. Only the
      cached prices' agreement with the trees is needed. */
  lemma SpreadOfBook(b: OrderBook)
    requires Shaped(b) && BestPricesCorrect(b)
    ensures Prices(b, Bid) == map[] || Prices(b, Ask) == map[] ==> GetSpread(b) == None
    ensures Prices(b, Bid) != map[] && Prices(b, Ask) != map[] ==>
      var bid, ask := BestKey(Bid, Prices(b, Bid).Keys), BestKey(Ask, Prices(b, Ask).Keys);
      GetSpread(b) == if bid == 0 || ask == U64_MAX as u64 then None else Some(if ask >= bid then ask - bid else 0)
  {
    if Prices(b, Bid) != map[] && Prices(b, Ask) != map[] {
      BestUnique(Bid, Prices(b, Bid).Keys, b.bestBid, BestKey(Bid, Prices(b, Bid).Keys));
      BestUnique(Ask, Prices(b, Ask).Keys, b.bestAsk, BestKey(Ask, Prices(b, Ask).Keys));
    }
  }

  /** `get_mid_price` as written: `best_bid + best_ask` is a checked u64
      sum, so two large prices abort instead of yielding their midpoint. */
  function GetMidPriceAsWritten(b: OrderBook): (r: Result<Option<u64>, MarketError>)
    ensures r.Failure? <==> b.bestBid != 0 && b.bestAsk != U64_MAX as u64 && b.bestBid as int + b.bestAsk as int > U64_MAX
    ensures r.Failure? ==> r.error == Overflow
    ensures r.Success? ==> (r.value.None? <==> b.bestBid == 0 || b.bestAsk == U64_MAX)
    ensures r.Success? && r.value.Some? ==> r.value.value as int == (b.bestBid as int + b.bestAsk as int) / 2
  {
    if b.bestBid == 0 || b.bestAsk == U64_MAX as u64 then Success(None)
    else if b.bestBid as int + b.bestAsk as int > U64_MAX then Failure(Overflow)
    else Success(Some(((b.bestBid as int + b.bestAsk as int) / 2) as u64))
  }

  /** The midpoint of the cached prices, computed without leaving 64 bits:
      half of each, plus one when both are odd. */
  function GetMidPrice(b: OrderBook): (r: Option<u64>)
    ensures r.None? <==> b.bestBid == 0 || b.bestAsk == U64_MAX
    ensures r.Some? ==> r.value as int == (b.bestBid as int + b.bestAsk as int) / 2
    ensures r.Some? && b.bestBid <= b.bestAsk ==> b.bestBid <= r.value <= b.bestAsk
  {
    if b.bestBid == 0 || b.bestAsk == U64_MAX as u64 then None
    else Some(b.bestBid / 2 + b.bestAsk / 2 + (b.bestBid % 2 + b.bestAsk % 2) / 2)
  }

  /** A bid at 2^63 and an ask at 2^63 + 2 have the midpoint 2^63 + 1,
      which the written sum cannot reach. */
  lemma MidPriceOverflows(b: OrderBook)
    requires b.bestBid == 0x8000_0000_0000_0000 && b.bestAsk == 0x8000_0000_0000_0002
    ensures GetMidPriceAsWritten(b) == Failure(Overflow)
    ensures GetMidPrice(b) == Some(0x8000_0000_0000_0001)
  {
  }

  /** Whenever the written sum fits, both compute the same midpoint. */
  lemma MidPriceAgrees(b: OrderBook)
    requires GetMidPriceAsWritten(b).Success?
    ensures GetMidPriceAsWritten(b).value == GetMidPrice(b)
  {
  }

  /** `would_self_trade`: the oldest order at the best opposite price
      belongs to `owner`. */
  method WouldSelfTrade(b: OrderBook, side: Side, owner: Pubkey) returns (r: bool)
    requires Inv(b)
    ensures r <==>
      var L := Levels(b, side.Opposite());
      L != map[] && L[BestKey(side.Opposite(), L.Keys)][0].owner == owner
  {
    var best := GetBestOrder(b, side.Opposite());
    r := best.Some? && best.value.owner == owner;
  }
}

=== FILE: order_processor.dfy ===
/** The settlement step of the order-processor program (lib.rs): a pending
    matched order is settled once a Groth16 proof passes the program's
    checks. The checks are structural only (no proof element all zero, at
    least two public signals); the pairing check is a placeholder that
    accepts every well-formed proof. The status change is requested from
    the order store by a cross-program call, recorded here as the status
    requested. */
module OrderProcessor {
  import opened Base
  import opened OrderStore

  datatype ProcessorError = OrderNotPending | InvalidZKProof | MalformedProof | InvalidPublicSignals

  predicate AllZero(bytes: seq<u8>)
  {
    forall i :: 0 <= i < |bytes| ==> bytes[i] == 0
  }

  /** `validate_groth16_proof`: a proof element that is all zero bytes is
      malformed (checked first); fewer than two public signals are
      invalid; any other proof is accepted. */
  function ValidateGroth16Proof(proofA: seq<u8>, proofB: seq<u8>, proofC: seq<u8>, publicSignals: seq<string>): (r: Result<bool, ProcessorError>)
    requires |proofA| == 64 && |proofB| == 128 && |proofC| == 64
    ensures r.Failure? <==> AllZero(proofA) || AllZero(proofB) || AllZero(proofC) || |publicSignals| < 2
    ensures r.Failure? ==>
      r.error == if AllZero(proofA) || AllZero(proofB) || AllZero(proofC) then MalformedProof else InvalidPublicSignals
    ensures r.Success? ==> r.value
  {
    if AllZero(proofA) || AllZero(proofB) || AllZero(proofC) then Failure(MalformedProof)
    else if |publicSignals| < 2 then Failure(InvalidPublicSignals)
    else Success(true)
  }

  /** `finalize_trade`: the order must be pending (checked first), then the
      proof must pass; the status requested from the order store is
      `Settled`. */
  function FinalizeTrade(order: MatchedOrder, proofA: seq<u8>, proofB: seq<u8>, proofC: seq<u8>, publicSignals: seq<string>): (r: Result<OrderStatus, ProcessorError>)
    requires |proofA| == 64 && |proofB| == 128 && |proofC| == 64
    ensures r.Failure? <==>
      order.status != Pending || AllZero(proofA) || AllZero(proofB) || AllZero(proofC) || |publicSignals| < 2
    ensures r.Failure? ==>
      r.error == if order.status != Pending then OrderNotPending
                 else if AllZero(proofA) || AllZero(proofB) || AllZero(proofC) then MalformedProof
                 else InvalidPublicSignals
    ensures r.Success? ==> r.value == Settled
  {
    if order.status != Pending then Failure(OrderNotPending)
    else
      var valid :- ValidateGroth16Proof(proofA, proofB, proofC, publicSignals);
      if !valid then Failure(InvalidZKProof)
      else Success(Settled)
  }

  /** The validator never answers `false`, so `InvalidZKProof` is never
      raised. */
  lemma InvalidZKProofUnreachable(order: MatchedOrder, proofA: seq<u8>, proofB: seq<u8>, proofC: seq<u8>, publicSignals: seq<string>)
    requires |proofA| == 64 && |proofB| == 128 && |proofC| == 64
    ensures FinalizeTrade(order, proofA, proofB, proofC, publicSignals) != Failure(InvalidZKProof)
  {
  }

  /** Once the requested status is applied, the order is no longer pending
      and a second finalize is rejected whatever proof it carries. */
  lemma FinalizeOnce(order: MatchedOrder, proofA: seq<u8>, proofB: seq<u8>, proofC: seq<u8>, publicSignals: seq<string>,
                     now: i64, proofA2: seq<u8>, proofB2: seq<u8>, proofC2: seq<u8>, publicSignals2: seq<string>)
    requires |proofA| == 64 && |proofB| == 128 && |proofC| == 64
    requires |proofA2| == 64 && |proofB2| == 128 && |proofC2| == 64
    requires FinalizeTrade(order, proofA, proofB, proofC, publicSignals).Success?
    ensures FinalizeTrade(SettleOrder(order, now), proofA2, proofB2, proofC2, publicSignals2) == Failure(OrderNotPending)
  {
  }

  /** A freshly created matched order settles with any proof whose three
      elements each have a non-zero byte and two public signals. */
  lemma FreshOrderSettles(m: MatchedOrder, proofA: seq<u8>, proofB: seq<u8>, proofC: seq<u8>, publicSignals: seq<string>)
    requires m.status == Pending
    requires |proofA| == 64 && |proofB| == 128 && |proofC| == 64
    requires proofA[0] != 0 && proofB[0] != 0 && proofC[0] != 0 && |publicSignals| >= 2
    ensures FinalizeTrade(m, proofA, proofB, proofC, publicSignals) == Success(Settled)
  {
  }
}

=== FILE: order_queue.dfy ===
/** The per-price-level FIFO queue of orders (`OrderQueue` of order.rs)
    with its running `total_quantity`. The total is maintained by `push`,
    `remove` and `pop_if_filled` but not by partial fills, so in general
    it only bounds the queued quantity from above. */
module OrderQueues {
  import opened Base
  import opened Orders

  datatype OrderQueue = OrderQueue(orders: seq<Order>, totalQuantity: u64)
  {
    /** `is_empty` */
    predicate IsEmpty()
    {
      |orders| == 0
    }
  }

  /** `OrderQueue::new` */
  function EmptyQueue(): (q: OrderQueue)
    ensures q.IsEmpty() && q.totalQuantity == 0 && Covered(q)
  {
    OrderQueue([], 0)
  }

  /** The sum of the remaining quantities of `orders`. */
  ghost function Quantities(orders: seq<Order>): nat
  {
    if orders == [] then 0 else orders[0].quantity + Quantities(orders[1..])
  }

  lemma {:induction false} QuantitiesAppend(a: seq<Order>, b: seq<Order>)
    ensures Quantities(a + b) == Quantities(a) + Quantities(b)
  {
    if a != [] {
      assert (a + b)[1..] == a[1..] + b;
      QuantitiesAppend(a[1..], b);
    } else {
      assert a + b == b;
    }
  }

  /** The running total covers what is queued. */
  ghost predicate Covered(q: OrderQueue)
  {
    q.totalQuantity >= Quantities(q.orders)
  }

  /** `push`: appends at the tail. The total grows by the order's
      quantity, and the push aborts if it leaves 64 bits. */
  function Push(q: OrderQueue, o: Order): (r: Result<OrderQueue, MarketError>)
    ensures r.Failure? <==> q.totalQuantity + o.quantity > U64_MAX
    ensures r.Failure? ==> r.error == Overflow
    ensures r.Success? ==> r.value.orders == q.orders + [o]
    ensures r.Success? ==> r.value.totalQuantity as int == q.totalQuantity as int + o.quantity as int
    ensures r.Success? ==> r.value.totalQuantity - Quantities(r.value.orders) == q.totalQuantity - Quantities(q.orders)
  {
    QuantitiesAppend(q.orders, [o]);
    assert Quantities([o]) == o.quantity;
    if q.totalQuantity + o.quantity > U64_MAX then Failure(Overflow)
    else Success(OrderQueue(q.orders + [o], q.totalQuantity + o.quantity))
  }

  /** The position of the first order with id `id`, if any. */
  function Position(orders: seq<Order>, id: u128): (r: Option<nat>)
    ensures r.Some? ==> r.value < |orders| && orders[r.value].orderId == id
    ensures r.Some? ==> forall j :: 0 <= j < r.value ==> orders[j].orderId != id
    ensures r.None? ==> forall j :: 0 <= j < |orders| ==> orders[j].orderId != id
  {
    if orders == [] then None
    else if orders[0].orderId == id then Some(0)
    else match Position(orders[1..], id)
      case None => None
      case Some(i) => Some(i + 1)
  }

  /** `remove`: takes out the first order with id `id`, keeping the others
      in order, and subtracts its quantity from the total; the subtraction
      aborts if the total is smaller. An absent id changes nothing. */
  function Remove(q: OrderQueue, id: u128): (r: Result<(OrderQueue, Option<Order>), MarketError>)
    ensures Position(q.orders, id).None? ==> r == Success((q, None))
    ensures Position(q.orders, id).Some? ==>
      var i := Position(q.orders, id).value;
      && (r.Failure? <==> q.totalQuantity < q.orders[i].quantity)
      && (r.Failure? ==> r.error == Overflow)
      && (r.Success? ==>
            && r.value.1 == Some(q.orders[i])
            && r.value.0.orders == q.orders[..i] + q.orders[i + 1..]
            && r.value.0.totalQuantity as int == q.totalQuantity as int - q.orders[i].quantity as int
            && r.value.0.totalQuantity - Quantities(r.value.0.orders) == q.totalQuantity - Quantities(q.orders))
  {
    match Position(q.orders, id)
    case None => Success((q, None))
    case Some(i) =>
      var o := q.orders[i];
      assert q.orders == q.orders[..i] + [o] + q.orders[i + 1..];
      QuantitiesAppend(q.orders[..i] + [o], q.orders[i + 1..]);
      QuantitiesAppend(q.orders[..i], [o]);
      QuantitiesAppend(q.orders[..i], q.orders[i + 1..]);
      assert Quantities([o]) == o.quantity;
      if q.totalQuantity < o.quantity then Failure(Overflow)
      else Success((OrderQueue(q.orders[..i] + q.orders[i + 1..], q.totalQuantity - o.quantity), Some(o)))
  }

  /** A queue whose total covers its orders never fails to remove one. */
  lemma RemoveCovered(q: OrderQueue, id: u128)
    requires Covered(q)
    ensures Remove(q, id).Success?
    ensures Remove(q, id).Success? ==> Covered(Remove(q, id).value.0)
  {
    if Position(q.orders, id).Some? {
      var i := Position(q.orders, id).value;
      assert q.orders == q.orders[..i] + [q.orders[i]] + q.orders[i + 1..];
      QuantitiesAppend(q.orders[..i] + [q.orders[i]], q.orders[i + 1..]);
      QuantitiesAppend(q.orders[..i], [q.orders[i]]);
      assert Quantities([q.orders[i]]) == q.orders[i].quantity;
    }
  }

  /** `peek`: the oldest order. */
  function Peek(q: OrderQueue): (r: Option<Order>)
    ensures r.None? <==> q.IsEmpty()
    ensures r.Some? ==> r.value == q.orders[0]
  {
    if |q.orders| == 0 then None else Some(q.orders[0])
  }

  /** First in, first out: a push is seen by `peek` only on an empty queue. */
  lemma PushPeek(q: OrderQueue, o: Order)
    requires Push(q, o).Success?
    ensures Peek(Push(q, o).value) == if q.IsEmpty() then Some(o) else Peek(q)
  {
  }

  /** `pop_if_filled`: removes the head, and only the head, when it is
      filled, subtracting its (zero) quantity from the total. */
  function PopIfFilled(q: OrderQueue): (r: (OrderQueue, Option<Order>))
    ensures !q.IsEmpty() && q.orders[0].IsFilled() ==>
      r.1 == Some(q.orders[0]) && r.0.orders == q.orders[1..]
    ensures q.IsEmpty() || !q.orders[0].IsFilled() ==> r == (q, None)
    ensures r.0.totalQuantity - Quantities(r.0.orders) == q.totalQuantity - Quantities(q.orders)
  {
    if |q.orders| > 0 && q.orders[0].IsFilled() then
      var o := q.orders[0];
      (OrderQueue(q.orders[1..], q.totalQuantity - o.quantity), Some(o))
    else
      (q, None)
  }

  /** `update_quantity`: a negative delta lowers the total, stopping at
      zero; a non-negative one raises it and aborts on overflow. Negating
      `i64::MIN` aborts as well. */
  function UpdateQuantity(q: OrderQueue, delta: i64): (r: Result<OrderQueue, MarketError>)
    ensures r.Failure? <==> delta == I64_MIN || q.totalQuantity + delta > U64_MAX
    ensures r.Failure? ==> r.error == Overflow
    ensures r.Success? ==> r.value.orders == q.orders
    ensures r.Success? ==> r.value.totalQuantity == if q.totalQuantity + delta < 0 then 0 else q.totalQuantity + delta
  {
    if delta < 0 then
      if delta == I64_MIN then Failure(Overflow)
      else
        var down: u64 := -delta;
        Success(q.(totalQuantity := if q.totalQuantity >= down then q.totalQuantity - down else 0))
    else if q.totalQuantity + delta > U64_MAX then Failure(Overflow)
    else Success(q.(totalQuantity := q.totalQuantity + delta))
  }

  /** An update that neither saturates nor overflows is undone by the
      opposite update. */
  lemma UpdateQuantityUndo(q: OrderQueue, delta: i64)
    requires delta != I64_MIN && 0 <= q.totalQuantity + delta <= U64_MAX
    ensures UpdateQuantity(q, delta).Success?
    ensures UpdateQuantity(UpdateQuantity(q, delta).value, -delta) == Success(q)
  {
  }
}

=== FILE: order_store.dfy ===
/** The matched-order record of the order-store program (lib.rs) and its
    three instructions. The status setters carry no guard: any status can
    be overwritten by `Confirmed` or `Settled`, and nothing produces
    `Cancelled`. The clock is a parameter (`now`, the Unix timestamp). */
module OrderStore {
  import opened Base

  datatype OrderStatus = Pending | Confirmed | Settled | Cancelled

  datatype MatchedOrder = MatchedOrder(
    orderId: u64,
    bidder: Pubkey,
    seller: Pubkey,
    tokenMint: Pubkey,
    amount: u64,
    price: u64,
    status: OrderStatus,
    createdAt: i64,
    updatedAt: i64)

  /** Declared by the program; no instruction returns it. */
  datatype StoreError = InvalidOrderStatus

  /** `create_matched_order`: records the match as pending, created and
      updated now. */
  function CreateMatchedOrder(orderId: u64, bidder: Pubkey, seller: Pubkey, tokenMint: Pubkey, amount: u64, price: u64, now: i64): (m: MatchedOrder)
    ensures m.orderId == orderId && m.bidder == bidder && m.seller == seller && m.tokenMint == tokenMint
    ensures m.amount == amount && m.price == price
    ensures m.status == Pending && m.createdAt == now && m.updatedAt == now
  {
    MatchedOrder(orderId, bidder, seller, tokenMint, amount, price, Pending, now, now)
  }

  /** `confirm_order`: from any status; the proof data is ignored. */
  function ConfirmOrder(m: MatchedOrder, proofData: seq<u8>, now: i64): (m2: MatchedOrder)
    ensures m2.status == Confirmed && m2.updatedAt == now
    ensures m2.(status := m.status, updatedAt := m.updatedAt) == m
  {
    m.(status := Confirmed, updatedAt := now)
  }

  /** `settle_order`: from any status. */
  function SettleOrder(m: MatchedOrder, now: i64): (m2: MatchedOrder)
    ensures m2.status == Settled && m2.updatedAt == now
    ensures m2.(status := m.status, updatedAt := m.updatedAt) == m
  {
    m.(status := Settled, updatedAt := now)
  }

  /** A call of one of the two setters at a given time. */
  datatype Call = Confirm(proofData: seq<u8>, at: i64) | Settle(at: i64)

  function Apply(m: MatchedOrder, c: Call): MatchedOrder
  {
    match c
    case Confirm(p, at) => ConfirmOrder(m, p, at)
    case Settle(at) => SettleOrder(m, at)
  }

  function Run(m: MatchedOrder, calls: seq<Call>): MatchedOrder
    decreases |calls|
  {
    if calls == [] then m else Run(Apply(m, calls[0]), calls[1..])
  }

  /** Whatever setters follow creation: only status and update time move,
      the creation time and the match terms never change, the order is
      never cancelled, and after at least one call the status is that of
      the last one. */
  lemma {:induction false} RunKeepsRecord(m: MatchedOrder, calls: seq<Call>)
    decreases |calls|
    ensures Run(m, calls).(status := m.status, updatedAt := m.updatedAt) == m
    ensures m.status != Cancelled ==> Run(m, calls).status != Cancelled
    ensures calls != [] ==>
      Run(m, calls).status == if calls[|calls| - 1].Confirm? then Confirmed else Settled
  {
    if calls != [] {
      RunKeepsRecord(Apply(m, calls[0]), calls[1..]);
      if |calls| > 1 {
        assert calls[1..][|calls[1..]| - 1] == calls[|calls| - 1];
      }
    }
  }

  /** No guard: a settled order can be confirmed again. */
  lemma SettledCanBeConfirmed(m: MatchedOrder, proofData: seq<u8>, t1: i64, t2: i64)
    ensures SettleOrder(m, t1).status == Settled
    ensures ConfirmOrder(SettleOrder(m, t1), proofData, t2).status == Confirmed
  {
  }
}
